=== FILE: README.md ===
# Storefront rules and handler state machines, in Dafny

This project models the decision logic of a React shopping-mall frontend
written in TypeScript:

- the cart summary (subtotal, free shipping from 50,000 won, total);
- the quantity steppers;
- the point box and the order form;
- the order page's running summary, and checkout orchestration across the
  CARD, VIRTUAL and NORMAL payment types;
- the payment result pages, and the order status rules;
- the card-number and expiry formatters, and both signup forms;
- the address pickers;
- the review form, review paging and the review list pager;
- the product page's cart and wishlist buttons, and the wishlist hook;
- the recently-viewed history;
- the product listing's endpoint and URL-parameter rules;
- the admin product list.

Each event handler is a pure function from the component state and the
outcome of what it awaited to a new state and a sequence of effects. The
awaited outcomes are the HTTP response, the payment SDK result, the postcode
widget and local storage. The effects are the callbacks, navigations,
alerts, toasts and requests the handler emits.

The `Js` module holds the JavaScript semantics the handlers rely on:

- NaN-carrying numbers;
- truthiness and the `x || d` defaults;
- `parseInt`/`Number`-style parsing;
- `String(n)`;
- thrown values.

## Model

| member | source | states |
|---|---|---|
| Cart.Reduce | src/features/cart/hooks/useCart.ts:69 | the left-to-right `reduce` from an accumulator equals the accumulator plus the head-first sum of the line totals |
| Cart.ShippingFeeFor | src/features/cart/hooks/useCart.ts:70-72 | the fee is 0 exactly when the subtotal reaches 50000, and otherwise 3000 |
| Cart.CalculateSummary | src/features/cart/hooks/useCart.ts:68-80 | subtotal is the sum of the line totals; the fee is 0 iff that sum reaches the threshold; total − subtotal is the fee, so it is 0 or 3000 |
| Cart.SubtotalAddLine | src/features/cart/hooks/useCart.ts:69 | appending a line raises the subtotal by exactly that line's total |
| Cart.SummaryTotalBounds | src/features/cart/hooks/useCart.ts:69-73 | with non-negative line totals, total ≥ subtotal ≥ 0 |
| Cart.TotalDropsAtThreshold | src/features/cart/hooks/useCart.ts:70-73 | for any two subtotals, the larger one costs less in total exactly when it crosses the free-shipping threshold by less than the shipping fee |
| Cart.View | src/features/cart/hooks/useCart.ts:17-18 | the exposed items are the fetched list or [] while absent, and the summary is always the summary of those items |
| Cart.Perform | src/features/cart/hooks/useCart.ts:90-120 | a visitor who is not signed in gets a redirect to /login and the rejection '로그인이 필요합니다', and no request; otherwise each action sends exactly its own request with its arguments |
| Cart.RedirectOnMount | src/features/cart/hooks/useCart.ts:29-33 | the mount effect redirects to /login exactly when the visitor is not signed in |
| CartSummaryPanel.PanelSubtotal | src/features/cart/components/CartSummary.tsx:21 | a missing item list reads as subtotal 0, otherwise the sum of the line totals |
| CartSummaryPanel.PanelSummary | src/features/cart/components/CartSummary.tsx:18-23 | the panel applies the same threshold rule to its subtotal, and total = subtotal + fee |
| CartSummaryPanel.OrderClick | src/features/cart/components/CartSummary.tsx:25-43 | an empty or missing cart alerts '장바구니에 상품을 담아주세요.' and does not navigate; otherwise it navigates to /orders/new with the items and a summary that has no discount |
| CartSummaryPanel.PanelAgreesWithHook | src/features/cart/components/CartSummary.tsx:18-23 | the panel's subtotal, fee and total equal the hook's `calculateSummary` for every list |
| CartSummaryPanel.FreeShippingNoticeShown | src/features/cart/components/CartSummary.tsx:62 | the free-shipping notice is shown exactly when a shipping fee is charged |
| CartSummaryPanel.ButtonsDisabled | src/features/cart/components/CartSummary.tsx:79-92 | both buttons are disabled iff `disabled` or the cart is empty; an enabled order button always navigates |
| CartSummaryPanel.LegacyPanelAgrees | src/components/cart/CartSummary.tsx:10-38 | the older panel's constants, summary, order click and notice agree with the feature panel on every input |
| CartSummaryPanel.LegacyButtonsDisabled | src/components/cart/CartSummary.tsx:63-74 | the older panel never disables its buttons, not even for an empty cart |
| QuantityStepper.MakeProps | src/features/cart/components/QuantityInput.tsx:15-17 | omitted props default to min 1, max 99 and enabled; given props are kept |
| QuantityStepper.Clamp | src/features/cart/components/QuantityInput.tsx:45 | the clamped value lies in [lo, hi], in-range values are unchanged, and values below or above go to the nearer bound |
| QuantityStepper.HandleDecrease | src/features/cart/components/QuantityInput.tsx:25-31 | a no-op when disabled or at min; otherwise value − 1 is stored and reported |
| QuantityStepper.HandleIncrease | src/features/cart/components/QuantityInput.tsx:33-39 | a no-op when disabled or at max; otherwise value + 1 is stored and reported |
| QuantityStepper.HandleInputChange | src/features/cart/components/QuantityInput.tsx:41-49 | ignored when disabled; otherwise the stored value is reported, lies in [min, max], is min for garbage or 0, and is the typed value when that is in range |
| QuantityStepper.ReportedIsStored | src/features/cart/components/QuantityInput.tsx:29-48 | whenever `onChange` is called it receives the value just stored |
| QuantityStepper.ButtonsMoveByOne | src/features/cart/components/QuantityInput.tsx:25-39 | the buttons move the value by exactly one or not at all |
| QuantityStepper.RunStaysInRange | src/features/cart/components/QuantityInput.tsx:15-49 | a value starting in [min, max] stays in range under any sequence of clicks and typed entries |
| QuantityStepper.TypedEntryRestoresRange | src/features/cart/components/QuantityInput.tsx:44-45 | from any value, one typed entry into an enabled stepper lands in [min, max] |
| QuantityStepper.DisabledIsFrozen | src/features/cart/components/QuantityInput.tsx:26-42 | a disabled stepper keeps its value under every user interaction |
| LegacyQuantityStepper.MakeProps | src/components/cart/QuantityInput.tsx:14-15 | omitted bounds default to 1 and 99 |
| LegacyQuantityStepper.HandleDecrease | src/components/cart/QuantityInput.tsx:23-29 | decrements and reports only when the value exceeds min |
| LegacyQuantityStepper.HandleIncrease | src/components/cart/QuantityInput.tsx:31-37 | increments and reports only when the value is below max |
| LegacyQuantityStepper.HandleInputChange | src/components/cart/QuantityInput.tsx:39-45 | typed input (garbage and 0 read as min) is stored and reported iff it lies in [min, max]; otherwise nothing changes |
| LegacyQuantityStepper.GarbageBecomesMin | src/components/cart/QuantityInput.tsx:40-41 | unparsable or zero text is accepted as min |
| LegacyQuantityStepper.RunStaysInRange | src/components/cart/QuantityInput.tsx:14-45 | a value starting in range stays in range under every user interaction |
| LegacyQuantityStepper.ClampVersusReject | src/components/cart/QuantityInput.tsx:39-45 | out-of-range typed input is clamped and reported by the feature stepper, but dropped silently by the older one |
| LegacyQuantityStepper.AgreesWhenEnabled | src/components/cart/QuantityInput.tsx:23-45 | on the buttons and on in-range input the older stepper behaves like an enabled feature stepper |
| Payment.EnumMembersAreSelected | src/types/payment.ts:2-6 | every member of the payment type enum passes the `if (selectedPaymentType)` test |
| Points.HandlePointChange | src/features/order/components/PointInput.tsx:16-21 | the stored and reported points are the same; they are NaN iff a bound is NaN; they never exceed either bound, are one of the typed value (garbage read as 0) or a bound, and are the typed value when it is within both bounds |
| Points.HandleAllPointsClick | src/features/order/components/PointInput.tsx:23-27 | "use all" stores and reports min(maxPoints, maxAmount) |
| Points.TypedNeverExceedsAll | src/features/order/components/PointInput.tsx:16-27 | no typed amount exceeds what "use all" gives |
| Points.GarbageIsZero | src/features/order/components/PointInput.tsx:17 | empty or non-numeric text gives 0 points when both bounds are non-negative |
| Points.NegativePassesThrough | src/features/order/components/PointInput.tsx:17-18 | a negative entry passes through unchanged: there is no lower bound |
| OrderForm.HandlePaymentTypeSelect | src/features/order/components/OrderForm.tsx:37-41 | selecting a type stores it, clears the method and reports (type, null) |
| OrderForm.HandleMethodSelect | src/features/order/components/OrderForm.tsx:44-49 | the method is always stored, and reported with the type only when a type is selected |
| OrderForm.HandleAddressSelect | src/features/order/components/OrderForm.tsx:52-55 | the address id is stored and forwarded unchanged |
| OrderForm.TypeChangeResetsMethod | src/features/order/components/OrderForm.tsx:37-49 | choosing a type, a method, then another type leaves no method selected |
| OrderForm.PointEntry | src/features/order/components/OrderForm.tsx:74-78 | points entered on the form never exceed 10000 or the current total |
| OrderCreate.FromCart | src/features/cart/components/CartSummary.tsx:33-42 | the cart's hand-off, read as the order page's incoming summary, carries subtotal, fee and total and no discount |
| OrderCreate.ResolveState | src/pages/order/OrderCreatePage.tsx:26-35 | without navigation state the page uses no lines and an all-zero summary; otherwise the state's summary, and its lines or [] |
| OrderCreate.InitialSummary | src/pages/order/OrderCreatePage.tsx:42-46 | the kept summary copies the incoming one, with 0 points used and the same total |
| OrderCreate.HandlePointsUseChangeAsWritten | src/pages/order/OrderCreatePage.tsx:77-84 | as written: points are recorded, the other figures are kept, and the total is NaN exactly when the discount is missing or the points are NaN |
| OrderCreate.HandlePointsUseChange | src/pages/order/OrderCreatePage.tsx:77-84 | corrected: points are recorded, the other figures are kept, and total = subtotal + fee − discount (0 when missing) − points |
| OrderCreate.MissingDiscountPoisonsTotal | src/pages/order/OrderCreatePage.tsx:82 | arriving from the cart, the first point change makes the total NaN, and the point box bounded by it then yields NaN for every entry |
| OrderCreate.CorrectedTotalFromCart | src/pages/order/OrderCreatePage.tsx:77-84 | with the correction, arriving from the cart and using p points gives total = cart total − p |
| OrderCreate.PointChangesDoNotAccumulate | src/pages/order/OrderCreatePage.tsx:82 | two point changes in a row give the same summary as the last alone |
| OrderCreate.AsWrittenAgreesWithDiscount | src/pages/order/OrderCreatePage.tsx:82 | whenever a discount is present, the code as written and the correction agree |
| OrderCreate.PointBoundShrinksWithUse | src/features/order/components/OrderForm.tsx:74-78 | with the intended recomputation, using more points never lets more be entered in the point box next, and an entry never exceeds the amount still left to pay |
| OrderCreate.ConvertCartItems | src/pages/order/OrderCreatePage.tsx:49-57 | one order line per cart line, in order, copying id, name, quantity and price, with subtotal = line total |
| OrderCreate.ConvertedSubtotalsMatchCart | src/pages/order/OrderCreatePage.tsx:49-57 | the order lines' subtotals add up to the cart's subtotal |
| OrderCreate.MountEffects | src/pages/order/OrderCreatePage.tsx:60-68 | an empty cart shows '잘못된 접근입니다.' and redirects to /cart; the lines are stored either way, last |
| OrderCreate.OrderName | src/pages/order/OrderCreatePage.tsx:157-159 | the order name is the first product's name and a space, then '외 n−1건' only when there are several lines; an empty cart gives 'undefined ' |
| OrderCreate.OrderNameStartsWithFirstProduct | src/pages/order/OrderCreatePage.tsx:157-159 | every order name begins with the first product's name followed by a space |
| OrderCreate.HandlePaymentSuccess | src/pages/order/OrderCreatePage.tsx:92-114 | without a stored order id only an error toast is shown; otherwise a success toast, then the success page with that id, the key and the current total |
| OrderCreate.HandlePaymentFail | src/pages/order/OrderCreatePage.tsx:117-128 | the toast and the fail page carry the same non-empty message: the error, or the generic text when it is empty; the stored order id is passed on |
| OrderCreate.OnFormCallback | src/pages/order/OrderCreatePage.tsx:71-89 | the page stores the type and method, or the address, reported by the form |
| OrderCreate.OnPointsChange | src/pages/order/OrderCreatePage.tsx:77-84 | the page's point handler as written: it records the points and keeps the selections, and its total turns NaN exactly when the incoming summary had no discount or the points are NaN |
| OrderCreate.OnPointsChangeIntended | src/pages/order/OrderCreatePage.tsx:77-84 | the intended handler: the total is NaN only for NaN points, and otherwise the amount before points minus the points |
| OrderCreate.CartArrivalPointsAsWritten | src/pages/order/OrderCreatePage.tsx:77-84 | on a page reached from the cart, any point use makes the total NaN as written, and gives the cart total minus the points as intended |
| OrderCreate.RunFormStaysSynced | src/features/order/components/OrderForm.tsx:37-55 | from a synchronised pair, any sequence of form interactions keeps the page's type, method and address in step with the form's |
| OrderCreate.FreshPageStaysSynced | src/pages/order/OrderCreatePage.tsx:38-40 | a fresh page and a fresh form stay in step under any sequence of form interactions |
| Checkout.ToLines | src/features/order/components/OrderPaymentSummary.tsx:150-153 | each stored cart item becomes an order line with the same product and quantity, in the same order |
| Checkout.PrepareMethodId | src/features/order/components/OrderPaymentSummary.tsx:56 | the "no saved method" id −1 is sent as null; every other id is sent unchanged |
| Checkout.CreateRequestAsWritten | src/features/order/components/OrderPaymentSummary.tsx:146-154 | as written, the delivery address id is the method id (or 0), the payment method id is the method id (or −1), with the points used and the cart lines |
| Checkout.CreateRequest | src/features/order/components/OrderPaymentSummary.tsx:146-154 | the corrected request: the delivery address id is the selected address (or 0); everything else as written |
| Checkout.AddressIgnoredAsWritten | src/features/order/components/OrderPaymentSummary.tsx:147 | as written, the chosen address never changes the request, and method 7 with address 3 yields delivery address 7 |
| Checkout.CorrectedRequestUsesAddress | src/features/order/components/OrderPaymentSummary.tsx:147 | the corrected request carries the selected address whatever method is chosen, and differs from the written one only in that field |
| Checkout.CreatedOrderId | src/features/order/components/OrderPaymentSummary.tsx:159 | the created order's id as non-empty text when present, else the page's order id |
| Checkout.CardHandler | src/features/order/components/OrderPaymentSummary.tsx:47-91 | the card flow prepares first with the mapped method id, never reports success itself, and ends without a callback exactly when the gateway redirects |
| Checkout.PostHandler | src/features/order/components/OrderPaymentSummary.tsx:94-130 | a virtual-account or normal payment posts once and then reports exactly one outcome: the returned key, or the thrown message with its fallback |
| Checkout.RunHandler | src/features/order/components/OrderPaymentSummary.tsx:163-168 | the handler is chosen by payment type; an unsupported type reports the unsupported-type error |
| Checkout.Attempt | src/features/order/components/OrderPaymentSummary.tsx:142-172 | the stored cart is read first (a malformed one fails before any request); then the order is created with the chosen wiring's request built from the stored lines, and the handler runs with the created order id |
| Checkout.CreateThenPay | src/features/order/components/OrderPaymentSummary.tsx:146-168 | the create-order request of the chosen wiring comes first; a failed creation reports its message and nothing else happens |
| Checkout.HandlePayment | src/features/order/components/OrderPaymentSummary.tsx:134-176 | with the component's own wiring this is the handler as written; with no type chosen only the choose-type failure is reported, and otherwise processing is switched on first and off last and never in between |
| Checkout.WiringsDifferOnlyInAddress | src/features/order/components/OrderPaymentSummary.tsx:142-172 | the intended checkout differs from the written one only in the created order's delivery address, and the two coincide exactly when no order is created or the address id equals the method id |
| Checkout.AtMostOneCallback | src/features/order/components/OrderPaymentSummary.tsx:134-176 | every checkout, as written or intended, reports at most one success or failure to the page |
| Checkout.CallbackUnlessRedirect | src/features/order/components/OrderPaymentSummary.tsx:134-176 | past the type guard, exactly one outcome is reported unless the card gateway redirects away |
| Checkout.CreateBeforePayment | src/features/order/components/OrderPaymentSummary.tsx:146-168 | a payment request happens only after the order was created, and only for a chosen type |
| Checkout.CreateFailureStopsCheckout | src/features/order/components/OrderPaymentSummary.tsx:146-175 | a failed order creation gives, in order, processing on, the wiring's create request, one failure report and processing off, with no payment request |
| Checkout.PostedKeyReachesPage | src/features/order/components/OrderPaymentSummary.tsx:94-130 | a posted virtual-account or normal payment hands its payment key to the page |
| Checkout.PayDisabled | src/features/order/components/OrderPaymentSummary.tsx:179-218 | the pay button is disabled exactly when no type is chosen or a payment is in progress |
| Checkout.ProcessingReleased | src/features/order/components/OrderPaymentSummary.tsx:140-175 | after any checkout past the guard, processing is off again; with no type chosen it is untouched |
| LegacyCheckout.CardPayment | src/components/order/OrderPaymentSummary.tsx:30-74 | the older card flow prepares first; a non-ok prepare fails with its own message, and success is reported exactly when the gateway returns a truthy payment key |
| LegacyCheckout.PostPayment | src/components/order/OrderPaymentSummary.tsx:77-128 | one post, then one outcome: the not-ok message, the returned key, or the thrown message with its fallback |
| LegacyCheckout.HandlePayment | src/components/order/OrderPaymentSummary.tsx:131-163 | with no type only the choose-type failure; otherwise processing brackets the switch, and non-ok posts report their own messages |
| LegacyCheckout.AgreesWithCheckout | src/components/order/OrderPaymentSummary.tsx:131-163 | both checkouts treat a missing type identically and hand the same key to the page on a posted virtual-account payment |
| Js.Lookup | src/pages/payment/PaymentSuccessPage.tsx:19-21 | a query or URL parameter is present exactly when its key is, and then reads as that key's value |
| PaymentSuccess.FromHandOff | src/pages/payment/PaymentSuccessPage.tsx:5-16 | of the order page's hand-off only the order id and the payment key are readable as navigation state |
| PaymentSuccess.StateOrQuery | src/pages/payment/PaymentSuccessPage.tsx:19-20 | a non-empty value in navigation state wins; otherwise the query parameter is used |
| PaymentSuccess.Resolve | src/pages/payment/PaymentSuccessPage.tsx:16-21 | the order id and payment key come from state when non-empty, else from the query; the amount only ever from the query |
| PaymentSuccess.GoToOrderDetail | src/pages/payment/PaymentSuccessPage.tsx:23-29 | the detail button opens '/orders/{id}' exactly when an order id was found, and alerts otherwise |
| PaymentSuccess.GoToHome | src/pages/payment/PaymentSuccessPage.tsx:31-33 | the home button leads to '/' |
| PaymentSuccess.AmountDisplay | src/pages/payment/PaymentSuccessPage.tsx:69 | a missing or empty amount shows the literal '0'; any other amount is shown as its parsed number |
| PaymentSuccess.QueryAmountRoundTrip | src/pages/payment/PaymentSuccessPage.tsx:69 | an integer amount written into the query is shown as that same number |
| PaymentSuccess.HandOffAmountIsLost | src/pages/payment/PaymentSuccessPage.tsx:19-21 | arriving from the order page, the order id and key are found but, with no amount parameter, the amount shows '0' whatever was paid |
| PaymentSuccess.HandOffOpensOrder | src/pages/payment/PaymentSuccessPage.tsx:19-29 | after the order page's hand-off the detail button always opens that order |
| PaymentFail.GetErrorMessage | src/pages/payment/PaymentFailPage.tsx:17-30 | the message is never empty; each known code gets its fixed text, any other or missing code gets the message parameter or the generic text |
| PaymentFail.KnownMessagesDistinct | src/pages/payment/PaymentFailPage.tsx:18-28 | the four known codes and the generic case give five different texts |
| PaymentFail.KnownCodeIgnoresMessage | src/pages/payment/PaymentFailPage.tsx:18-26 | a known code gives the same text whatever the message parameter says |
| PaymentFail.RetryPayment | src/pages/payment/PaymentFailPage.tsx:13-15 | retry goes back to the cart, replacing the history entry |
| PaymentFail.PageMessage | src/pages/payment/PaymentFailPage.tsx:9-30 | the page's text is never empty; a known `code` parameter decides it, otherwise a non-empty `message` parameter is shown, else the generic text |
| PaymentFail.HandOffMessageIsLost | src/pages/payment/PaymentFailPage.tsx:9-28 | the order page hands over a non-empty failure message in state, but without query parameters this page shows the generic text |
| OrderStatus.LabelsDistinct | src/constants/order.ts:3-11 | every status has a non-empty label and no two statuses share one |
| OrderStatus.CancelableMeansNotYetShipped | src/constants/order.ts:23 | a status is cancelable exactly when the order has not reached shipping |
| OrderStatus.ConfirmableMeansDelivered | src/constants/order.ts:24 | a status is confirmable exactly when the order is delivered |
| OrderStatus.ActionSetsDisjoint | src/constants/order.ts:23-24 | no status is both cancelable and confirmable; cancelled and completed orders are neither |
| OrderStatus.NeutralColourIsCancelable | src/constants/order.ts:13-23 | the grey badge marks exactly the cancelable statuses; any two other statuses have different colours |
| OrderStatus.Actions | src/features/order/components/OrderActions.tsx:57-95 | cancel is offered exactly for cancelable statuses and confirm exactly for confirmable ones; finished orders offer only the longer back-to-list button |
| OrderStatus.OneActionUnlessShippingOrFinished | src/features/order/components/OrderActions.tsx:57-95 | an order offers cancel or confirm unless it is shipping, cancelled or completed, and never both |
| OrderStatus.HandleAction | src/features/order/components/OrderActions.tsx:35-55 | the mutation is requested first; the page callback runs exactly when it succeeded and was passed; a failure shows only its error toast |
| FormFormat.RemoveWhitespace | src/features/auth/utils/formUtils.ts:3 | the result holds no white space and is no longer than the input |
| FormFormat.Groups | src/features/auth/utils/formUtils.ts:4 | the cleaned card number splits into groups of one to four characters, all but the last exactly four; no groups for an empty string |
| FormFormat.GroupsSpellInput | src/features/auth/utils/formUtils.ts:4 | the groups, put back together, are exactly the cleaned input |
| FormFormat.RemoveWhitespaceOfJoin | src/features/auth/utils/formUtils.ts:5 | removing the white space from the space-joined groups gives back the groups' characters |
| FormFormat.FormatKeepsCharacters | src/features/auth/utils/formUtils.ts:2-6 | the card formatter keeps exactly the non-space characters of its input, in order |
| FormFormat.FormatCardNumberIdempotent | src/features/auth/utils/formUtils.ts:2-6 | formatting a formatted card number changes nothing |
| FormFormat.JoinSeparatorsOnly | src/features/auth/utils/formUtils.ts:5 | the only white space in a formatted card number is the single separating space |
| FormFormat.GroupCount | src/features/auth/utils/formUtils.ts:4 | n characters split into ⌈n/4⌉ groups |
| FormFormat.SixteenDigitsFormat | src/features/auth/utils/formUtils.ts:2-6 | sixteen digits become four groups, 19 characters, with spaces at positions 4, 9 and 14, and lose no digit |
| FormFormat.KeepDigits | src/features/auth/utils/formUtils.ts:11 | the result holds only digits and is no longer than the input |
| FormFormat.FormatExpiryDate | src/features/auth/utils/formUtils.ts:10-16 | fewer than two digits are returned as they are; otherwise the first two digits, a slash, and the next up to two digits |
| FormFormat.ExpiryKeepsLeadingDigits | src/features/auth/utils/formUtils.ts:10-16 | the formatted date keeps exactly the first four digits of the input, in order |
| FormFormat.FormatExpiryDateIdempotent | src/features/auth/utils/formUtils.ts:10-16 | formatting a formatted date changes nothing |
| FormFormat.FormattedMonthYearIsValid | src/features/auth/utils/formUtils.ts:10-16 | four typed digits naming a real month format into a date that passes the signup expiry rule |
| Signup.TrimStart | src/features/auth/components/SignupForm.tsx:58 | leading white space is dropped and nothing else |
| Signup.TrimEnd | src/features/auth/components/SignupForm.tsx:58 | trailing white space is dropped and nothing else |
| Signup.TrimEmptyIffBlank | src/features/auth/components/SignupForm.tsx:58 | a name trims to empty exactly when it is all white space |
| Signup.RemoveDashes | src/features/auth/components/SignupForm.tsx:63 | the result holds no dash and is no longer than the input |
| Signup.DashedContactValid | src/features/auth/components/SignupForm.tsx:62-65 | a phone number written as three dash-separated digit groups totalling 10 or 11 digits passes the contact rule |
| Signup.FormattedCardValid | src/features/auth/components/SignupForm.tsx:68-75 | sixteen typed digits are stored formatted and still pass the card rule |
| Signup.FormattingPreservesCardVerdict | src/features/auth/components/SignupForm.tsx:68-75 | a card number passes exactly when its formatted form passes |
| Signup.Validate | src/features/auth/components/SignupForm.tsx:44-88 | each field's error is present exactly when its rule fails, with that rule's message; the payment record carries the card and expiry errors separately |
| Signup.ValidateAcceptsExactlyValidForms | src/features/auth/components/SignupForm.tsx:44-88 | validation reports no error exactly when the form meets every rule, stated independently |
| Signup.InitialFormFailsEveryRule | src/features/auth/components/SignupForm.tsx:14-88 | the blank starting form fails every rule at once |
| Signup.EmptyEntriesFail | src/features/auth/components/SignupForm.tsx:58-78 | an empty name, contact, card number and expiry each fail their rule |
| Signup.HandleChange | src/features/auth/components/SignupForm.tsx:90-98 | the edited field takes the value and no other field changes; its error is cleared and other errors are kept |
| Signup.EditedFieldRevalidates | src/features/auth/components/SignupForm.tsx:44-98 | after an edit, validation reports that field exactly as the rule judges the new value |
| Signup.HandleCardNumberChange | src/features/auth/components/PaymentMethodInput.tsx:20-26 | the card input stores the typed text formatted, with the same non-space characters, and nothing else in the record changes |
| Signup.HandleExpiryDateChange | src/features/auth/components/PaymentMethodInput.tsx:28-34 | the expiry input stores at most five characters keeping the first four typed digits, and nothing else changes |
| Signup.CardRetypeIsStable | src/features/auth/components/PaymentMethodInput.tsx:20-26 | retyping the shown card number leaves it as it is |
| Signup.TypedExpiryPasses | src/features/auth/components/PaymentMethodInput.tsx:28-34 | a month and year typed as four digits are stored in a shape the expiry rule accepts |
| Signup.HandleSubmit | src/features/auth/components/SignupForm.tsx:110-131 | the errors are always recomputed; signup is called exactly when the form is valid; success navigates to login with the completion message, failure keeps the error or the fallback |
| Signup.RejectionIsExplained | src/features/auth/components/SignupForm.tsx:126-127 | a failed signup always leaves a non-empty message |
| LegacySignup.InitialIsShaped | src/components/auth/SignupForm.tsx:28-44 | the starting form has the four text fields and both nested records |
| LegacySignup.IndexOf | src/components/auth/SignupForm.tsx:51-52 | the position of the first occurrence of the character, or none exactly when it does not occur |
| LegacySignup.BeforeDot | src/components/auth/SignupForm.tsx:52 | the first piece of the split name holds no dot, and is the whole name exactly when it has none |
| LegacySignup.ParseName | src/components/auth/SignupForm.tsx:51-52 | a name without a dot is a plain key; otherwise the parent before the first dot and the child up to the second |
| LegacySignup.ParseDotted | src/components/auth/SignupForm.tsx:51-52 | a name built as parent, dot, child reads back as that parent and child |
| LegacySignup.Update | src/components/auth/SignupForm.tsx:51-64 | a plain name sets that key alone; a dotted name rebuilds its parent from the address record or, for any other parent, from the payment record |
| LegacySignup.AddressLineSetsOnlyThat | src/components/auth/SignupForm.tsx:55-56 | editing an address line sets only that line |
| LegacySignup.PaymentFieldSetsOnlyThat | src/components/auth/SignupForm.tsx:57 | editing a payment field sets only that field |
| LegacySignup.TextFieldSetsOnlyThat | src/components/auth/SignupForm.tsx:60-63 | editing a plain text input sets only that field |
| LegacySignup.OtherParentCopiesPaymentMethod | src/components/auth/SignupForm.tsx:55-57 | a dotted name under any other parent stores an edited copy of the payment record under that parent |
| LegacySignup.HandleSubmit | src/components/auth/SignupForm.tsx:67-94 | the form is posted unchecked; the page navigates to login exactly when the post succeeds, otherwise it keeps the server's message or a fallback |
| LegacySignup.BlankFormIsPosted | src/components/auth/SignupForm.tsx:67-79 | even the untouched blank form is sent to the server |
| AddressInput.OpenPostcode | src/features/auth/components/AddressInput.tsx:16-38 | a missing service or a load failure alerts with its own text; otherwise the popup opens holding the address as it is at that moment, and opening alone reports nothing |
| AddressInput.HandleDetailAddressChange | src/features/auth/components/AddressInput.tsx:40-45 | the detail line takes the value; postal code and road address are kept |
| AddressInput.CompletePostcodeAsWritten | src/features/auth/components/AddressInput.tsx:26-31 | the reported address has the chosen postal code and road address, and the detail line of the address captured when the popup opened |
| AddressInput.CompletePostcode | src/features/auth/components/AddressInput.tsx:26-31 | the corrected completion: the chosen postal code and road address over the current address, whose detail line is kept |
| AddressInput.TypedDetailLostAsWritten | src/features/auth/components/AddressInput.tsx:26-31 | as written, a detail line typed while the popup is open is replaced by the captured one, e.g. "101호" typed into an empty form comes back empty |
| AddressInput.TypedDetailKept | src/features/auth/components/AddressInput.tsx:26-45 | with the corrected completion, a detail line typed during the search survives the pick, and the edit and the pick commute |
| AddressInput.DetailAndPostcodeCommute | src/features/auth/components/AddressInput.tsx:16-45 | when nothing is typed while the popup is open both completions agree, and a detail line typed before opening survives the pick as written |
| AddressSelect.Load | src/features/order/components/AddressSelect.tsx:37-56 | loading always ends; the fetched list replaces the addresses, and a failure keeps them and records the error or the fallback text |
| AddressSelect.OpenPostcode | src/features/order/components/AddressSelect.tsx:73-88 | without the service it alerts and changes nothing; a picked result replaces the whole draft and clears the detail line; a throw from the unguarded constructor escapes the handler and changes nothing |
| AddressSelect.EditDetail | src/features/order/components/AddressSelect.tsx:200-201 | only the draft's detail line changes |
| AddressSelect.SubmitNewAddress | src/features/order/components/AddressSelect.tsx:90-117 | an incomplete draft records the missing-address error and sends nothing; otherwise the draft is posted, and a saved address is appended, selected, the form closed and the draft cleared |
| AddressSelect.ShowNewForm | src/features/order/components/AddressSelect.tsx:146-148 | the add and cancel buttons open and close the form and change nothing else |
| AddressSelect.ChooseAddress | src/features/order/components/AddressSelect.tsx:135 | clicking a radio button reports that address's id |
| AddressSelect.AtMostOneChecked | src/features/order/components/AddressSelect.tsx:134 | among addresses with distinct ids at most one radio button is checked |
| AddressSelect.SavedAddressBecomesChecked | src/features/order/components/AddressSelect.tsx:105-110 | a saved address is appended and is the one shown checked |
| AddressSelect.FailedSaveKeepsList | src/features/order/components/AddressSelect.tsx:90-117 | a refused or failed save keeps the list, the draft and the form, records an error and selects nothing |
| AddressSelect.ErrorSurvivesSave | src/features/order/components/AddressSelect.tsx:90-117 | a successful save does not clear an earlier error, so reopening the form shows it again |
| ReviewForm.Initial | src/features/review/components/ReviewForm.tsx:20-26 | a new review starts at five stars with no text or images; an edit starts from the stored review, with a zero rating read as five and missing text or images as empty; a missing order item is 0 |
| ReviewForm.ContentError | src/features/review/components/ReviewForm.tsx:87-93 | the text is reported missing, too short (under 10) or too long (over 1000), each exactly in its case, and passes exactly between 10 and 1000 characters |
| ReviewForm.Validate | src/features/review/components/ReviewForm.tsx:80-97 | the rating error is present exactly when the rating is outside one to five; the content error is the text check |
| ReviewForm.ValidIffInRange | src/features/review/components/ReviewForm.tsx:80-97 | the form passes exactly when the rating is one to five stars and the text 10 to 1000 characters |
| ReviewForm.FreshFormNeedsText | src/features/review/components/ReviewForm.tsx:20-26 | a fresh form fails only on the missing text |
| ReviewForm.HandleContentChange | src/features/review/components/ReviewForm.tsx:59-69 | the text is stored and its shown error cleared; the rating error is kept |
| ReviewForm.HandleRatingChange | src/features/review/components/ReviewForm.tsx:72-77 | the rating is stored and its shown error cleared; the content error is kept |
| ReviewForm.StarsAreValidRatings | src/features/review/components/ReviewForm.tsx:120-124 | every star the form offers is a rating the rules accept |
| ReviewForm.HandleSubmit | src/features/review/components/ReviewForm.tsx:100-113 | nothing is sent for an invalid form; a valid one updates the review being edited or creates a new one |
| ReviewForm.SentReviewsAreValid | src/features/review/components/ReviewForm.tsx:80-113 | whatever is sent has a rating of one to five stars and 10 to 1000 characters of text |
| ReviewForm.SubmitEnabled | src/features/review/components/ReviewForm.tsx:184 | the submit button is enabled exactly while neither a create nor an update is pending |
| ReviewPaging.PageChange | src/features/review/hooks/useReviews.ts:92-94 | only the page moves |
| ReviewPaging.SizeChange | src/features/review/hooks/useReviews.ts:97-99 | a new size starts again from the first page and keeps the sort |
| ReviewPaging.SortChange | src/features/review/hooks/useReviews.ts:102-104 | a new order starts again from the first page and keeps the size |
| ReviewPaging.SizeAndSortCommute | src/features/review/hooks/useReviews.ts:92-104 | size and sort changes commute, and each forgets the page reached before it |
| ReviewPaging.RatingFetch | src/features/review/hooks/useReviews.ts:34-37 | a rejected rating request reads as 0; otherwise the response is kept |
| ReviewPaging.AverageRating | src/features/review/hooks/useReviews.ts:107-116 | the rating is the value when it is a number, else 0 |
| ReviewPaging.FailedFetchShowsZero | src/features/review/hooks/useReviews.ts:34-37 | a failed rating request shows an average of 0 |
| ReviewList.StepForm | src/features/review/components/ReviewList.tsx:38-49 | the form is shown after the write button and hidden after a saved review or a cancel |
| ReviewList.Render | src/features/review/components/ReviewList.tsx:51-119 | the skeleton shows exactly while either request loads, the error message exactly when loaded reviews failed, and otherwise the page, whose form area exists only for a signed-in member and holds the form exactly when it is open |
| ReviewList.FormShownIffLastOpened | src/features/review/components/ReviewList.tsx:35-49 | after any events the form is shown exactly when the last event opened it, or when there were none and it started shown |
| ReviewList.FormVisible | src/features/review/components/ReviewList.tsx:51-119 | the review form is on screen exactly when neither request is loading, the reviews did not fail, the member is signed in and the form is open |
| ReviewList.TotalPages | src/features/review/components/ReviewList.tsx:43 | a missing or zero page count reads as 0; any other count is kept |
| ReviewList.PageButtons | src/features/review/components/ReviewList.tsx:165-177 | one button per page, labelled from 1, highlighted exactly on the current page |
| ReviewList.ViewPager | src/features/review/components/ReviewList.tsx:150-192 | the pager is shown exactly beyond one page; previous is disabled exactly on the first page and next exactly on the last |
| ReviewList.Click | src/features/review/components/ReviewList.tsx:153-189 | an enabled arrow asks for the neighbouring page and a disabled one for nothing; a page button asks for its own page |
| ReviewList.ClicksStayInRange | src/features/review/components/ReviewList.tsx:153-189 | from a page within range, every enabled button leads to a page within range |
| ReviewList.ExactlyOneActive | src/features/review/components/ReviewList.tsx:169-173 | within range exactly one page button is highlighted |
| Js.OrEmpty | src/features/wishlist/hooks/useWishlist.ts:24 | a cached list that has not loaded reads as empty, a loaded one as itself |
| Wishlist.FindFirst | src/features/wishlist/hooks/useWishlist.ts:64-66 | the position of the first cached item for the product, and none exactly when no item has it |
| Wishlist.RemoveByProduct | src/features/wishlist/hooks/useWishlist.ts:56-74 | a visitor is refused with the login text; with no matching item the call is refused as not found; otherwise the first match's entry is removed |
| Wishlist.Add | src/features/wishlist/hooks/useWishlist.ts:77-83 | the add is refused with the login text exactly for a visitor, and otherwise sends the product id |
| Wishlist.Check | src/features/wishlist/hooks/useWishlist.ts:96-98 | the check is refused with the login text exactly for a visitor, and otherwise asks for the product id |
| Wishlist.Remove | src/features/wishlist/hooks/useWishlist.ts:90-92 | removal by entry id is refused with the login text exactly for a visitor, and otherwise sends that id |
| Wishlist.VisitorSendsNothing | src/features/wishlist/hooks/useWishlist.ts:90-98 | a visitor's wishlist calls never reach the API, whichever action it is |
| Wishlist.RemovesEarliestEntry | src/features/wishlist/hooks/useWishlist.ts:64-73 | when the product occurs several times, the earliest entry is removed |
| Wishlist.NaNIsNeverFound | src/features/wishlist/hooks/useWishlist.ts:64-70 | a NaN product id matches nothing, so removing by it is always refused as not found |
| ProductDetail.RejectionToast | src/features/product/components/ProductDetail.tsx:89-93 | the login rejection gets its own toast; every other failure the fallback text |
| ProductDetail.HandleAddToCart | src/features/product/components/ProductDetail.tsx:52-72 | nothing happens without a product or while an add is awaited; otherwise one add request for the product and quantity shown, then a success or failure toast, and the adding flag ends as it began |
| ProductDetail.AddingState | src/features/product/components/ProductDetail.tsx:55 | while adding, only the adding flag is set |
| ProductDetail.ClickWhileAddingIgnored | src/features/product/components/ProductDetail.tsx:53 | a click while an add is awaited sends nothing and shows nothing |
| ProductDetail.AddSendsShownProduct | src/features/product/components/ProductDetail.tsx:55-71 | a signed-in click sends the product shown with the selected quantity and the adding flag is released |
| ProductDetail.ToggleWishlist | src/features/product/components/ProductDetail.tsx:74-98 | nothing happens while a toggle is awaited or without an id; the heart flips only on an accepted request, with the matching toast; any failure shows an error toast and leaves it; the loading flag is released |
| ProductDetail.ToggleWhileLoadingIgnored | src/features/product/components/ProductDetail.tsx:75 | a heart click while a toggle is awaited is ignored |
| ProductDetail.AddThenRemoveRestores | src/features/product/components/ProductDetail.tsx:74-98 | an accepted add followed by an accepted remove leaves the heart as it started, sending one add and then one remove |
| ProductDetail.CheckStatus | src/features/product/components/ProductDetail.tsx:24-39 | a signed-in visitor with an id asks the API once and the heart shows the answer; without an id, signed out, or on failure the heart is unchanged |
| ProductDetail.QuantityOptions | src/features/product/components/ProductDetail.tsx:156-160 | the select offers 1 up to the smaller of 10 and the stock, nothing when there is no stock |
| ProductDetail.OptionsWithinStock | src/features/product/components/ProductDetail.tsx:156-160 | every offered quantity is at least 1 and at most both 10 and the stock |
| ProductDetail.Controls | src/features/product/components/ProductDetail.tsx:154-167 | the select is disabled exactly for a sold-out product; the add button also while adding |
| RecentlyViewed.Without | src/pages/product/ProductDetailPage.tsx:18 | the result is the list without that product, keeping every other entry |
| RecentlyViewed.Record | src/pages/product/ProductDetailPage.tsx:19 | the product comes first, followed by the stored list without that product, in its order, cut so that at most six entries are kept |
| RecentlyViewed.OnProduct | src/pages/product/ProductDetailPage.tsx:14-23 | the list is written exactly when a product is loaded, and it is then the updated history for that product |
| RecentlyViewed.WithoutIsSubsequence | src/pages/product/ProductDetailPage.tsx:18 | filtering keeps the remaining entries in their order |
| RecentlyViewed.PrefixOfSubsequence | src/pages/product/ProductDetailPage.tsx:19 | cutting the list to six keeps the order of what remains |
| RecentlyViewed.RecordKeepsOrder | src/pages/product/ProductDetailPage.tsx:18-19 | the entries after the current product are earlier entries, in their earlier order |
| RecentlyViewed.WithoutKeepsDistinct | src/pages/product/ProductDetailPage.tsx:18 | filtering a list without repeats leaves no repeats |
| RecentlyViewed.RecordKeepsDistinct | src/pages/product/ProductDetailPage.tsx:18-19 | a history without repeated products stays so after an update |
| RecentlyViewed.RevisitingFrontIsStable | src/pages/product/ProductDetailPage.tsx:18-19 | viewing the product at the front again changes nothing |
| RecentlyViewed.WithoutAbsent | src/pages/product/ProductDetailPage.tsx:18 | filtering out a product the list does not hold changes nothing |
| RecentlyViewed.OlderEntryKept | src/pages/product/ProductDetailPage.tsx:18-19 | every entry besides the current product was already stored and is a different product |
| RecentlyViewed.RecentEntriesSurvive | src/pages/product/ProductDetailPage.tsx:18-19 | every stored entry of another product among the five most recent survives the update |
| Js.DigitsValueOfNatToString | src/pages/product/ProductPage.tsx:20 | a rendered natural number reads back as itself digit by digit |
| Js.ParseIntToString | src/pages/product/ProductPage.tsx:10 | reading back a rendered integer with Number gives the integer |
| ProductQuery.GetProducts | src/features/product/api/productApi.ts:9-16 | the category endpoint exactly for a truthy category, else the search endpoint exactly for a non-empty query, else the full list |
| ProductQuery.Url | src/features/product/api/productApi.ts:10-15 | every request path starts with the products path and is exactly it for the full list; the category path reads back as the category id and the search path ends with the keyword |
| ProductQuery.UrlInjective | src/features/product/api/productApi.ts:10-15 | two different endpoints never share a request path |
| ProductQuery.CategoryOverridesSearch | src/features/product/api/productApi.ts:12-15 | with a category chosen the search text does not matter |
| ProductQuery.FromParams | src/pages/product/ProductPage.tsx:9-12 | a non-empty category parameter is read as a number and the query as 'q' or empty |
| ProductQuery.CategoryParam | src/pages/product/ProductPage.tsx:19-20 | the category parameter is written exactly for a truthy category, as its decimal text, and nothing else |
| ProductQuery.SelectCategory | src/pages/product/ProductPage.tsx:15-29 | the filter takes the new category; the URL holds the category alone, or else the running query alone, or nothing |
| ProductQuery.SearchFor | src/pages/product/ProductPage.tsx:32-41 | the filter takes the new query; the URL holds 'q' exactly for a non-empty query and the category exactly when one is set |
| ProductQuery.CategoryParamRoundTrip | src/pages/product/ProductPage.tsx:10-20 | a written category parameter reads back as the same category |
| ProductQuery.SelectCategoryReloadsSameListing | src/pages/product/ProductPage.tsx:9-29 | after a category selection, reloading the page from its URL requests the same products |
| ProductQuery.SearchReloadsSameListing | src/pages/product/ProductPage.tsx:9-41 | after a search, reloading the page from its URL requests the same products |
| ProductQuery.ClearingCategoryKeepsSearch | src/pages/product/ProductPage.tsx:21-24 | clearing the category during a search keeps searching |
| LegacyProductQuery.SelectCategory | src/pages/ProductPage.tsx:16-22 | the older page writes the category alone for a truthy category and no parameters otherwise |
| LegacyProductQuery.ClearingCategoryDropsSearch | src/pages/ProductPage.tsx:12-20 | clearing the category on the older page also drops a running search, so the full list is requested |
| LegacyProductQuery.PagesAgreeOnSelection | src/pages/ProductPage.tsx:16-22 | both pages write the same URL for a selected category; on clearing it they agree exactly when no search is running |
| AdminProducts.Dispatch | src/features/admin/hooks/useProductAdmin.ts:24-34 | a non-empty keyword searches, else a non-zero category filters, else all products are listed with the sort; the defaults page 0, size 10 and newest first fill missing values |
| AdminProducts.Key | src/features/admin/hooks/useProductAdmin.ts:37 | the cache key holds the five parameters after their defaults |
| AdminProducts.KeyDeterminesQuery | src/features/admin/hooks/useProductAdmin.ts:24-37 | equal cache keys mean equal requests, so the cache never serves one request's result for another |
| AdminProducts.DefaultsListNewestFirst | src/features/admin/hooks/useProductAdmin.ts:24-34 | without parameters all products are listed, first page of ten, newest first |
| AdminProducts.Params | src/pages/admin/AdminProductListPage.tsx:37-42 | the page passes its page, size, category and keyword, and no sort, so the default sort applies |
| AdminProducts.HandleSearch | src/pages/admin/AdminProductListPage.tsx:50-53 | a search requests the first page: a non-empty keyword searches at the current size, and size and category are kept for an empty one |
| AdminProducts.HandleCategoryFilter | src/pages/admin/AdminProductListPage.tsx:56-59 | the stored category becomes the chosen one and keyword and size are kept; the first page is requested, a running search still wins, and otherwise that category, or every product when none is chosen |
| AdminProducts.HandlePageChange | src/pages/admin/AdminProductListPage.tsx:62-64 | keyword, category and size are kept, and the request stays the same except for its page |
| AdminProducts.HandlePageSizeChange | src/pages/admin/AdminProductListPage.tsx:67-70 | keyword and category are kept, and the request stays the same except that it starts from the first page with the new size |
| AdminProducts.FilterChangesRestartPaging | src/pages/admin/AdminProductListPage.tsx:50-70 | after a filter or size change the request starts at page 0 and searches exactly for a non-empty keyword |
| AdminProducts.KeywordShadowsCategory | src/pages/admin/AdminProductListPage.tsx:56-59 | with a keyword set, changing the category changes nothing requested |
| AdminProducts.CategoryChosenDuringSearchReturns | src/pages/admin/AdminProductListPage.tsx:50-59 | a category chosen while a search runs is kept, and clearing the search then lists that category from the first page |
| AdminProducts.PageChangeKeepsFilter | src/pages/admin/AdminProductListPage.tsx:62-64 | turning the page keeps the request kind and size and moves only the page |
| AdminProducts.Extract | src/pages/admin/AdminProductListPage.tsx:45-47 | the listing is empty with zero totals until data arrives, and otherwise the response's content and totals |
| AdminProducts.StepModal | src/features/admin/components/products/ProductList.tsx:26-40 | an enabled delete click opens the dialog holding that id, and a click while a delete is in flight changes nothing; cancel closes it without deleting; onDelete is called exactly on an enabled confirm of an open dialog holding a non-zero id, which then closes and clears |
| AdminProducts.LastClicked | src/features/admin/components/products/ProductList.tsx:29-32 | the id is one whose enabled delete button was clicked with no enabled delete click after it, and there is none exactly when no enabled click happened |
| AdminProducts.HeldIdIsLastClicked | src/features/admin/components/products/ProductList.tsx:26-40 | the dialog holds nothing or the most recently clicked id |
| AdminProducts.RunModalSnoc | src/features/admin/components/products/ProductList.tsx:26-40 | running one more input is one more step after the rest |
| AdminProducts.OnlyClickedIdsAreDeleted | src/features/admin/components/products/ProductList.tsx:29-40 | from the closed dialog, every deleted id is one whose enabled delete button was clicked |
| AdminProducts.CancelAndBusyConfirmDeleteNothing | src/features/admin/components/products/ProductList.tsx:192-239 | cancel, and confirm while a delete is in flight, never delete anything; a trash click while a delete is in flight changes nothing |
| AdminProducts.StockBand | src/features/admin/components/products/ProductList.tsx:168-174 | red exactly at or below zero, yellow from 1 to 10, green above 10 |
| AdminProducts.StockLabel | src/features/admin/components/products/ProductList.tsx:175-178 | sold out at or below zero, otherwise the count followed by the unit |
| AdminProducts.StockLabelAgreesWithBand | src/features/admin/components/products/ProductList.tsx:168-178 | the label says sold out exactly in the red band, and otherwise reads back as the stock count |

## Left out

- HTTP requests, the payment SDK, the postcode widget, local storage and `window.location` are inputs: each handler receives the outcome it would await and returns the requests it makes as effects.
- Toasts, alerts and `navigate` are emitted effects. Nothing models their display or the routing that follows.
- Query caching and invalidation are left out because they change no state the handlers read. The wishlist `staleTime`, `enabled` and `invalidateQueries` are among them.
- The wishlist hook's redirect to the login page on mount is the same rule as the cart hook's, and `Cart.RedirectOnMount` states it once for both.
- The API modules, the fetch wrappers and the auth context are left out because they are transport code with no decision logic of their own.
- `toLocaleString`, `toFixed`, date formatting and the estimated delivery date are left out because they are locale and clock formatting. The fractional star rendering is left out too.
- ProductQuery.Url: the search keyword is shown unencoded, because `encodeURIComponent` is a percent-encoding the listing rules do not depend on.
- Js.ParseNumber: models `Number` only on optionally signed decimal integers; fractions, exponents, hexadecimal, surrounding white space and the empty string (which `Number` reads as 0) all read as NaN here, since the storefront feeds it only rendered integers or query text.
- Js.Num: floating-point numbers are not modelled; a number is NaN or an integer, so fractional prices or ratings are out of scope.
- Strings are sequences of characters, with lengths counted per character rather than per UTF-16 code unit, so characters outside the Basic Multilingual Plane count once.
- LegacySignup.Spread: spreading a field that is not a nested object is modelled as an empty record. JavaScript would copy a string's characters under index keys; the form only reaches this with its own nested records.
- LegacySignup.ParseName: input names arrive as text and are parsed on the first two dots. Any further dotted pieces are ignored, as the source's destructuring of `split('.')` does.
- Signup.InitialFormFailsEveryRule: states that every error is present for the blank form, not the message texts, which `Signup.Validate` already fixes per field.
- A malformed JSON body in local storage is modelled only as a thrown value with an optional message (`Checkout.Attempt`); the parser itself is not modelled.
- OrderActions takes its status lists from a constants module that is not part of this model. They are taken to equal `src/constants/order.ts`.
- The admin list's local search box, filter panel and sort controls are presentational state that never reaches the request, and are left out.
- The order page passes no `orderId` to the checkout component, so its fallback order id is absent; `Checkout.Props` keeps it optional, and the success path uses the created order's id.
- ProductDetail.QuantityOptions: for negative stock the source's `Array(Math.min(10, stock))` throws a RangeError while rendering; the model offers no options instead.
- The quantity select's `parseInt` of the chosen option is left out, because every option value is one of `ProductDetail.QuantityOptions`.
- RecentlyViewed.Viewed: every stored entry is assumed to carry a numeric product id; entries without one, and unreadable stored JSON, are left out.
- The admin page's `handleSearch`, `handleCategoryFilter`, `handlePageChange` and `handlePageSizeChange` are modelled as defined, but no control reaches them: the product list receives only the products, the loading flag, the delete callback and the deleting flag, so in the running page the admin request keeps its defaults.
- AdminProducts.StepModal: Confirm and Cancel are the dialog's own buttons, clickable only while it is open; the model still accepts them when closed, where they change nothing that is observable.
- The image galleries, tabs and other view-only state of the product pages are presentational and left out.

## Findings

| source | as written | input that shows it | evidently intended | confidence | as-written member | corrected member |
|---|---|---|---|---|---|---|
| src/pages/order/OrderCreatePage.tsx:82 | the new total subtracts `prev.discount`, which the cart's hand-off never sets, so `undefined` turns the total into NaN | arrive from the cart with total 30000, then use 1000 points: the total becomes NaN, and the point box bounded by it accepts nothing | total = subtotal + shipping fee − discount (0 when absent) − points, i.e. 29000 | not executed | OrderCreate.HandlePointsUseChangeAsWritten, OrderCreate.OnPointsChange, OrderCreate.MissingDiscountPoisonsTotal | OrderCreate.HandlePointsUseChange, OrderCreate.OnPointsChangeIntended, OrderCreate.CorrectedTotalFromCart |
| src/features/order/components/OrderPaymentSummary.tsx:147 | the order page passes `selectedAddressId` (src/pages/order/OrderCreatePage.tsx:163), but the component neither declares nor reads it; the create-order request's `deliveryAddressId` is `selectedMethodId \|\| 0`, so the chosen address never reaches the order | payment method 7 with address 3 gives deliveryAddressId 7 | deliveryAddressId is the selected address id, 3 | not executed | Checkout.CreateRequestAsWritten, Checkout.AddressIgnoredAsWritten | Checkout.CreateRequest, Checkout.CorrectedRequestUsesAddress, Checkout.WiringsDifferOnlyInAddress |
| src/features/auth/components/AddressInput.tsx:26-31 | the popup's completion callback spreads the `address` prop captured when the search was opened, so a detail line typed while the popup is open is overwritten when a postcode is picked | open the search on an empty form, type "101호" as the detail line, then pick a postcode: the detail line comes back empty | the picked code and road address are merged into the address as it is at completion, keeping "101호" | not executed | AddressInput.CompletePostcodeAsWritten, AddressInput.TypedDetailLostAsWritten | AddressInput.CompletePostcode, AddressInput.TypedDetailKept |

The model keeps both behaviours for each finding. Two members follow the code as written: the page's point handler `OrderCreate.OnPointsChange`, and `Checkout.HandlePayment` run with `Checkout.AsWritten`. Their corrected counterparts are `OrderCreate.OnPointsChangeIntended` and `Checkout.HandlePayment` run with `Checkout.Intended`. The address input's completion is modelled both ways as well: `AddressInput.CompletePostcodeAsWritten` follows the code, and `AddressInput.CompletePostcode` is the corrected version.

=== FILE: address.dfy ===
/**
 * The postcode-backed address input of the signup form: a postcode search
 * fills the postal code and road address, the detail line is typed.
 */
module AddressInput {
  import opened Js

  /** A delivery address as typed: postal code, road address and the detail line. */
  datatype AddressForm = AddressForm(postalCode: string, roadAddress: string, detailAddress: string)

  const EmptyAddress: AddressForm := AddressForm("", "", "")

  /**
   * What opening the postcode search led to: the script failed to load (or
   * the widget threw), the service is missing, or the popup opened.
   */
  datatype PostcodeOutcome = LoadFailed | ServiceMissing | Opened

  const PostcodeNotReady: string := "우편번호 서비스를 불러오는 중입니다. 잠시 후 다시 시도해주세요."
  const PostcodeLoadFailed: string := "우편번호 서비스를 불러오는데 실패했습니다."

  /**
   * The alert shown, if any, and the popup left open. An open popup holds
   * the address prop as it was when the search was opened: its completion
   * callback spreads that captured value.
   */
  datatype OpenStep = OpenStep(alert: Option<string>, popup: Option<AddressForm>)

  /** `openPostcode`: opening alone never reports a change; only the popup's completion does. */
  function OpenPostcode(a: AddressForm, o: PostcodeOutcome): (r: OpenStep)
    ensures r.alert.Some? <==> o.LoadFailed? || o.ServiceMissing?
    ensures o.ServiceMissing? ==> r.alert == Some(PostcodeNotReady)
    ensures o.LoadFailed? ==> r.alert == Some(PostcodeLoadFailed)
    ensures r.popup.Some? <==> o.Opened?
    ensures r.popup.Some? ==> r.popup.value == a
  {
    match o
    case LoadFailed => OpenStep(Some(PostcodeLoadFailed), None)
    case ServiceMissing => OpenStep(Some(PostcodeNotReady), None)
    case Opened => OpenStep(None, Some(a))
  }

  /**
   * `oncomplete` as written: the reported address is the one captured when
   * the popup opened, with the chosen postal code and road address; the
   * address the form holds by then plays no part.
   */
  function CompletePostcodeAsWritten(current: AddressForm, captured: AddressForm, zonecode: string, roadAddress: string): (r: AddressForm)
    ensures r.postalCode == zonecode && r.roadAddress == roadAddress
    ensures r.detailAddress == captured.detailAddress
  {
    captured.(postalCode := zonecode, roadAddress := roadAddress)
  }

  /** The evidently intended completion: the chosen code and road address over the address as it is now. */
  function CompletePostcode(current: AddressForm, zonecode: string, roadAddress: string): (r: AddressForm)
    ensures r.postalCode == zonecode && r.roadAddress == roadAddress
    ensures r.detailAddress == current.detailAddress
  {
    current.(postalCode := zonecode, roadAddress := roadAddress)
  }

  /** `handleDetailAddressChange`. */
  function HandleDetailAddressChange(a: AddressForm, value: string): (r: AddressForm)
    ensures r.detailAddress == value
    ensures r.postalCode == a.postalCode && r.roadAddress == a.roadAddress
  {
    a.(detailAddress := value)
  }

  /**
   * Finding: a detail line typed while the popup is open is lost when a
   * postcode is picked, since the completion reports the captured address.
   * Typing "101호" into an empty form during the search leaves the detail
   * line empty.
   */
  lemma TypedDetailLostAsWritten(a: AddressForm, detail: string, z: string, road: string)
    ensures var popup := OpenPostcode(a, Opened).popup.value;
      CompletePostcodeAsWritten(HandleDetailAddressChange(a, detail), popup, z, road).detailAddress == a.detailAddress
    ensures var popup := OpenPostcode(EmptyAddress, Opened).popup.value;
      CompletePostcodeAsWritten(HandleDetailAddressChange(EmptyAddress, "101호"), popup, z, road).detailAddress == ""
  {
  }

  /** With the intended completion the detail line typed during the search survives the pick. */
  lemma TypedDetailKept(a: AddressForm, detail: string, z: string, road: string)
    ensures CompletePostcode(HandleDetailAddressChange(a, detail), z, road)
         == HandleDetailAddressChange(CompletePostcode(a, z, road), detail)
    ensures CompletePostcode(HandleDetailAddressChange(a, detail), z, road).detailAddress == detail
  {
  }

  /**
   * When nothing is typed while the popup is open the two completions agree,
   * so a detail line typed before opening or after the pick is kept either
   * way: outside the popup the detail edit and the pick commute.
   */
  lemma DetailAndPostcodeCommute(a: AddressForm, z: string, road: string, detail: string)
    ensures CompletePostcodeAsWritten(a, OpenPostcode(a, Opened).popup.value, z, road) == CompletePostcode(a, z, road)
    ensures var before := HandleDetailAddressChange(a, detail);
      CompletePostcodeAsWritten(before, OpenPostcode(before, Opened).popup.value, z, road)
        == HandleDetailAddressChange(CompletePostcodeAsWritten(a, OpenPostcode(a, Opened).popup.value, z, road), detail)
  {
  }
}

/**
 * The delivery-address picker of the order page: the saved addresses as
 * radio buttons, and a form that adds a new address and selects it.
 */
module AddressSelect {
  import opened Js
  import opened AddressInput

  /** An address the server has stored. */
  datatype SavedAddress = SavedAddress(addressId: int, postalCode: string, roadAddress: string, detailAddress: string, fullAddress: string)

  const FetchFailed: string := "주소 목록을 불러오는데 실패했습니다."
  const AddressMissing: string := "주소를 입력해주세요."
  const SaveFailed: string := "배송지 추가에 실패했습니다."

  datatype State = State(
    addresses: seq<SavedAddress>,
    loading: bool,
    showNewForm: bool,
    draft: AddressForm,
    error: Option<string>)

  const Initial: State := State([], true, false, EmptyAddress, None)

  /** How loading the member's addresses ended. */
  datatype FetchOutcome = Fetched(addresses: seq<SavedAddress>) | FetchThrew(error: Thrown)

  /** The mount effect that loads the saved addresses. */
  function Load(s: State, o: FetchOutcome): (r: State)
    ensures !r.loading
    ensures o.Fetched? ==> r.addresses == o.addresses && r.error == s.error
    ensures o.FetchThrew? ==> r.addresses == s.addresses && r.error == Some(MessageOf(o.error, FetchFailed))
    ensures r.showNewForm == s.showNewForm && r.draft == s.draft
  {
    match o
    case Fetched(list) => s.(addresses := list, loading := false)
    case FetchThrew(e) => s.(error := Some(MessageOf(e, FetchFailed)), loading := false)
  }

  /**
   * What opening this picker's postcode search led to: it does not load the
   * script itself, so only a missing service is reported. The constructor
   * call is not guarded, so a throw from it escapes the click handler.
   */
  datatype PickOutcome = NotLoaded | Picked(zonecode: string, roadAddress: string) | Closed | OpenThrew(error: Thrown)

  /** The new state, the alert shown, and a value thrown out of the handler uncaught. */
  datatype PickStep = PickStep(state: State, alert: Option<string>, uncaught: Option<Thrown>)

  /** `openPostcode`: a picked result replaces the whole draft, clearing the detail line. */
  function OpenPostcode(s: State, o: PickOutcome): (r: PickStep)
    ensures r.alert.Some? <==> o.NotLoaded?
    ensures o.NotLoaded? ==> r.alert == Some(PostcodeNotReady)
    ensures r.uncaught.Some? <==> o.OpenThrew?
    ensures o.OpenThrew? ==> r.uncaught == Some(o.error)
    ensures o.Picked? ==> r.state.draft == AddressForm(o.zonecode, o.roadAddress, "")
    ensures !o.Picked? ==> r.state == s
    ensures r.state.addresses == s.addresses && r.state.showNewForm == s.showNewForm && r.state.error == s.error
  {
    match o
    case NotLoaded => PickStep(s, Some(PostcodeNotReady), None)
    case Picked(z, road) => PickStep(s.(draft := AddressForm(z, road, "")), None, None)
    case Closed => PickStep(s, None, None)
    case OpenThrew(e) => PickStep(s, None, Some(e))
  }

  /** Typing in the detail line of the new-address form. */
  function EditDetail(s: State, value: string): (r: State)
    ensures r.draft.detailAddress == value
    ensures r.draft.postalCode == s.draft.postalCode && r.draft.roadAddress == s.draft.roadAddress
    ensures r.addresses == s.addresses && r.showNewForm == s.showNewForm && r.error == s.error
  {
    s.(draft := HandleDetailAddressChange(s.draft, value))
  }

  /** A draft the form lets through: both the road address and the postal code are filled. */
  predicate Complete(d: AddressForm) {
    d.roadAddress != "" && d.postalCode != ""
  }

  /** How saving the draft ended. */
  datatype SaveOutcome = Saved(address: SavedAddress) | SaveThrew(error: Thrown)

  datatype Effect = PostAddress(draft: AddressForm) | SelectAddress(addressId: int)

  datatype Submitted = Submitted(state: State, effects: seq<Effect>)

  /** `handleSubmitNewAddress`, given the outcome the save would have. */
  function SubmitNewAddress(s: State, o: SaveOutcome): (r: Submitted)
    ensures !Complete(s.draft) ==> r.effects == [] && r.state == s.(error := Some(AddressMissing))
    ensures Complete(s.draft) ==> |r.effects| >= 1 && r.effects[0] == PostAddress(s.draft)
    ensures Complete(s.draft) && o.Saved? ==>
      && r.state.addresses == s.addresses + [o.address]
      && !r.state.showNewForm
      && r.state.draft == EmptyAddress
      && r.state.error == s.error
      && r.effects == [PostAddress(s.draft), SelectAddress(o.address.addressId)]
    ensures Complete(s.draft) && o.SaveThrew? ==>
      && r.state == s.(error := Some(MessageOf(o.error, SaveFailed)))
      && r.effects == [PostAddress(s.draft)]
  {
    if !Complete(s.draft) then Submitted(s.(error := Some(AddressMissing)), [])
    else match o
      case Saved(a) =>
        Submitted(s.(addresses := s.addresses + [a], showNewForm := false, draft := EmptyAddress),
                  [PostAddress(s.draft), SelectAddress(a.addressId)])
      case SaveThrew(e) =>
        Submitted(s.(error := Some(MessageOf(e, SaveFailed))), [PostAddress(s.draft)])
  }

  /** The add button opens the form; cancel closes it and keeps the draft. */
  function ShowNewForm(s: State, show: bool): (r: State)
    ensures r.showNewForm == show
    ensures r.draft == s.draft && r.addresses == s.addresses && r.error == s.error
  {
    s.(showNewForm := show)
  }

  /** A radio button is checked iff its address id is the selected id. */
  predicate Checked(selectedId: Option<int>, a: SavedAddress) {
    selectedId == Some(a.addressId)
  }

  /** Clicking a radio button reports its address id. */
  function ChooseAddress(a: SavedAddress): (e: Effect)
    ensures e.SelectAddress? && e.addressId == a.addressId
  {
    SelectAddress(a.addressId)
  }

  /** Among addresses with distinct ids at most one radio button is checked. */
  lemma AtMostOneChecked(list: seq<SavedAddress>, selectedId: Option<int>, i: int, j: int)
    requires forall p, q :: 0 <= p < q < |list| ==> list[p].addressId != list[q].addressId
    requires 0 <= i < j < |list|
    ensures !(Checked(selectedId, list[i]) && Checked(selectedId, list[j]))
  {
  }

  /**
   * Once the page stores the id a save reported, the new address is the
   * checked one: the save appends it last and reports its id.
   */
  lemma SavedAddressBecomesChecked(s: State, a: SavedAddress)
    requires Complete(s.draft)
    ensures var r := SubmitNewAddress(s, Saved(a));
      && |r.state.addresses| == |s.addresses| + 1
      && r.effects[1].SelectAddress?
      && Checked(Some(r.effects[1].addressId), r.state.addresses[|s.addresses|])
  {
  }

  /** A failed or refused save leaves the list, the draft and the form as they were. */
  lemma FailedSaveKeepsList(s: State, o: SaveOutcome)
    requires !Complete(s.draft) || o.SaveThrew?
    ensures var r := SubmitNewAddress(s, o);
      && r.state.addresses == s.addresses && r.state.draft == s.draft && r.state.showNewForm == s.showNewForm
      && r.state.error.Some?
      && (forall k :: 0 <= k < |r.effects| ==> !r.effects[k].SelectAddress?)
  {
  }

  /** A successful save does not clear an earlier error: reopening the form shows it again. */
  lemma ErrorSurvivesSave(s: State, a: SavedAddress)
    requires Complete(s.draft) && s.error.Some?
    ensures ShowNewForm(SubmitNewAddress(s, Saved(a)).state, true).error == s.error
  {
  }
}

=== FILE: admin.dfy ===
/**
 * The admin product list: the query the admin hook dispatches for a page,
 * the page's paging and filter state, the delete-confirmation dialog and
 * the stock badge.
 */
module AdminProducts {
  import opened Js

  const DefaultPage: int := 0
  const DefaultSize: int := 10
  const DefaultSort: string := "createdAt,desc"

  /** `useProductList`'s parameters; each may be left `undefined`. */
  datatype ListParams = ListParams(
    page: Option<int>,
    size: Option<int>,
    sort: Option<string>,
    categoryId: Option<int>,
    keyword: Option<string>)

  /** The three admin product requests. */
  datatype AdminQuery =
    | SearchProducts(keyword: string, page: int, size: int)
    | ProductsByCategory(categoryId: int, page: int, size: int)
    | AllProducts(page: int, size: int, sort: string)

  /** The cache key: the five parameters after their defaults are applied. */
  datatype QueryKey = QueryKey(page: int, size: int, sort: string, categoryId: Option<int>, keyword: Option<string>)

  /** The destructuring defaults, which apply to `undefined` only. */
  function Page(p: ListParams): int { p.page.GetOr(DefaultPage) }
  function Size(p: ListParams): int { p.size.GetOr(DefaultSize) }
  function Sort(p: ListParams): string { p.sort.GetOr(DefaultSort) }

  /** `queryFn`: a keyword wins over a category, a category over the full list. */
  function Dispatch(p: ListParams): (q: AdminQuery)
    ensures q.SearchProducts? <==> StrTruthy(p.keyword)
    ensures q.ProductsByCategory? <==> !StrTruthy(p.keyword) && p.categoryId.Some? && p.categoryId.value != 0
    ensures q.SearchProducts? ==> q == SearchProducts(p.keyword.value, Page(p), Size(p))
    ensures q.ProductsByCategory? ==> q == ProductsByCategory(p.categoryId.value, Page(p), Size(p))
    ensures q.AllProducts? ==> q == AllProducts(Page(p), Size(p), Sort(p))
  {
    if StrTruthy(p.keyword) then SearchProducts(p.keyword.value, Page(p), Size(p))
    else if p.categoryId.Some? && p.categoryId.value != 0 then ProductsByCategory(p.categoryId.value, Page(p), Size(p))
    else AllProducts(Page(p), Size(p), Sort(p))
  }

  function Key(p: ListParams): (k: QueryKey)
    ensures k.page == Page(p) && k.size == Size(p) && k.sort == Sort(p)
    ensures k.categoryId == p.categoryId && k.keyword == p.keyword
  {
    QueryKey(Page(p), Size(p), Sort(p), p.categoryId, p.keyword)
  }

  /** The cache never serves one request's result for another: equal keys mean equal requests. */
  lemma KeyDeterminesQuery(p1: ListParams, p2: ListParams)
    requires Key(p1) == Key(p2)
    ensures Dispatch(p1) == Dispatch(p2)
  {
  }

  /** Without parameters the hook lists every product, first page of ten, newest first. */
  lemma DefaultsListNewestFirst()
    ensures Dispatch(ListParams(None, None, None, None, None)) == AllProducts(0, 10, "createdAt,desc")
  {
  }

  // The list page's state

  datatype PageState = PageState(currentPage: int, pageSize: int, searchKeyword: string, categoryId: Option<int>)

  const InitialPage: PageState := PageState(0, 10, "", None)

  /** What the page passes to `useProductList`: no sort, so the default sort applies. */
  function Params(s: PageState): (p: ListParams)
    ensures Page(p) == s.currentPage && Size(p) == s.pageSize && Sort(p) == DefaultSort
    ensures p.categoryId == s.categoryId && p.keyword == Some(s.searchKeyword)
  {
    ListParams(Some(s.currentPage), Some(s.pageSize), None, s.categoryId, Some(s.searchKeyword))
  }

  /** `handleSearch`: a keyword is searched from the first page; an empty one falls back to the category or the full list. */
  function HandleSearch(s: PageState, keyword: string): (r: PageState)
    ensures r.categoryId == s.categoryId && r.pageSize == s.pageSize
    ensures Page(Params(r)) == 0
    ensures Dispatch(Params(r)).SearchProducts? <==> keyword != ""
    ensures keyword != "" ==> Dispatch(Params(r)) == SearchProducts(keyword, 0, s.pageSize)
  {
    s.(searchKeyword := keyword, currentPage := 0)
  }

  /** `handleCategoryFilter`: the first page of the category, unless a keyword search takes precedence. */
  function HandleCategoryFilter(s: PageState, id: Option<int>): (r: PageState)
    ensures r.categoryId == id
    ensures r.searchKeyword == s.searchKeyword && r.pageSize == s.pageSize
    ensures Page(Params(r)) == 0
    ensures s.searchKeyword != "" ==> Dispatch(Params(r)) == SearchProducts(s.searchKeyword, 0, s.pageSize)
    ensures s.searchKeyword == "" ==>
      Dispatch(Params(r)) == (if id.Some? && id.value != 0 then ProductsByCategory(id.value, 0, s.pageSize)
                              else AllProducts(0, s.pageSize, DefaultSort))
  {
    s.(categoryId := id, currentPage := 0)
  }

  /** `handlePageChange`: the same request, on another page. */
  function HandlePageChange(s: PageState, page: int): (r: PageState)
    ensures r.searchKeyword == s.searchKeyword && r.categoryId == s.categoryId && r.pageSize == s.pageSize
    ensures Dispatch(Params(r)) == Dispatch(Params(s)).(page := page)
  {
    s.(currentPage := page)
  }

  /** `handlePageSizeChange`: the same request, from the first page with the new size. */
  function HandlePageSizeChange(s: PageState, size: int): (r: PageState)
    ensures r.searchKeyword == s.searchKeyword && r.categoryId == s.categoryId
    ensures Dispatch(Params(r)) == Dispatch(Params(s)).(page := 0, size := size)
  {
    s.(pageSize := size, currentPage := 0)
  }

  /** Each filter change restarts at the first page, and the request then reflects the new filter. */
  lemma FilterChangesRestartPaging(s: PageState, keyword: string, id: Option<int>, size: int)
    ensures Dispatch(Params(HandleSearch(s, keyword))).SearchProducts? <==> keyword != ""
    ensures keyword != "" ==> Dispatch(Params(HandleSearch(s, keyword))) == SearchProducts(keyword, 0, s.pageSize)
    ensures s.searchKeyword == "" && id.Some? && id.value != 0 ==>
      Dispatch(Params(HandleCategoryFilter(s, id))) == ProductsByCategory(id.value, 0, s.pageSize)
    ensures Page(Params(HandlePageSizeChange(s, size))) == 0 && Size(Params(HandlePageSizeChange(s, size))) == size
  {
  }

  /**
   * A category chosen during a search is kept, not lost: clearing the
   * search afterwards lists that category from the first page.
   */
  lemma CategoryChosenDuringSearchReturns(s: PageState, c: int)
    requires c != 0
    ensures Dispatch(Params(HandleSearch(HandleCategoryFilter(s, Some(c)), ""))) == ProductsByCategory(c, 0, s.pageSize)
  {
  }

  /** A search hides the category filter: with a keyword set, changing the category changes nothing requested. */
  lemma KeywordShadowsCategory(s: PageState, id: Option<int>)
    requires s.searchKeyword != "" && s.currentPage == 0
    ensures Dispatch(Params(HandleCategoryFilter(s, id))) == Dispatch(Params(s))
  {
  }

  /** Turning the page keeps the request kind and its filter, and moves only the page. */
  lemma PageChangeKeepsFilter(s: PageState, page: int)
    ensures var before := Dispatch(Params(s)); var after := Dispatch(Params(HandlePageChange(s, page)));
      && (before.SearchProducts? <==> after.SearchProducts?)
      && (before.ProductsByCategory? <==> after.ProductsByCategory?)
      && after.page == page && after.size == before.size
  {
  }

  /** The page response the list reads; absent until loaded. */
  datatype PageData<T> = PageData(content: seq<T>, totalPages: int, totalElements: int)

  datatype Listing<T> = Listing(products: seq<T>, totalPages: int, totalElements: int)

  /** `productsPage?.content || []` and the totals `|| 0`. */
  function Extract<T>(data: Option<PageData<T>>): (r: Listing<T>)
    ensures data.None? ==> r == Listing([], 0, 0)
    ensures data.Some? ==> r.products == data.value.content
    ensures data.Some? ==> r.totalPages == data.value.totalPages && r.totalElements == data.value.totalElements
  {
    match data
    case None => Listing([], 0, 0)
    case Some(d) => Listing(d.content, IntOr(Some(d.totalPages), 0), IntOr(Some(d.totalElements), 0))
  }

  // The delete-confirmation dialog

  datatype Modal = Modal(open: bool, productToDelete: Option<int>)

  const Closed: Modal := Modal(false, None)

  /**
   * The dialog's inputs. Confirm and Cancel are the dialog's buttons, so
   * they are clickable only while it is open. The trash button and Confirm
   * are both disabled while a delete is in flight; each input carries that
   * flag.
   */
  datatype ModalEvent = DeleteClick(productId: int, isDeleting: bool) | Confirm(isDeleting: bool) | Cancel

  /** A click on an enabled trash button, the only kind that reaches `handleDeleteClick`. */
  predicate Clicked(e: ModalEvent) {
    e.DeleteClick? && !e.isDeleting
  }

  datatype ModalStep = ModalStep(modal: Modal, onDelete: Option<int>)

  /** `handleDeleteClick`, `confirmDelete` and the cancel button. */
  function StepModal(m: Modal, e: ModalEvent): (r: ModalStep)
    ensures Clicked(e) ==> r == ModalStep(Modal(true, Some(e.productId)), None)
    ensures e.DeleteClick? && e.isDeleting ==> r == ModalStep(m, None)
    ensures e.Cancel? ==> r.onDelete.None? && !r.modal.open && r.modal.productToDelete == m.productToDelete
    ensures r.onDelete.Some? <==>
      e.Confirm? && m.open && !e.isDeleting && m.productToDelete.Some? && m.productToDelete.value != 0
    ensures r.onDelete.Some? ==> r.onDelete == m.productToDelete && r.modal == Closed
    ensures e.Confirm? && r.onDelete.None? ==> r.modal == m
  {
    match e
    case DeleteClick(id, isDeleting) =>
      if isDeleting then ModalStep(m, None) else ModalStep(Modal(true, Some(id)), None)
    case Cancel => ModalStep(m.(open := false), None)
    case Confirm(isDeleting) =>
      if m.open && !isDeleting && m.productToDelete.Some? && m.productToDelete.value != 0 then
        ModalStep(Closed, m.productToDelete)
      else ModalStep(m, None)
  }

  /** Runs the dialog over a sequence of inputs, collecting the ids passed to `onDelete`. */
  function RunModal(m: Modal, events: seq<ModalEvent>): (r: (Modal, seq<int>))
    decreases |events|
  {
    if |events| == 0 then (m, [])
    else
      var step := StepModal(m, events[0]);
      var rest := RunModal(step.modal, events[1..]);
      (rest.0, (if step.onDelete.Some? then [step.onDelete.value] else []) + rest.1)
  }

  /** The id whose enabled delete button was clicked most recently, if any. */
  function LastClicked(events: seq<ModalEvent>): (id: Option<int>)
    ensures id.Some? ==> DeleteClick(id.value, false) in events
    ensures id.Some? ==> exists k :: ClickedLastAt(events, k, id.value)
    ensures id.None? <==> NoClick(events)
    decreases |events|
  {
    if |events| == 0 then None
    else
      var last := events[|events| - 1];
      var init := events[..|events| - 1];
      if Clicked(last) then
        assert ClickedLastAt(events, |events| - 1, last.productId);
        Some(last.productId)
      else
        var r := LastClicked(init);
        assert forall j :: 0 <= j < |init| ==> init[j] == events[j];
        assert r.Some? ==> forall k :: ClickedLastAt(init, k, r.value) ==> ClickedLastAt(events, k, r.value);
        r
  }

  /** The enabled delete button of `id` was clicked at position `k`, and no enabled delete button after it. */
  predicate ClickedLastAt(events: seq<ModalEvent>, k: int, id: int) {
    0 <= k < |events| && events[k] == DeleteClick(id, false) && forall j :: k < j < |events| ==> !Clicked(events[j])
  }

  predicate NoClick(events: seq<ModalEvent>) {
    forall j :: 0 <= j < |events| ==> !Clicked(events[j])
  }

  /**
   * Once the dialog has had a delete clicked, the id it holds is the one
   * clicked last; before any click it holds whatever it started with.
   */
  lemma {:induction false} HeldIdIsLastClicked(m: Modal, events: seq<ModalEvent>)
    ensures LastClicked(events).Some? ==> RunModal(m, events).0.productToDelete in {LastClicked(events), None}
    ensures LastClicked(events).None? ==> RunModal(m, events).0.productToDelete in {m.productToDelete, None}
    decreases |events|
  {
    if |events| > 0 {
      var init := events[..|events| - 1];
      var e := events[|events| - 1];
      assert events == init + [e];
      RunModalSnoc(m, init, e);
      HeldIdIsLastClicked(m, init);
      var after := RunModal(m, events).0;
      if Clicked(e) {
        assert after.productToDelete == Some(e.productId) == LastClicked(events);
      } else {
        assert LastClicked(events) == LastClicked(init);
        assert after.productToDelete in {RunModal(m, init).0.productToDelete, None};
      }
    }
  }

  /** Running one more input is one more step after the rest. */
  lemma {:induction false} RunModalSnoc(m: Modal, events: seq<ModalEvent>, e: ModalEvent)
    ensures RunModal(m, events + [e]).0 == StepModal(RunModal(m, events).0, e).modal
    ensures RunModal(m, events + [e]).1 == RunModal(m, events).1 +
      (if StepModal(RunModal(m, events).0, e).onDelete.Some? then [StepModal(RunModal(m, events).0, e).onDelete.value] else [])
    decreases |events|
  {
    if |events| == 0 {
      assert events + [e] == [e];
    } else {
      assert (events + [e])[0] == events[0];
      assert (events + [e])[1..] == events[1..] + [e];
      RunModalSnoc(StepModal(m, events[0]).modal, events[1..], e);
    }
  }

  /** Starting from the closed dialog, every deleted id is one whose delete button was clicked. */
  lemma {:induction false} OnlyClickedIdsAreDeleted(events: seq<ModalEvent>)
    ensures forall i :: 0 <= i < |RunModal(Closed, events).1| ==> DeleteClick(RunModal(Closed, events).1[i], false) in events
    ensures RunModal(Closed, events).0.productToDelete.Some? ==> DeleteClick(RunModal(Closed, events).0.productToDelete.value, false) in events
    decreases |events|
  {
    if |events| > 0 {
      var init := events[..|events| - 1];
      var e := events[|events| - 1];
      assert events == init + [e];
      RunModalSnoc(Closed, init, e);
      OnlyClickedIdsAreDeleted(init);
      var before := RunModal(Closed, init);
      var deleted := RunModal(Closed, events).1;
      forall i | 0 <= i < |deleted|
        ensures DeleteClick(deleted[i], false) in events
      {
        if i < |before.1| {
          assert deleted[i] == before.1[i];
          assert DeleteClick(deleted[i], false) in init;
        } else {
          assert DeleteClick(before.0.productToDelete.value, false) in init;
        }
      }
    }
  }

  /**
   * Cancelling, and confirming while a delete is in flight, never delete
   * anything; a trash click while a delete is in flight changes nothing.
   */
  lemma CancelAndBusyConfirmDeleteNothing(m: Modal, id: int)
    ensures StepModal(m, Cancel).onDelete.None?
    ensures StepModal(m, Confirm(true)).onDelete.None?
    ensures StepModal(m, DeleteClick(id, true)) == ModalStep(m, None)
  {
  }

  // The stock badge

  datatype Band = OutOfStock | LowStock | InStock

  function StockBand(stock: int): (b: Band)
    ensures b == OutOfStock <==> stock <= 0
    ensures b == LowStock <==> 1 <= stock <= 10
    ensures b == InStock <==> stock > 10
  {
    if stock <= 0 then OutOfStock else if stock <= 10 then LowStock else InStock
  }

  function BandClass(b: Band): string {
    match b
    case OutOfStock => "bg-red-100 text-red-800"
    case LowStock => "bg-yellow-100 text-yellow-800"
    case InStock => "bg-green-100 text-green-800"
  }

  const SoldOut: string := "품절"
  const CountSuffix: string := "개"

  /** The badge text: '품절' or the count followed by '개'. */
  function StockLabel(stock: int): (s: string)
    ensures stock <= 0 ==> s == SoldOut
    ensures stock > 0 ==> s == IntToString(stock) + CountSuffix
  {
    if stock <= 0 then SoldOut else IntToString(stock) + CountSuffix
  }

  /** The label reads back as the stock count, and says sold out exactly in the red band. */
  lemma StockLabelAgreesWithBand(stock: int)
    ensures StockLabel(stock) == SoldOut <==> StockBand(stock) == OutOfStock
    ensures stock > 0 ==> ParseNumber(StockLabel(stock)[..|StockLabel(stock)| - 1]) == Int(stock)
  {
    if stock > 0 {
      var digits := IntToString(stock);
      assert StockLabel(stock)[..|StockLabel(stock)| - 1] == digits;
      ParseIntToString(stock);
      assert IsDigit(digits[0]);
      assert StockLabel(stock)[0] != SoldOut[0];
    }
  }
}

=== FILE: cart.dfy ===
/**
 * The cart hook: the price summary derived from the cart lines and the
 * authentication guard in front of every cart mutation.
 */
module Cart {
  import opened Js

  /** One cart line as the cart service reports it. */
  datatype CartItem = CartItem(
    cartId: int,
    productId: int,
    productName: string,
    price: int,
    quantity: int,
    totalPrice: int)

  datatype CartSummary = CartSummary(subtotal: int, shippingFee: int, total: int)

  const FreeShippingThreshold: int := 50000
  const StandardShippingFee: int := 3000
  const LoginRequired: string := "로그인이 필요합니다"
  const LoginPath: string := "/login"

  /** The sum of the line totals, as an independent head-first definition. */
  function SumTotals(items: seq<CartItem>): int {
    if |items| == 0 then 0 else items[0].totalPrice + SumTotals(items[1..])
  }

  /** `items.reduce((sum, item) => sum + item.totalPrice, acc)`, left to right. */
  function Reduce(items: seq<CartItem>, acc: int): (r: int)
    ensures r == acc + SumTotals(items)
    decreases |items|
  {
    if |items| == 0 then acc else Reduce(items[1..], acc + items[0].totalPrice)
  }

  function Subtotal(items: seq<CartItem>): int {
    Reduce(items, 0)
  }

  /** The free-shipping rule shared by every summary in the storefront. */
  function ShippingFeeFor(subtotal: int): (fee: int)
    ensures fee == 0 <==> subtotal >= FreeShippingThreshold
    ensures fee == 0 || fee == StandardShippingFee
  {
    if subtotal >= FreeShippingThreshold then 0 else StandardShippingFee
  }

  /** `calculateSummary`. */
  function CalculateSummary(items: seq<CartItem>): (s: CartSummary)
    ensures s.subtotal == SumTotals(items)
    ensures s.shippingFee == 0 <==> SumTotals(items) >= FreeShippingThreshold
    ensures s.total - s.subtotal == s.shippingFee
    ensures s.total - s.subtotal == 0 || s.total - s.subtotal == StandardShippingFee
  {
    var subtotal := Subtotal(items);
    var fee := ShippingFeeFor(subtotal);
    CartSummary(subtotal, fee, subtotal + fee)
  }

  lemma {:induction false} SumTotalsAppend(a: seq<CartItem>, b: seq<CartItem>)
    ensures SumTotals(a + b) == SumTotals(a) + SumTotals(b)
    decreases |a|
  {
    if |a| == 0 {
      assert a + b == b;
    } else {
      assert (a + b)[0] == a[0];
      assert (a + b)[1..] == a[1..] + b;
      SumTotalsAppend(a[1..], b);
    }
  }

  /** Adding a line adds exactly its line total to the subtotal. */
  lemma SubtotalAddLine(items: seq<CartItem>, line: CartItem)
    ensures CalculateSummary(items + [line]).subtotal == CalculateSummary(items).subtotal + line.totalPrice
  {
    SumTotalsAppend(items, [line]);
    assert SumTotals([line]) == line.totalPrice;
  }

  lemma {:induction false} SumTotalsNonNegative(items: seq<CartItem>)
    requires forall i :: 0 <= i < |items| ==> items[i].totalPrice >= 0
    ensures SumTotals(items) >= 0
    decreases |items|
  {
    if |items| > 0 {
      SumTotalsNonNegative(items[1..]);
    }
  }

  /** With non-negative lines the total is at least the subtotal and never negative. */
  lemma SummaryTotalBounds(items: seq<CartItem>)
    requires forall i :: 0 <= i < |items| ==> items[i].totalPrice >= 0
    ensures CalculateSummary(items).total >= CalculateSummary(items).subtotal >= 0
  {
    SumTotalsNonNegative(items);
  }

  /**
   * The total is not monotone in the subtotal: a larger subtotal costs less
   * exactly when it crosses the free-shipping threshold by less than the fee.
   */
  lemma TotalDropsAtThreshold(s1: int, s2: int)
    requires s1 <= s2
    ensures s2 + ShippingFeeFor(s2) < s1 + ShippingFeeFor(s1) <==>
      s1 < FreeShippingThreshold <= s2 && s2 - s1 < StandardShippingFee
  {
  }

  /** The hook's exposed data: the fetched list, defaulting to [] while absent. */
  datatype CartView = CartView(cartItems: seq<CartItem>, summary: CartSummary)

  function View(data: Option<seq<CartItem>>): (v: CartView)
    ensures data.None? ==> v.cartItems == [] && v.summary == CartSummary(0, StandardShippingFee, StandardShippingFee)
    ensures data.Some? ==> v.cartItems == data.value
    ensures v.summary.subtotal == SumTotals(v.cartItems)
    ensures v.summary.total == v.summary.subtotal + ShippingFeeFor(v.summary.subtotal)
  {
    var items := data.GetOr([]);
    CartView(items, CalculateSummary(items))
  }

  /** The four cart actions the hook exposes. */
  datatype CartAction =
    | AddToCart(productId: int, quantity: int)
    | UpdateQuantity(cartId: int, quantity: int)
    | RemoveItem(cartId: int)
    | ClearCart

  /** The mutation request each action sends to the cart API. */
  datatype CartMutation =
    | AddRequest(productId: int, quantity: int)
    | UpdateRequest(cartId: int, quantity: int)
    | RemoveRequest(cartId: int)
    | ClearRequest

  /** What one action call does: either a redirect plus a rejected promise, or one mutation. */
  datatype ActionResult =
    | Rejected(reason: string, navigateTo: string)
    | Mutated(request: CartMutation)

  function Perform(isAuthenticated: bool, action: CartAction): (r: ActionResult)
    ensures !isAuthenticated <==> r.Rejected?
    ensures r.Rejected? ==> r.reason == LoginRequired && r.navigateTo == LoginPath
    ensures action.AddToCart? && r.Mutated? ==> r.request == AddRequest(action.productId, action.quantity)
    ensures action.UpdateQuantity? && r.Mutated? ==> r.request == UpdateRequest(action.cartId, action.quantity)
    ensures action.RemoveItem? && r.Mutated? ==> r.request == RemoveRequest(action.cartId)
    ensures action.ClearCart? && r.Mutated? ==> r.request == ClearRequest
  {
    if !isAuthenticated then Rejected(LoginRequired, LoginPath)
    else
      match action
      case AddToCart(p, q) => Mutated(AddRequest(p, q))
      case UpdateQuantity(c, q) => Mutated(UpdateRequest(c, q))
      case RemoveItem(c) => Mutated(RemoveRequest(c))
      case ClearCart => Mutated(ClearRequest)
  }

  /** The mount effect: an unauthenticated visitor is sent to the login page. */
  function RedirectOnMount(isAuthenticated: bool): (target: Option<string>)
    ensures target.Some? <==> !isAuthenticated
    ensures target.Some? ==> target.value == LoginPath
  {
    if isAuthenticated then None else Some(LoginPath)
  }
}

/**
 * The cart page's summary panel (the feature component and its older copy):
 * the same free-shipping formula, the empty-cart guard and the hand-off to
 * the order page.
 */
module CartSummaryPanel {
  import opened Js
  import opened Cart

  const EmptyCartAlert: string := "장바구니에 상품을 담아주세요."
  const OrderCreatePath: string := "/orders/new"

  /** The summary the panel hands to the order page: no discount field at all. */
  datatype HandOffSummary = HandOffSummary(subtotal: int, shippingFee: int, total: int)

  datatype OrderClickEffect =
    | Alert(message: string)
    | NavigateToOrder(path: string, cartItems: seq<CartItem>, summary: HandOffSummary)

  /** `items?.reduce(...) || 0`: a missing list reads as 0. */
  function PanelSubtotal(items: Option<seq<CartItem>>): (r: int)
    ensures items.None? ==> r == 0
    ensures items.Some? ==> r == SumTotals(items.value)
  {
    match items
    case None => 0
    case Some(xs) => Subtotal(xs)
  }

  function PanelSummary(items: Option<seq<CartItem>>): (s: HandOffSummary)
    ensures s.subtotal == PanelSubtotal(items)
    ensures s.shippingFee == 0 <==> s.subtotal >= FreeShippingThreshold
    ensures s.total == s.subtotal + s.shippingFee
  {
    var subtotal := PanelSubtotal(items);
    var fee := ShippingFeeFor(subtotal);
    HandOffSummary(subtotal, fee, subtotal + fee)
  }

  predicate IsEmpty(items: Option<seq<CartItem>>) {
    items.None? || |items.value| == 0
  }

  /** `handleOrderClick`. */
  function OrderClick(items: Option<seq<CartItem>>): (e: OrderClickEffect)
    ensures IsEmpty(items) <==> e.Alert?
    ensures e.Alert? ==> e.message == EmptyCartAlert
    ensures e.NavigateToOrder? ==>
      && e.path == OrderCreatePath
      && e.cartItems == items.value
      && e.summary.subtotal == SumTotals(items.value)
      && e.summary.total == e.summary.subtotal + ShippingFeeFor(e.summary.subtotal)
  {
    if IsEmpty(items) then Alert(EmptyCartAlert)
    else NavigateToOrder(OrderCreatePath, items.value, PanelSummary(items))
  }

  /** The panel's figures agree with the hook's `calculateSummary` on every list. */
  lemma PanelAgreesWithHook(xs: seq<CartItem>)
    ensures PanelSummary(Some(xs)).subtotal == CalculateSummary(xs).subtotal
    ensures PanelSummary(Some(xs)).shippingFee == CalculateSummary(xs).shippingFee
    ensures PanelSummary(Some(xs)).total == CalculateSummary(xs).total
  {
  }

  function FreeShippingNoticeShown(items: Option<seq<CartItem>>): (shown: bool)
    ensures shown <==> PanelSummary(items).shippingFee != 0
  {
    PanelSubtotal(items) < FreeShippingThreshold
  }

  /** Both the order and the clear buttons share this disabled condition. */
  function ButtonsDisabled(disabled: bool, items: Option<seq<CartItem>>): (d: bool)
    ensures d <==> disabled || IsEmpty(items)
    ensures !d ==> OrderClick(items).NavigateToOrder?
  {
    disabled || IsEmpty(items)
  }

  // The older copy of the panel, with its own constants and no `disabled` prop.

  const LegacyShippingFee: int := 3000
  const LegacyFreeShippingThreshold: int := 50000

  function LegacyPanelSummary(items: Option<seq<CartItem>>): HandOffSummary {
    var subtotal := match items case None => 0 case Some(xs) => Reduce(xs, 0);
    var fee := if subtotal >= LegacyFreeShippingThreshold then 0 else LegacyShippingFee;
    HandOffSummary(subtotal, fee, subtotal + fee)
  }

  function LegacyOrderClick(items: Option<seq<CartItem>>): OrderClickEffect {
    if items.None? || |items.value| == 0 then Alert(EmptyCartAlert)
    else NavigateToOrder(OrderCreatePath, items.value, LegacyPanelSummary(items))
  }

  function LegacyFreeShippingNoticeShown(items: Option<seq<CartItem>>): bool {
    LegacyPanelSummary(items).subtotal < LegacyFreeShippingThreshold
  }

  /** The older panel behaves exactly like the feature panel on every input. */
  lemma LegacyPanelAgrees(items: Option<seq<CartItem>>)
    ensures LegacyPanelSummary(items) == PanelSummary(items)
    ensures LegacyOrderClick(items) == OrderClick(items)
    ensures LegacyFreeShippingNoticeShown(items) == FreeShippingNoticeShown(items)
  {
  }

  /** The older panel's buttons are never disabled, even for an empty cart. */
  function LegacyButtonsDisabled(items: Option<seq<CartItem>>): (d: bool)
    ensures !d
  {
    false
  }
}

=== FILE: checkout.dfy ===
/**
 * The checkout button of the order page: create the order, then run the
 * handler for the selected payment type, reporting exactly one outcome to
 * the page and releasing the `processing` flag on every path. The order
 * service, the payment endpoints, the payment SDK and local storage are
 * inputs; everything the code does is an effect, in order.
 */
module Checkout {
  import opened Js
  import opened Payment
  import opened Cart

  const ChooseTypeMessage: string := "결제 방식을 선택해주세요."
  const GenericError: string := "결제 처리 중 오류가 발생했습니다."
  const VirtualError: string := "가상계좌 발급 중 오류가 발생했습니다."
  const UnsupportedMessage: string := "지원하지 않는 결제 방식입니다."
  const CardMethodName: string := "카드"
  const VirtualPath: string := "/payments/virtual-account"
  const NormalPath: string := "/payments/normal"
  const SuccessPath: string := "/payments/success"
  const FailPath: string := "/payments/fail"

  /** What the component receives from the order page. */
  datatype Props = Props(
    orderId: Option<string>,
    orderName: string,
    total: Num,
    pointsUsed: Num,
    paymentType: Option<PaymentType>,
    methodId: Option<int>,
    addressId: Option<int>)

  datatype OrderLine = OrderLine(productId: int, quantity: int)

  datatype CreateOrderRequest = CreateOrderRequest(
    deliveryAddressId: int,
    paymentMethodId: int,
    usePoints: Num,
    items: seq<OrderLine>)

  /** The 'cartItems' entry of local storage: missing, parsed, or not a JSON array of items. */
  datatype StoredCart = NoStoredCart | Stored(items: seq<CartItem>) | Malformed(error: Thrown)

  /** The result of the create-order mutation. */
  datatype CreateOutcome = Created(orderId: Option<int>) | CreateFailed(error: Thrown)

  /** How far the card flow gets: prepare, SDK load, payment request (which redirects). */
  datatype CardOutcome =
    | PrepareFails(error: Thrown)
    | LoadFails(clientKey: string, error: Thrown)
    | RequestFails(clientKey: string, error: Thrown)
    | Redirected(clientKey: string)

  /** The result of a virtual-account or normal payment post. */
  datatype PostOutcome = Posted(paymentKey: string) | PostFails(error: Thrown)

  datatype Outcomes = Outcomes(
    stored: StoredCart,
    create: CreateOutcome,
    card: CardOutcome,
    virtualPost: PostOutcome,
    normalPost: PostOutcome,
    origin: string)

  datatype Effect =
    | SetProcessing(on: bool)
    | CreateOrder(request: CreateOrderRequest)
    | PreparePayment(orderId: Option<string>, amount: Num, paymentMethodId: Option<int>)
    | LoadGateway(clientKey: string)
    | RequestGateway(methodName: string, amount: Num, orderId: Option<string>, orderName: string, successUrl: string, failUrl: string)
    | PostPayment(path: string, orderId: Option<string>, amount: Num)
    | PaymentSuccess(paymentKey: string)
    | PaymentFail(message: string)

  /** A call of `onPaymentSuccess` or `onPaymentFail`. */
  predicate IsCallback(e: Effect) {
    e.PaymentSuccess? || e.PaymentFail?
  }

  /** A request made by a payment handler. */
  predicate IsPaymentRequest(e: Effect) {
    e.PreparePayment? || e.LoadGateway? || e.RequestGateway? || e.PostPayment?
  }

  function ToLines(items: seq<CartItem>): (r: seq<OrderLine>)
    ensures |r| == |items|
    ensures forall i :: 0 <= i < |items| ==> r[i] == OrderLine(items[i].productId, items[i].quantity)
  {
    seq(|items|, i requires 0 <= i < |items| => OrderLine(items[i].productId, items[i].quantity))
  }

  /** The method id the prepare call sends: −1 (no saved method) becomes null. */
  function PrepareMethodId(methodId: Option<int>): (r: Option<int>)
    ensures methodId == Some(-1) ==> r.None?
    ensures methodId != Some(-1) ==> r == methodId
  {
    if methodId == Some(-1) then None else methodId
  }

  /** The create-order request exactly as written: the delivery address id is taken from the method id. */
  function CreateRequestAsWritten(p: Props, items: seq<CartItem>): (r: CreateOrderRequest)
    ensures r.deliveryAddressId == IntOr(p.methodId, 0)
    ensures r.paymentMethodId == IntOr(p.methodId, -1)
    ensures r.usePoints == p.pointsUsed
    ensures r.items == ToLines(items)
  {
    CreateOrderRequest(IntOr(p.methodId, 0), IntOr(p.methodId, -1), p.pointsUsed, ToLines(items))
  }

  /** The evidently intended request: the delivery address is the selected address. */
  function CreateRequest(p: Props, items: seq<CartItem>): (r: CreateOrderRequest)
    ensures r.deliveryAddressId == IntOr(p.addressId, 0)
    ensures r.paymentMethodId == IntOr(p.methodId, -1)
    ensures r.usePoints == p.pointsUsed
    ensures r.items == ToLines(items)
  {
    CreateOrderRequest(IntOr(p.addressId, 0), IntOr(p.methodId, -1), p.pointsUsed, ToLines(items))
  }

  /**
   * Finding: as written, the chosen delivery address never reaches the
   * order; with method 7 and address 3 the order is sent to address 7.
   */
  lemma AddressIgnoredAsWritten(p: Props, items: seq<CartItem>, a1: Option<int>, a2: Option<int>)
    ensures CreateRequestAsWritten(p.(addressId := a1), items) == CreateRequestAsWritten(p.(addressId := a2), items)
    ensures CreateRequestAsWritten(p.(methodId := Some(7), addressId := Some(3)), items).deliveryAddressId == 7
  {
  }

  /** The corrected request carries the selected address whatever method is chosen, and differs in nothing else. */
  lemma CorrectedRequestUsesAddress(p: Props, items: seq<CartItem>, m: Option<int>, a: int)
    requires a != 0
    ensures CreateRequest(p.(methodId := m, addressId := Some(a)), items).deliveryAddressId == a
    ensures CreateRequest(p, items) == CreateRequestAsWritten(p, items).(deliveryAddressId := IntOr(p.addressId, 0))
  {
  }

  /**
   * Which create-order request a checkout sends: the one the component
   * builds (`AsWritten`), or the evidently intended one (`Intended`).
   */
  datatype Wiring = AsWritten | Intended

  function Request(w: Wiring, p: Props, items: seq<CartItem>): CreateOrderRequest {
    match w
    case AsWritten => CreateRequestAsWritten(p, items)
    case Intended => CreateRequest(p, items)
  }

  /** The order id handed to the handler: the created id as text, else the `orderId` prop. */
  function CreatedOrderId(created: Option<int>, fallback: Option<string>): (r: Option<string>)
    ensures created.Some? ==> r == Some(IntToString(created.value)) && r.value != ""
    ensures created.None? ==> r == fallback
  {
    match created
    case Some(id) => Some(IntToString(id))
    case None => fallback
  }

  /**
   * The effects a handler may produce: no processing-flag changes, no order
   * creation, and a callback only as the very last effect.
   */
  predicate HandlerShaped(h: seq<Effect>) {
    && (forall i :: 0 <= i < |h| ==> !h[i].SetProcessing? && !h[i].CreateOrder?)
    && (forall i :: 0 <= i < |h| - 1 ==> !IsCallback(h[i]))
  }

  /** The CARD handler: prepare, load the SDK, request the payment; it never reports success itself. */
  function CardHandler(p: Props, orderId: Option<string>, c: CardOutcome, origin: string): (h: seq<Effect>)
    ensures HandlerShaped(h)
    ensures |h| >= 2 && h[0] == PreparePayment(orderId, p.total, PrepareMethodId(p.methodId))
    ensures forall i :: 0 <= i < |h| ==> !h[i].PaymentSuccess?
    ensures c.Redirected? <==> !IsCallback(h[|h| - 1])
    ensures forall i :: 0 <= i < |h| && h[i].RequestGateway? ==>
      h[i] == RequestGateway(CardMethodName, p.total, orderId, p.orderName, origin + SuccessPath, origin + FailPath)
  {
    var prepare := PreparePayment(orderId, p.total, PrepareMethodId(p.methodId));
    var request := RequestGateway(CardMethodName, p.total, orderId, p.orderName, origin + SuccessPath, origin + FailPath);
    match c
    case PrepareFails(e) => [prepare, PaymentFail(MessageOf(e, GenericError))]
    case LoadFails(k, e) => [prepare, LoadGateway(k), PaymentFail(MessageOf(e, GenericError))]
    case RequestFails(k, e) => [prepare, LoadGateway(k), request, PaymentFail(MessageOf(e, GenericError))]
    case Redirected(k) => [prepare, LoadGateway(k), request]
  }

  /** The VIRTUAL and NORMAL handlers: one post, then exactly one callback. */
  function PostHandler(path: string, fallback: string, p: Props, orderId: Option<string>, o: PostOutcome): (h: seq<Effect>)
    ensures HandlerShaped(h)
    ensures |h| == 2 && h[0] == PostPayment(path, orderId, p.total)
    ensures o.Posted? ==> h[1] == PaymentSuccess(o.paymentKey)
    ensures o.PostFails? ==> h[1] == PaymentFail(MessageOf(o.error, fallback))
  {
    [PostPayment(path, orderId, p.total),
     match o
     case Posted(k) => PaymentSuccess(k)
     case PostFails(e) => PaymentFail(MessageOf(e, fallback))]
  }

  /** `paymentHandlers[type]`, or the unsupported-type error when there is none. */
  function RunHandler(p: Props, orderId: Option<string>, o: Outcomes): (h: seq<Effect>)
    requires p.paymentType.Some?
    ensures HandlerShaped(h)
    ensures |h| >= 1
    ensures p.paymentType.value.Unsupported? ==> h == [PaymentFail(UnsupportedMessage)]
    ensures p.paymentType.value.Virtual? ==> h == PostHandler(VirtualPath, VirtualError, p, orderId, o.virtualPost)
    ensures p.paymentType.value.Normal? ==> h == PostHandler(NormalPath, GenericError, p, orderId, o.normalPost)
    ensures p.paymentType.value.Card? ==> h == CardHandler(p, orderId, o.card, o.origin)
  {
    match p.paymentType.value
    case Card => CardHandler(p, orderId, o.card, o.origin)
    case Virtual => PostHandler(VirtualPath, VirtualError, p, orderId, o.virtualPost)
    case Normal => PostHandler(NormalPath, GenericError, p, orderId, o.normalPost)
    case Unsupported(_) => [PaymentFail(UnsupportedMessage)]
  }

  /** The cart lines read from local storage; a missing entry reads as no lines. */
  function StoredItems(stored: StoredCart): seq<CartItem> {
    if stored.Stored? then stored.items else []
  }

  /** The body of the `try`: read the stored cart, create the order, run the handler. */
  function Attempt(w: Wiring, p: Props, o: Outcomes): (a: seq<Effect>)
    requires p.paymentType.Some?
    ensures |a| >= 1 && HandlerShaped(a[1..])
    ensures !a[0].SetProcessing?
    ensures !o.stored.Malformed? <==> a[0].CreateOrder?
    ensures a[0].CreateOrder? ==> a[0].request == Request(w, p, StoredItems(o.stored))
    ensures o.stored.Malformed? ==> a == [PaymentFail(MessageOf(o.stored.error, GenericError))]
    ensures !o.stored.Malformed? && o.create.CreateFailed? ==> a == [a[0], PaymentFail(MessageOf(o.create.error, GenericError))]
    ensures !o.stored.Malformed? && o.create.Created? ==> a[1..] == RunHandler(p, CreatedOrderId(o.create.orderId, p.orderId), o)
  {
    match o.stored
    case Malformed(e) => [PaymentFail(MessageOf(e, GenericError))]
    case NoStoredCart => CreateThenPay(w, p, o, [])
    case Stored(items) => CreateThenPay(w, p, o, items)
  }

  /** The create-order mutation, then the handler when the order was created. */
  function CreateThenPay(w: Wiring, p: Props, o: Outcomes, items: seq<CartItem>): (a: seq<Effect>)
    requires p.paymentType.Some?
    ensures |a| >= 2 && a[0] == CreateOrder(Request(w, p, items)) && HandlerShaped(a[1..])
    ensures o.create.CreateFailed? ==> a == [a[0], PaymentFail(MessageOf(o.create.error, GenericError))]
    ensures o.create.Created? ==> a[1..] == RunHandler(p, CreatedOrderId(o.create.orderId, p.orderId), o)
  {
    var create := CreateOrder(Request(w, p, items));
    match o.create
    case CreateFailed(e) => [create, PaymentFail(MessageOf(e, GenericError))]
    case Created(id) => [create] + RunHandler(p, CreatedOrderId(id, p.orderId), o)
  }

  /** `handlePayment`; the component itself runs it with `AsWritten`. */
  function HandlePayment(w: Wiring, p: Props, o: Outcomes): (effs: seq<Effect>)
    ensures !Selected(p.paymentType) ==> effs == [PaymentFail(ChooseTypeMessage)]
    ensures Selected(p.paymentType) ==>
      && |effs| >= 3
      && effs[0] == SetProcessing(true)
      && effs[|effs| - 1] == SetProcessing(false)
      && (forall i :: 0 < i < |effs| - 1 ==> !effs[i].SetProcessing?)
  {
    if !Selected(p.paymentType) then [PaymentFail(ChooseTypeMessage)]
    else [SetProcessing(true)] + Attempt(w, p, o) + [SetProcessing(false)]
  }

  /**
   * The intended checkout differs from the component's only in the delivery
   * address of the order it creates: every other effect is the same, and
   * the two coincide exactly when no order is created or the address id
   * happens to equal the method id.
   */
  lemma WiringsDifferOnlyInAddress(p: Props, o: Outcomes)
    ensures |HandlePayment(Intended, p, o)| == |HandlePayment(AsWritten, p, o)|
    ensures forall i :: 0 <= i < |HandlePayment(AsWritten, p, o)| ==>
      || HandlePayment(Intended, p, o)[i] == HandlePayment(AsWritten, p, o)[i]
      || (&& HandlePayment(AsWritten, p, o)[i].CreateOrder?
          && HandlePayment(Intended, p, o)[i]
             == CreateOrder(HandlePayment(AsWritten, p, o)[i].request.(deliveryAddressId := IntOr(p.addressId, 0))))
    ensures HandlePayment(Intended, p, o) == HandlePayment(AsWritten, p, o) <==>
      !Selected(p.paymentType) || o.stored.Malformed? || IntOr(p.addressId, 0) == IntOr(p.methodId, 0)
  {
    if Selected(p.paymentType) && !o.stored.Malformed? {
      var a := Attempt(AsWritten, p, o);
      var b := Attempt(Intended, p, o);
      assert a[1..] == b[1..];
      assert b[0] == CreateOrder(a[0].request.(deliveryAddressId := IntOr(p.addressId, 0)));
      var ea := HandlePayment(AsWritten, p, o);
      var eb := HandlePayment(Intended, p, o);
      assert ea == [SetProcessing(true)] + a + [SetProcessing(false)];
      assert eb == [SetProcessing(true)] + b + [SetProcessing(false)];
      forall i | 0 <= i < |ea|
        ensures eb[i] == ea[i] || (ea[i].CreateOrder? && eb[i] == CreateOrder(ea[i].request.(deliveryAddressId := IntOr(p.addressId, 0))))
      {
        if 2 <= i < |ea| - 1 {
          assert ea[i] == a[1..][i - 2] && eb[i] == b[1..][i - 2];
        }
      }
      if IntOr(p.addressId, 0) != IntOr(p.methodId, 0) {
        assert eb[1] != ea[1];
      }
    }
  }

  /** Every checkout reports at most one outcome to the page. */
  lemma AtMostOneCallback(w: Wiring, p: Props, o: Outcomes, i: int, j: int)
    requires 0 <= i < |HandlePayment(w, p, o)| && 0 <= j < |HandlePayment(w, p, o)|
    requires IsCallback(HandlePayment(w, p, o)[i]) && IsCallback(HandlePayment(w, p, o)[j])
    ensures i == j
  {
    if Selected(p.paymentType) {
      var a := Attempt(w, p, o);
      var effs := HandlePayment(w, p, o);
      assert effs == [SetProcessing(true)] + a + [SetProcessing(false)];
      assert forall k :: 1 <= k < |effs| - 1 ==> effs[k] == a[k - 1];
      assert forall k :: 0 <= k < |a| - 1 ==> !IsCallback(a[k]) by {
        forall k | 0 <= k < |a| - 1
          ensures !IsCallback(a[k])
        {
          if k >= 1 {
            assert a[k] == a[1..][k - 1];
          }
        }
      }
    }
  }

  /** Every checkout that gets past the type guard reports exactly one outcome, except a card redirect. */
  lemma CallbackUnlessRedirect(w: Wiring, p: Props, o: Outcomes)
    requires Selected(p.paymentType)
    requires !(p.paymentType.value.Card? && !o.stored.Malformed? && o.create.Created? && o.card.Redirected?)
    ensures IsCallback(HandlePayment(w, p, o)[|HandlePayment(w, p, o)| - 2])
  {
    var a := Attempt(w, p, o);
    var effs := HandlePayment(w, p, o);
    assert effs == [SetProcessing(true)] + a + [SetProcessing(false)];
    assert effs[|effs| - 2] == a[|a| - 1];
    if !o.stored.Malformed? && o.create.Created? {
      var h := RunHandler(p, CreatedOrderId(o.create.orderId, p.orderId), o);
      assert a[1..] == h;
      assert a[|a| - 1] == h[|h| - 1];
    }
  }

  /** The order is created before any payment request, and a payment request implies a created order. */
  lemma CreateBeforePayment(w: Wiring, p: Props, o: Outcomes, i: int)
    requires 0 <= i < |HandlePayment(w, p, o)| && IsPaymentRequest(HandlePayment(w, p, o)[i])
    ensures Selected(p.paymentType)
    ensures o.create.Created? && !o.stored.Malformed?
    ensures 1 < i && HandlePayment(w, p, o)[1].CreateOrder?
  {
    if Selected(p.paymentType) {
      var a := Attempt(w, p, o);
      var effs := HandlePayment(w, p, o);
      assert effs == [SetProcessing(true)] + a + [SetProcessing(false)];
      assert effs[i] == a[i - 1];
    }
  }

  /** A failed order creation gives exactly one failure report and no payment request. */
  lemma CreateFailureStopsCheckout(w: Wiring, p: Props, o: Outcomes)
    requires Selected(p.paymentType) && !o.stored.Malformed? && o.create.CreateFailed?
    ensures HandlePayment(w, p, o) == [
      SetProcessing(true),
      CreateOrder(Request(w, p, StoredItems(o.stored))),
      PaymentFail(MessageOf(o.create.error, GenericError)),
      SetProcessing(false)]
  {
  }

  /** A virtual-account or normal payment hands the same payment key back to the page. */
  lemma PostedKeyReachesPage(w: Wiring, p: Props, o: Outcomes)
    requires Selected(p.paymentType) && (p.paymentType.value.Virtual? || p.paymentType.value.Normal?)
    requires !o.stored.Malformed? && o.create.Created?
    requires p.paymentType.value.Virtual? ==> o.virtualPost.Posted?
    requires p.paymentType.value.Normal? ==> o.normalPost.Posted?
    ensures HandlePayment(w, p, o)[|HandlePayment(w, p, o)| - 2]
      == PaymentSuccess(if p.paymentType.value.Virtual? then o.virtualPost.paymentKey else o.normalPost.paymentKey)
  {
    CallbackUnlessRedirect(w, p, o);
  }

  /** The pay button. */
  function PayDisabled(paymentType: Option<PaymentType>, processing: bool): (d: bool)
    ensures d <==> !Selected(paymentType) || processing
  {
    !Selected(paymentType) || processing
  }

  /** The processing flag after the effects, starting from `before`. */
  function ProcessingAfter(before: bool, effs: seq<Effect>): bool
    decreases |effs|
  {
    if |effs| == 0 then before
    else ProcessingAfter(if effs[0].SetProcessing? then effs[0].on else before, effs[1..])
  }

  lemma {:induction false} ProcessingAfterLast(before: bool, effs: seq<Effect>)
    requires |effs| > 0 && effs[|effs| - 1].SetProcessing?
    ensures ProcessingAfter(before, effs) == effs[|effs| - 1].on
    decreases |effs|
  {
    if |effs| > 1 {
      ProcessingAfterLast(if effs[0].SetProcessing? then effs[0].on else before, effs[1..]);
    }
  }

  lemma {:induction false} ProcessingAfterUnchanged(before: bool, effs: seq<Effect>)
    requires forall i :: 0 <= i < |effs| ==> !effs[i].SetProcessing?
    ensures ProcessingAfter(before, effs) == before
    decreases |effs|
  {
    if |effs| > 0 {
      ProcessingAfterUnchanged(before, effs[1..]);
    }
  }

  /**
   * After a checkout the button is enabled again (processing is false), and
   * a checkout without a type leaves the flag as it was.
   */
  lemma ProcessingReleased(w: Wiring, p: Props, o: Outcomes, before: bool)
    ensures Selected(p.paymentType) ==> !ProcessingAfter(before, HandlePayment(w, p, o))
    ensures !Selected(p.paymentType) ==> ProcessingAfter(before, HandlePayment(w, p, o)) == before
  {
    if Selected(p.paymentType) {
      ProcessingAfterLast(before, HandlePayment(w, p, o));
    } else {
      ProcessingAfterUnchanged(before, HandlePayment(w, p, o));
    }
  }
}

/**
 * The older checkout component: no order creation, a `switch` over the
 * payment type, `fetch` responses checked with `ok`, and a card flow that
 * reports success only when the SDK returns a payment key.
 */
module LegacyCheckout {
  import opened Js
  import opened Payment
  import Checkout

  const PrepareFailed: string := "결제 준비에 실패했습니다."
  const VirtualFailed: string := "가상계좌 발급에 실패했습니다."
  const NormalFailed: string := "결제 처리에 실패했습니다."
  const PrepareUrlBase: string := "/api/payments/prepare"
  const VirtualUrl: string := "/api/payments/virtual-account"
  const NormalUrl: string := "/api/payments/normal"

  datatype Props = Props(
    orderId: string,
    orderName: string,
    total: Num,
    paymentType: Option<PaymentType>,
    methodId: Option<int>)

  /** The prepare `fetch`: a response that is not ok, a client key, or a thrown value. */
  datatype PrepareOutcome = PrepareNotOk | PrepareOk(clientKey: string) | PrepareThrows(error: Thrown)

  /** After a successful prepare: SDK load failure, request failure, or the request's result. */
  datatype GatewayOutcome =
    | LoadFails(error: Thrown)
    | RequestFails(error: Thrown)
    | RequestReturns(paymentKey: Option<string>)

  datatype PostOutcome = PostNotOk | PostOk(paymentKey: string) | PostThrows(error: Thrown)

  datatype Outcomes = Outcomes(
    prepare: PrepareOutcome,
    gateway: GatewayOutcome,
    virtualPost: PostOutcome,
    normalPost: PostOutcome,
    origin: string)

  datatype Effect =
    | SetProcessing(on: bool)
    | FetchPrepare(url: string, orderId: string, amount: Num, paymentMethodId: Option<int>)
    | LoadGateway(clientKey: string)
    | RequestGateway(methodName: string, amount: Num, orderId: string, orderName: string, successUrl: string, failUrl: string)
    | FetchPayment(url: string, orderId: string, amount: Num)
    | PaymentSuccess(paymentKey: string)
    | PaymentFail(message: string)

  predicate IsCallback(e: Effect) {
    e.PaymentSuccess? || e.PaymentFail?
  }

  /** The prepare URL carries the order id and the total in its query string. */
  function PrepareUrl(orderId: string, total: Num): string {
    PrepareUrlBase + "?orderId=" + orderId + "&amount=" + NumToString(total)
  }

  /** `handleCardPayment`. */
  function CardPayment(p: Props, o: Outcomes): (h: seq<Effect>)
    ensures |h| >= 2 && h[0] == FetchPrepare(PrepareUrl(p.orderId, p.total), p.orderId, p.total, Checkout.PrepareMethodId(p.methodId))
    ensures o.prepare.PrepareNotOk? ==> h == [h[0], PaymentFail(PrepareFailed)]
    ensures h[|h| - 1].PaymentSuccess? <==>
      o.prepare.PrepareOk? && o.gateway.RequestReturns? && StrTruthy(o.gateway.paymentKey)
    ensures forall i :: 0 <= i < |h| - 1 ==> !IsCallback(h[i])
  {
    var fetch := FetchPrepare(PrepareUrl(p.orderId, p.total), p.orderId, p.total, Checkout.PrepareMethodId(p.methodId));
    match o.prepare
    case PrepareNotOk => [fetch, PaymentFail(PrepareFailed)]
    case PrepareThrows(e) => [fetch, PaymentFail(MessageOf(e, Checkout.GenericError))]
    case PrepareOk(k) =>
      var request := RequestGateway(Checkout.CardMethodName, p.total, p.orderId, p.orderName,
        o.origin + Checkout.SuccessPath, o.origin + Checkout.FailPath);
      match o.gateway
      case LoadFails(e) => [fetch, LoadGateway(k), PaymentFail(MessageOf(e, Checkout.GenericError))]
      case RequestFails(e) => [fetch, LoadGateway(k), request, PaymentFail(MessageOf(e, Checkout.GenericError))]
      case RequestReturns(key) =>
        if StrTruthy(key) then [fetch, LoadGateway(k), request, PaymentSuccess(key.value)]
        else [fetch, LoadGateway(k), request]
  }

  /** `handleVirtualAccountPayment` and `handleNormalPayment`. */
  function PostPayment(url: string, notOk: string, fallback: string, p: Props, o: PostOutcome): (h: seq<Effect>)
    ensures |h| == 2 && h[0] == FetchPayment(url, p.orderId, p.total)
    ensures o.PostNotOk? ==> h[1] == PaymentFail(notOk)
    ensures o.PostOk? ==> h[1] == PaymentSuccess(o.paymentKey)
    ensures o.PostThrows? ==> h[1] == PaymentFail(MessageOf(o.error, fallback))
  {
    [FetchPayment(url, p.orderId, p.total),
     match o
     case PostNotOk => PaymentFail(notOk)
     case PostOk(k) => PaymentSuccess(k)
     case PostThrows(e) => PaymentFail(MessageOf(e, fallback))]
  }

  /** `handlePayment`: the type guard, then the `switch` inside `try`/`finally`. */
  function HandlePayment(p: Props, o: Outcomes): (effs: seq<Effect>)
    ensures !Selected(p.paymentType) ==> effs == [PaymentFail(Checkout.ChooseTypeMessage)]
    ensures Selected(p.paymentType) ==>
      && |effs| >= 3
      && effs[0] == SetProcessing(true)
      && effs[|effs| - 1] == SetProcessing(false)
      && (forall i :: 0 < i < |effs| - 1 ==> !effs[i].SetProcessing?)
    ensures Selected(p.paymentType) && p.paymentType.value.Unsupported? ==>
      effs == [SetProcessing(true), PaymentFail(Checkout.UnsupportedMessage), SetProcessing(false)]
    ensures Selected(p.paymentType) && p.paymentType.value.Virtual? && o.virtualPost.PostNotOk? ==>
      effs[|effs| - 2] == PaymentFail(VirtualFailed)
    ensures Selected(p.paymentType) && p.paymentType.value.Normal? && o.normalPost.PostNotOk? ==>
      effs[|effs| - 2] == PaymentFail(NormalFailed)
  {
    if !Selected(p.paymentType) then [PaymentFail(Checkout.ChooseTypeMessage)]
    else
      var body := match p.paymentType.value
        case Card => CardPayment(p, o)
        case Virtual => PostPayment(VirtualUrl, VirtualFailed, Checkout.VirtualError, p, o.virtualPost)
        case Normal => PostPayment(NormalUrl, NormalFailed, Checkout.GenericError, p, o.normalPost)
        case Unsupported(_) => [PaymentFail(Checkout.UnsupportedMessage)];
      [SetProcessing(true)] + body + [SetProcessing(false)]
  }

  /**
   * Both checkouts treat a missing type identically, and on a posted
   * virtual-account payment both hand the same key to the page.
   */
  lemma AgreesWithCheckout(p: Props, cp: Checkout.Props, o: Outcomes, co: Checkout.Outcomes, key: string)
    requires cp.paymentType == p.paymentType
    ensures !Selected(p.paymentType) ==>
      HandlePayment(p, o) == [PaymentFail(Checkout.ChooseTypeMessage)]
      && Checkout.HandlePayment(Checkout.AsWritten, cp, co) == [Checkout.PaymentFail(Checkout.ChooseTypeMessage)]
    ensures (p.paymentType == Some(Virtual) && o.virtualPost == PostOk(key)
      && !co.stored.Malformed? && co.create.Created? && co.virtualPost == Checkout.Posted(key)) ==>
      && HandlePayment(p, o)[|HandlePayment(p, o)| - 2] == PaymentSuccess(key)
      && Checkout.HandlePayment(Checkout.AsWritten, cp, co)[|Checkout.HandlePayment(Checkout.AsWritten, cp, co)| - 2] == Checkout.PaymentSuccess(key)
  {
    if p.paymentType == Some(Virtual) && o.virtualPost == PostOk(key)
      && !co.stored.Malformed? && co.create.Created? && co.virtualPost == Checkout.Posted(key) {
      Checkout.PostedKeyReachesPage(Checkout.AsWritten, cp, co);
    }
  }
}

=== FILE: form_format.dfy ===
/**
 * The input formatters of the signup form: card numbers grouped by four
 * characters, and expiry dates shaped as MM/YY.
 */
module FormFormat {
  import opened Js

  /** `value.replace(/\s/g, "")`. */
  function RemoveWhitespace(s: string): (r: string)
    ensures |r| <= |s|
    ensures forall i :: 0 <= i < |r| ==> !IsWhitespace(r[i])
    decreases |s|
  {
    if |s| == 0 then ""
    else (if IsWhitespace(s[0]) then "" else [s[0]]) + RemoveWhitespace(s[1..])
  }

  predicate NoWhitespace(s: string) {
    forall i :: 0 <= i < |s| ==> !IsWhitespace(s[i])
  }

  lemma {:induction false} RemoveWhitespaceAppend(a: string, b: string)
    ensures RemoveWhitespace(a + b) == RemoveWhitespace(a) + RemoveWhitespace(b)
    decreases |a|
  {
    if |a| == 0 {
      assert a + b == b;
    } else {
      assert (a + b)[0] == a[0];
      assert (a + b)[1..] == a[1..] + b;
      RemoveWhitespaceAppend(a[1..], b);
    }
  }

  lemma {:induction false} RemoveWhitespaceKeeps(s: string)
    requires NoWhitespace(s)
    ensures RemoveWhitespace(s) == s
    decreases |s|
  {
    if |s| > 0 {
      RemoveWhitespaceKeeps(s[1..]);
    }
  }

  /** `cleaned.match(/.{1,4}/g) || []` on a string without white space: consecutive groups of four, the last one shorter. */
  function Groups(s: string): (g: seq<string>)
    ensures forall i :: 0 <= i < |g| ==> 1 <= |g[i]| <= 4
    ensures forall i :: 0 <= i < |g| - 1 ==> |g[i]| == 4
    ensures |s| == 0 <==> |g| == 0
    decreases |s|
  {
    if |s| == 0 then []
    else if |s| <= 4 then [s]
    else [s[..4]] + Groups(s[4..])
  }

  function Concat(g: seq<string>): string
    decreases |g|
  {
    if |g| == 0 then "" else g[0] + Concat(g[1..])
  }

  /** `groups.join(" ")`. */
  function Join(g: seq<string>): string
    decreases |g|
  {
    if |g| == 0 then ""
    else if |g| == 1 then g[0]
    else g[0] + " " + Join(g[1..])
  }

  /** `formatCardNumber`. */
  function FormatCardNumber(value: string): string {
    Join(Groups(RemoveWhitespace(value)))
  }

  /** Grouping loses and reorders nothing: the groups spell the input. */
  lemma {:induction false} GroupsSpellInput(s: string)
    ensures Concat(Groups(s)) == s
    decreases |s|
  {
    if |s| > 4 {
      GroupsSpellInput(s[4..]);
      assert s == s[..4] + s[4..];
    }
  }

  lemma {:induction false} GroupsHaveNoWhitespace(s: string)
    requires NoWhitespace(s)
    ensures forall i :: 0 <= i < |Groups(s)| ==> NoWhitespace(Groups(s)[i])
    decreases |s|
  {
    if |s| > 4 {
      GroupsHaveNoWhitespace(s[4..]);
    }
  }

  /** Removing white space from the joined groups gives back their concatenation. */
  lemma {:induction false} RemoveWhitespaceOfJoin(g: seq<string>)
    requires forall i :: 0 <= i < |g| ==> NoWhitespace(g[i])
    ensures RemoveWhitespace(Join(g)) == Concat(g)
    decreases |g|
  {
    if |g| == 1 {
      RemoveWhitespaceKeeps(g[0]);
      assert Concat(g) == g[0] + Concat(g[1..]);
    } else if |g| > 1 {
      RemoveWhitespaceOfJoin(g[1..]);
      RemoveWhitespaceAppend(g[0] + " ", Join(g[1..]));
      RemoveWhitespaceAppend(g[0], " ");
      RemoveWhitespaceKeeps(g[0]);
      assert RemoveWhitespace(" ") == "";
    }
  }

  /** The card formatter keeps exactly the non-space characters of its input, in order. */
  lemma FormatKeepsCharacters(value: string)
    ensures RemoveWhitespace(FormatCardNumber(value)) == RemoveWhitespace(value)
  {
    var cleaned := RemoveWhitespace(value);
    GroupsHaveNoWhitespace(cleaned);
    RemoveWhitespaceOfJoin(Groups(cleaned));
    GroupsSpellInput(cleaned);
  }

  /** Formatting an already formatted card number changes nothing. */
  lemma FormatCardNumberIdempotent(value: string)
    ensures FormatCardNumber(FormatCardNumber(value)) == FormatCardNumber(value)
  {
    FormatKeepsCharacters(value);
  }

  /** The only white space the formatter emits is the single separating space. */
  lemma {:induction false} JoinSeparatorsOnly(g: seq<string>)
    requires forall i :: 0 <= i < |g| ==> NoWhitespace(g[i])
    ensures forall i :: 0 <= i < |Join(g)| && IsWhitespace(Join(g)[i]) ==> Join(g)[i] == ' '
    decreases |g|
  {
    if |g| > 1 {
      JoinSeparatorsOnly(g[1..]);
      var j := Join(g);
      assert j == g[0] + " " + Join(g[1..]);
      forall i | 0 <= i < |j| && IsWhitespace(j[i])
        ensures j[i] == ' '
      {
        if i > |g[0]| {
          assert j[i] == Join(g[1..])[i - |g[0]| - 1];
        }
      }
    }
  }

  lemma {:induction false} JoinLength(g: seq<string>)
    requires |g| > 0
    ensures |Join(g)| == |Concat(g)| + |g| - 1
    decreases |g|
  {
    if |g| > 1 {
      JoinLength(g[1..]);
    }
  }

  /** The number of groups a string of n characters splits into. */
  lemma {:induction false} GroupCount(s: string)
    ensures |Groups(s)| == (|s| + 3) / 4
    decreases |s|
  {
    if |s| > 4 {
      GroupCount(s[4..]);
    }
  }

  /** Sixteen digits format as four groups separated by spaces, nineteen characters in all. */
  lemma SixteenDigitsFormat(digits: string)
    requires |digits| == 16 && AllDigits(digits)
    ensures |FormatCardNumber(digits)| == 19
    ensures RemoveWhitespace(FormatCardNumber(digits)) == digits
    ensures FormatCardNumber(digits)[4] == ' ' && FormatCardNumber(digits)[9] == ' ' && FormatCardNumber(digits)[14] == ' '
  {
    assert NoWhitespace(digits) by {
      forall i | 0 <= i < |digits| ensures !IsWhitespace(digits[i]) {
        assert IsDigit(digits[i]);
      }
    }
    RemoveWhitespaceKeeps(digits);
    var g := Groups(digits);
    GroupCount(digits);
    GroupsSpellInput(digits);
    JoinLength(g);
    FormatKeepsCharacters(digits);
    var s1 := digits[4..];
    var s2 := s1[4..];
    var s3 := s2[4..];
    assert Groups(s3) == [s3];
    assert Groups(s2) == [s2[..4]] + [s3];
    assert Groups(s1) == [s1[..4]] + [s2[..4], s3];
    assert g == [digits[..4], s1[..4], s2[..4], s3];
    var f := FormatCardNumber(digits);
    assert Join([s2[..4], s3]) == s2[..4] + " " + s3;
    assert Join([s1[..4], s2[..4], s3]) == s1[..4] + " " + (s2[..4] + " " + s3);
    assert f == digits[..4] + " " + (s1[..4] + " " + (s2[..4] + " " + s3));
  }

  // Expiry dates

  /** `value.replace(/\D/g, "")`. */
  function KeepDigits(s: string): (r: string)
    ensures AllDigits(r)
    ensures |r| <= |s|
    decreases |s|
  {
    if |s| == 0 then ""
    else (if IsDigit(s[0]) then [s[0]] else "") + KeepDigits(s[1..])
  }

  lemma {:induction false} KeepDigitsAppend(a: string, b: string)
    ensures KeepDigits(a + b) == KeepDigits(a) + KeepDigits(b)
    decreases |a|
  {
    if |a| == 0 {
      assert a + b == b;
    } else {
      assert (a + b)[0] == a[0];
      assert (a + b)[1..] == a[1..] + b;
      KeepDigitsAppend(a[1..], b);
    }
  }

  lemma {:induction false} KeepDigitsOfDigits(s: string)
    requires AllDigits(s)
    ensures KeepDigits(s) == s
    decreases |s|
  {
    if |s| > 0 {
      KeepDigitsOfDigits(s[1..]);
    }
  }

  /** `formatExpiryDate`. */
  function FormatExpiryDate(value: string): (r: string)
    ensures |KeepDigits(value)| < 2 ==> r == KeepDigits(value)
    ensures |KeepDigits(value)| >= 2 ==>
      && 3 <= |r| <= 5
      && r[..2] == KeepDigits(value)[..2]
      && r[2] == '/'
      && r[3..] == KeepDigits(value)[2..Min(4, |KeepDigits(value)|)]
  {
    var cleaned := KeepDigits(value);
    if |cleaned| >= 2 then cleaned[..2] + "/" + cleaned[2..Min(4, |cleaned|)]
    else cleaned
  }

  /** The formatted date keeps at most the first four digits of the input. */
  lemma ExpiryKeepsLeadingDigits(value: string)
    ensures KeepDigits(FormatExpiryDate(value)) == KeepDigits(value)[..Min(4, |KeepDigits(value)|)]
  {
    var c := KeepDigits(value);
    if |c| >= 2 {
      var tail := c[2..Min(4, |c|)];
      KeepDigitsAppend(c[..2] + "/", tail);
      KeepDigitsAppend(c[..2], "/");
      KeepDigitsOfDigits(c[..2]);
      KeepDigitsOfDigits(tail);
      assert KeepDigits("/") == "";
      assert c[..2] + tail == c[..Min(4, |c|)];
    } else {
      KeepDigitsOfDigits(c);
    }
  }

  /** Formatting an already formatted date changes nothing. */
  lemma FormatExpiryDateIdempotent(value: string)
    ensures FormatExpiryDate(FormatExpiryDate(value)) == FormatExpiryDate(value)
  {
    ExpiryKeepsLeadingDigits(value);
    var c := KeepDigits(value);
    var d := c[..Min(4, |c|)];
    assert KeepDigits(FormatExpiryDate(value)) == d;
    if |c| >= 2 {
      assert d[..2] == c[..2];
      assert d[2..Min(4, |d|)] == c[2..Min(4, |c|)];
    }
  }

  /** The signup expiry rule: `^(0[1-9]|1[0-2])\/([0-9]{2})$`. */
  predicate ValidExpiry(e: string) {
    && |e| == 5
    && e[2] == '/'
    && IsDigit(e[3]) && IsDigit(e[4])
    && ((e[0] == '0' && '1' <= e[1] <= '9') || (e[0] == '1' && '0' <= e[1] <= '2'))
  }

  /** Four typed digits forming a real month and a year format into a date the signup form accepts. */
  lemma FormattedMonthYearIsValid(value: string)
    requires AllDigits(value) && |value| == 4
    requires (value[0] == '0' && value[1] != '0') || (value[0] == '1' && value[1] <= '2')
    ensures ValidExpiry(FormatExpiryDate(value))
  {
    KeepDigitsOfDigits(value);
    assert IsDigit(value[1]);
  }
}

=== FILE: js.dfy ===
/**
 * The few JavaScript value semantics the storefront's handlers rely on,
 * written out explicitly: optional values, NaN-carrying numbers, the
 * `x || d` defaulting idiom, decimal rendering of integers and the
 * `Number(...)` conversion used when reading query parameters.
 */
module Js {

  /** `null` / `undefined` versus a present value. */
  datatype Option<+T> = None | Some(value: T) {
    function GetOr(default: T): T {
      match this
      case Some(v) => v
      case None => default
    }
  }

  /**
   * A JavaScript number restricted to the integers the storefront uses,
   * plus NaN (what `parseInt` of garbage or arithmetic on `undefined` gives).
   */
  datatype Num = NaN | Int(v: int)

  /** Truthiness of a number: NaN and 0 are falsy. */
  predicate Truthy(n: Num) {
    n.Int? && n.v != 0
  }

  /** Truthiness of an optional string: `null`, `undefined` and '' are falsy. */
  predicate StrTruthy(s: Option<string>) {
    s.Some? && s.value != ""
  }

  /** `parseInt(text) || d`, the parse result given as `p` (None for NaN). */
  function ParsedOr(p: Option<int>, d: int): (r: int)
    ensures p.Some? && p.value != 0 ==> r == p.value
    ensures p.None? || p.value == 0 ==> r == d
  {
    match p
    case Some(x) => if x != 0 then x else d
    case None => d
  }

  /** `x || d` for a nullable number: `null` and 0 fall back to `d`. */
  function IntOr(x: Option<int>, d: int): (r: int)
    ensures x.Some? && x.value != 0 ==> r == x.value
    ensures x.None? || x.value == 0 ==> r == d
  {
    if x.Some? && x.value != 0 then x.value else d
  }

  /** `s || d` for an optional string. */
  function StrOr(s: Option<string>, d: string): (r: string)
    ensures StrTruthy(s) ==> r == s.value
    ensures !StrTruthy(s) ==> r == d
  {
    if StrTruthy(s) then s.value else d
  }

  /** `params.get(key)` on a key/value table: absent keys read as `null`. */
  function Lookup<K, V>(m: map<K, V>, key: K): (r: Option<V>)
    ensures r.Some? <==> key in m
    ensures r.Some? ==> r.value == m[key]
  {
    if key in m then Some(m[key]) else None
  }

  /** `list ?? []`: a missing list reads as empty. */
  function OrEmpty<T>(list: Option<seq<T>>): (r: seq<T>)
    ensures list.None? ==> r == []
    ensures list.Some? ==> r == list.value
  {
    list.GetOr([])
  }

  function Min(a: int, b: int): int {
    if a <= b then a else b
  }

  function Max(a: int, b: int): int {
    if a >= b then a else b
  }

  /** `Math.min(a, b)` over numbers: NaN is contagious. */
  function NumMin(a: Num, b: Num): (r: Num)
    ensures r.NaN? <==> a.NaN? || b.NaN?
    ensures r.Int? ==> r.v <= a.v && r.v <= b.v && (r.v == a.v || r.v == b.v)
  {
    if a.NaN? || b.NaN? then NaN else Int(Min(a.v, b.v))
  }

  /** `a + b - c - d` over numbers: NaN is contagious. */
  function NumAdd(a: Num, b: Num): (r: Num)
    ensures r.NaN? <==> a.NaN? || b.NaN?
    ensures r.Int? ==> r.v == a.v + b.v
  {
    if a.NaN? || b.NaN? then NaN else Int(a.v + b.v)
  }

  function NumSub(a: Num, b: Num): (r: Num)
    ensures r.NaN? <==> a.NaN? || b.NaN?
    ensures r.Int? ==> r.v == a.v - b.v
  {
    if a.NaN? || b.NaN? then NaN else Int(a.v - b.v)
  }

  /** ASCII decimal digit, the class `\d` matches. */
  predicate IsDigit(c: char) {
    '0' <= c <= '9'
  }

  predicate AllDigits(s: string) {
    forall i :: 0 <= i < |s| ==> IsDigit(s[i])
  }

  /**
   * The white-space class of JavaScript regular expressions (`\s`), which is
   * also the set `String.prototype.trim` removes.
   */
  predicate IsWhitespace(c: char) {
    || c == ' ' || c == '\t' || c == '\n' || c == '\U{B}' || c == '\U{C}' || c == '\r'
    || c == '\U{A0}' || c == '\U{1680}' || ('\U{2000}' <= c <= '\U{200A}')
    || c == '\U{2028}' || c == '\U{2029}' || c == '\U{202F}' || c == '\U{205F}'
    || c == '\U{3000}' || c == '\U{FEFF}'
  }

  function DigitChar(d: int): (c: char)
    requires 0 <= d < 10
    ensures IsDigit(c)
    ensures c as int - '0' as int == d
  {
    ('0' as int + d) as char
  }

  /** Decimal rendering of a natural number, most significant digit first. */
  function NatToString(n: nat): (s: string)
    ensures |s| >= 1
    ensures AllDigits(s)
    decreases n
  {
    if n < 10 then [DigitChar(n)] else NatToString(n / 10) + [DigitChar(n % 10)]
  }

  /** `String(i)` / template interpolation of an integer. */
  function IntToString(i: int): (s: string)
    ensures |s| >= 1
    ensures i >= 0 ==> AllDigits(s)
    ensures i < 0 ==> s[0] == '-' && AllDigits(s[1..])
  {
    if i < 0 then "-" + NatToString(-i) else NatToString(i)
  }

  /** A number interpolated into a template string. */
  function NumToString(n: Num): (s: string)
    ensures n.NaN? ==> s == "NaN"
    ensures n.Int? ==> s == IntToString(n.v)
  {
    match n
    case NaN => "NaN"
    case Int(v) => IntToString(v)
  }

  /** Value of a digit string read left to right. */
  function DigitsValue(s: string): nat
    requires AllDigits(s)
  {
    if |s| == 0 then 0
    else DigitsValue(s[..|s| - 1]) * 10 + (s[|s| - 1] as int - '0' as int)
  }

  /**
   * `Number(s)` for the strings the storefront feeds it: an optional '-'
   * followed by one or more ASCII digits; every other string reads as NaN.
   */
  function ParseNumber(s: string): (n: Num)
    ensures n.Int? ==> |s| >= 1
  {
    if |s| >= 1 && AllDigits(s) then Int(DigitsValue(s))
    else if |s| >= 2 && s[0] == '-' && AllDigits(s[1..]) then Int(0 - DigitsValue(s[1..]) as int)
    else NaN
  }

  lemma {:induction false} DigitsValueOfNatToString(n: nat)
    ensures DigitsValue(NatToString(n)) == n
    decreases n
  {
    if n >= 10 {
      var pre := NatToString(n / 10);
      var s := pre + [DigitChar(n % 10)];
      assert s[..|s| - 1] == pre;
      DigitsValueOfNatToString(n / 10);
    }
  }

  /** Reading back a rendered integer gives the integer (the query-string round trip). */
  lemma ParseIntToString(i: int)
    ensures ParseNumber(IntToString(i)) == Int(i)
  {
    if i < 0 {
      var s := IntToString(i);
      assert s[1..] == NatToString(-i);
      DigitsValueOfNatToString(-i);
      assert !IsDigit(s[0]);
    } else {
      DigitsValueOfNatToString(i);
    }
  }

  /** A value thrown by awaited code: an `Error` with its message, or anything else. */
  datatype Thrown = ErrorValue(message: string) | OtherValue

  /** `error instanceof Error ? error.message : fallback`. */
  function MessageOf(t: Thrown, fallback: string): (m: string)
    ensures t.ErrorValue? ==> m == t.message
    ensures t.OtherValue? ==> m == fallback
  {
    match t
    case ErrorValue(m) => m
    case OtherValue => fallback
  }
}

=== FILE: order_create.dfy ===
/**
 * The order page: the summary it keeps while points are applied, the cart
 * lines it converts into order lines, the guard against arriving without a
 * cart, and the hand-offs to the payment result pages.
 */
module OrderCreate {
  import opened Js
  import opened Cart
  import CartSummaryPanel
  import opened Payment
  import OrderForm
  import Points

  const InvalidAccess: string := "잘못된 접근입니다."
  const CartPath: string := "/cart"
  const OrderNotFound: string := "주문 정보를 찾을 수 없습니다."
  const PaymentCompleted: string := "결제가 완료되었습니다."
  const GenericPaymentError: string := "결제 처리 중 오류가 발생했습니다."

  /**
   * The summary found in the navigation state. The page's type declares a
   * discount, but the cart never sends one, so it is optional here.
   */
  datatype IncomingSummary = IncomingSummary(subtotal: int, shippingFee: int, discount: Option<int>, total: int)

  datatype LocationState = LocationState(cartItems: Option<seq<CartItem>>, summary: IncomingSummary)

  /** The summary the page keeps; totals and points are JavaScript numbers and may be NaN. */
  datatype PageSummary = PageSummary(
    subtotal: int,
    shippingFee: int,
    discount: Option<int>,
    pointsUsed: Num,
    total: Num)

  /** The navigation state the cart page builds, read as this page's incoming summary. */
  function FromCart(h: CartSummaryPanel.HandOffSummary): (s: IncomingSummary)
    ensures s.discount.None?
    ensures s.subtotal == h.subtotal && s.shippingFee == h.shippingFee && s.total == h.total
  {
    IncomingSummary(h.subtotal, h.shippingFee, None, h.total)
  }

  /** The cart lines and the incoming summary, with the defaults used when no state was passed. */
  function ResolveState(state: Option<LocationState>): (r: (seq<CartItem>, IncomingSummary))
    ensures state.None? ==> r == ([], IncomingSummary(0, 0, Some(0), 0))
    ensures state.Some? && state.value.cartItems.None? ==> r.0 == []
    ensures state.Some? && state.value.cartItems.Some? ==> r.0 == state.value.cartItems.value
    ensures state.Some? ==> r.1 == state.value.summary
  {
    match state
    case None => ([], IncomingSummary(0, 0, Some(0), 0))
    case Some(s) => (s.cartItems.GetOr([]), s.summary)
  }

  /** The summary state starts as the incoming one with no points used and the same total. */
  function InitialSummary(inc: IncomingSummary): (s: PageSummary)
    ensures s.subtotal == inc.subtotal && s.shippingFee == inc.shippingFee && s.discount == inc.discount
    ensures s.pointsUsed == Int(0)
    ensures s.total == Int(inc.total)
  {
    PageSummary(inc.subtotal, inc.shippingFee, inc.discount, Int(0), Int(inc.total))
  }

  /**
   * `handlePointsUseChange` exactly as written:
   * `prev.subtotal + prev.shippingFee - prev.discount - points`, where a
   * missing discount is `undefined` and the arithmetic yields NaN.
   */
  function HandlePointsUseChangeAsWritten(prev: PageSummary, points: Num): (s: PageSummary)
    ensures s.subtotal == prev.subtotal && s.shippingFee == prev.shippingFee && s.discount == prev.discount
    ensures s.pointsUsed == points
    ensures s.total.NaN? <==> prev.discount.None? || points.NaN?
  {
    var discount := match prev.discount case Some(d) => Int(d) case None => NaN;
    var total := NumSub(NumSub(Int(prev.subtotal + prev.shippingFee), discount), points);
    prev.(pointsUsed := points, total := total)
  }

  /**
   * The evidently intended recomputation: a discount the cart did not send
   * counts as 0, so the total is always the cart's amount minus the points.
   */
  function HandlePointsUseChange(prev: PageSummary, points: Num): (s: PageSummary)
    ensures s.subtotal == prev.subtotal && s.shippingFee == prev.shippingFee && s.discount == prev.discount
    ensures s.pointsUsed == points
    ensures s.total.NaN? <==> points.NaN?
    ensures points.Int? ==> s.total == Int(prev.subtotal + prev.shippingFee - prev.discount.GetOr(0) - points.v)
  {
    var total := NumSub(Int(prev.subtotal + prev.shippingFee - prev.discount.GetOr(0)), points);
    prev.(pointsUsed := points, total := total)
  }

  /**
   * Finding: after arriving from the cart, the first point change turns the
   * total into NaN, and every later entry in the point box is NaN as well
   * because the box is bounded by that total.
   */
  lemma MissingDiscountPoisonsTotal(h: CartSummaryPanel.HandOffSummary, points: int, typed: Option<int>)
    ensures HandlePointsUseChangeAsWritten(InitialSummary(FromCart(h)), Int(points)).total == NaN
    ensures OrderForm.PointEntry(HandlePointsUseChangeAsWritten(InitialSummary(FromCart(h)), Int(points)).total, typed).stored == NaN
  {
  }

  /** With the corrected recomputation the total is the cart's total minus the points. */
  lemma CorrectedTotalFromCart(h: CartSummaryPanel.HandOffSummary, points: int)
    requires h.total == h.subtotal + h.shippingFee
    ensures HandlePointsUseChange(InitialSummary(FromCart(h)), Int(points)).total == Int(h.total - points)
  {
  }

  /** The total is recomputed from the subtotal, so point changes never accumulate. */
  lemma PointChangesDoNotAccumulate(s: PageSummary, p1: Num, p2: Num)
    ensures HandlePointsUseChange(HandlePointsUseChange(s, p1), p2) == HandlePointsUseChange(s, p2)
  {
  }

  /** Where the two recomputations agree: whenever a discount is present. */
  lemma AsWrittenAgreesWithDiscount(s: PageSummary, points: Num)
    requires s.discount.Some?
    ensures HandlePointsUseChangeAsWritten(s, points) == HandlePointsUseChange(s, points)
  {
  }

  /**
   * With the intended recomputation the point box is bounded by the
   * already-reduced total: whatever is typed next, using more points now
   * never lets more be entered, and the entry never exceeds what is left.
   */
  lemma PointBoundShrinksWithUse(s: PageSummary, used1: int, used2: int, typed: Option<int>)
    requires used1 <= used2
    ensures OrderForm.PointEntry(HandlePointsUseChange(s, Int(used1)).total, typed).stored.Int?
    ensures OrderForm.PointEntry(HandlePointsUseChange(s, Int(used2)).total, typed).stored.v
      <= OrderForm.PointEntry(HandlePointsUseChange(s, Int(used1)).total, typed).stored.v
    ensures OrderForm.PointEntry(HandlePointsUseChange(s, Int(used2)).total, typed).stored.v
      <= s.subtotal + s.shippingFee - s.discount.GetOr(0) - used2
  {
  }

  // Order lines

  datatype OrderItem = OrderItem(productId: int, productName: string, quantity: int, price: int, subtotal: int)

  function ConvertItem(c: CartItem): OrderItem {
    OrderItem(c.productId, c.productName, c.quantity, c.price, c.totalPrice)
  }

  /** `convertCartItemsToOrderItems`: one order line per cart line, in order. */
  function ConvertCartItems(items: seq<CartItem>): (r: seq<OrderItem>)
    ensures |r| == |items|
    ensures forall i :: 0 <= i < |items| ==>
      && r[i].productId == items[i].productId
      && r[i].productName == items[i].productName
      && r[i].quantity == items[i].quantity
      && r[i].price == items[i].price
      && r[i].subtotal == items[i].totalPrice
  {
    seq(|items|, i requires 0 <= i < |items| => ConvertItem(items[i]))
  }

  function SumSubtotals(xs: seq<OrderItem>): int {
    if |xs| == 0 then 0 else xs[0].subtotal + SumSubtotals(xs[1..])
  }

  /** The order lines add up to the cart's subtotal. */
  lemma {:induction false} ConvertedSubtotalsMatchCart(items: seq<CartItem>)
    ensures SumSubtotals(ConvertCartItems(items)) == SumTotals(items)
    decreases |items|
  {
    if |items| > 0 {
      assert ConvertCartItems(items)[1..] == ConvertCartItems(items[1..]);
      ConvertedSubtotalsMatchCart(items[1..]);
    }
  }

  // Effects of the page

  /** The state handed to the success page. */
  datatype SuccessHandOff = SuccessHandOff(orderId: string, paymentKey: string, amount: Num)

  /** The state handed to the fail page. */
  datatype FailHandOff = FailHandOff(orderId: Option<string>, message: string)

  datatype PageEffect =
    | ToastError(message: string)
    | ToastSuccess(message: string)
    | NavigateTo(path: string)
    | StoreCartItems(items: seq<CartItem>)
    | GoToSuccess(success: SuccessHandOff)
    | GoToFail(failure: FailHandOff)

  /** The mount effect: an empty cart is sent back; the cart lines are stored either way. */
  function MountEffects(items: seq<CartItem>): (effs: seq<PageEffect>)
    ensures |items| == 0 ==> effs == [ToastError(InvalidAccess), NavigateTo(CartPath), StoreCartItems(items)]
    ensures |items| > 0 ==> effs == [StoreCartItems(items)]
    ensures effs[|effs| - 1] == StoreCartItems(items)
  {
    (if |items| == 0 then [ToastError(InvalidAccess), NavigateTo(CartPath)] else []) + [StoreCartItems(items)]
  }

  /**
   * The order name passed to checkout: the first product's name and a space,
   * then ' 외 (n-1)건' when there is more than one line. An empty cart
   * interpolates `undefined`.
   */
  function OrderName(items: seq<CartItem>): (name: string)
    ensures |items| == 0 ==> name == "undefined "
    ensures |items| == 1 ==> name == items[0].productName + " "
    ensures |items| > 1 ==> name == items[0].productName + " " + "외 " + IntToString(|items| - 1) + "건"
  {
    var first := if |items| == 0 then "undefined" else items[0].productName;
    var suffix := if |items| > 1 then "외 " + IntToString(|items| - 1) + "건" else "";
    first + " " + suffix
  }

  /** The order name always starts with the first product's name followed by a space. */
  lemma OrderNameStartsWithFirstProduct(items: seq<CartItem>)
    requires |items| > 0
    ensures |OrderName(items)| > |items[0].productName|
    ensures OrderName(items)[..|items[0].productName| + 1] == items[0].productName + " "
  {
  }

  /** `handlePaymentSuccess`, with the stored 'lastOrderId' as an input. */
  function HandlePaymentSuccess(lastOrderId: Option<string>, paymentKey: string, summary: PageSummary): (effs: seq<PageEffect>)
    ensures !StrTruthy(lastOrderId) <==> effs == [ToastError(OrderNotFound)]
    ensures StrTruthy(lastOrderId) ==>
      effs == [ToastSuccess(PaymentCompleted), GoToSuccess(SuccessHandOff(lastOrderId.value, paymentKey, summary.total))]
  {
    if !StrTruthy(lastOrderId) then [ToastError(OrderNotFound)]
    else [ToastSuccess(PaymentCompleted), GoToSuccess(SuccessHandOff(lastOrderId.value, paymentKey, summary.total))]
  }

  /** `handlePaymentFail`: an empty message is replaced by the generic one in both the toast and the hand-off. */
  function HandlePaymentFail(lastOrderId: Option<string>, error: string): (effs: seq<PageEffect>)
    ensures |effs| == 2 && effs[0].ToastError? && effs[1].GoToFail?
    ensures effs[0].message == effs[1].failure.message != ""
    ensures error != "" ==> effs[1].failure.message == error
    ensures error == "" ==> effs[1].failure.message == GenericPaymentError
    ensures effs[1].failure.orderId == lastOrderId
  {
    var message := if error != "" then error else GenericPaymentError;
    [ToastError(message), GoToFail(FailHandOff(lastOrderId, message))]
  }

  // The page's selection state and its synchrony with the order form

  datatype PageState = PageState(
    paymentType: Option<PaymentType>,
    methodId: Option<int>,
    addressId: Option<int>,
    summary: PageSummary)

  function InitialPage(state: Option<LocationState>): PageState {
    PageState(None, None, None, InitialSummary(ResolveState(state).1))
  }

  /** The page's reaction to the form's callbacks (`handlePaymentMethodSelect`, `handleAddressSelect`). */
  function OnFormCallback(p: PageState, cb: OrderForm.Callback): (q: PageState)
    ensures cb.OnPaymentMethodSelect? ==> q == p.(paymentType := Some(cb.paymentType), methodId := cb.methodId)
    ensures cb.OnAddressSelect? ==> q == p.(addressId := Some(cb.addressId))
  {
    match cb
    case OnPaymentMethodSelect(t, m) => p.(paymentType := Some(t), methodId := m)
    case OnAddressSelect(a) => p.(addressId := Some(a))
  }

  /**
   * The page's point handler as written, fed by the form's point box: the
   * total turns NaN whenever the incoming summary carried no discount.
   */
  function OnPointsChange(p: PageState, points: Num): (q: PageState)
    ensures q.summary.pointsUsed == points
    ensures q.summary.total.NaN? <==> p.summary.discount.None? || points.NaN?
    ensures p.summary.discount.Some? && points.Int? ==>
      q.summary.total == Int(p.summary.subtotal + p.summary.shippingFee - p.summary.discount.value - points.v)
    ensures q.summary.subtotal == p.summary.subtotal && q.summary.shippingFee == p.summary.shippingFee
    ensures q.summary.discount == p.summary.discount
    ensures q.paymentType == p.paymentType && q.methodId == p.methodId && q.addressId == p.addressId
  {
    p.(summary := HandlePointsUseChangeAsWritten(p.summary, points))
  }

  /** The page's point handler with the evidently intended recomputation. */
  function OnPointsChangeIntended(p: PageState, points: Num): (q: PageState)
    ensures q.summary.pointsUsed == points
    ensures q.summary.total.NaN? <==> points.NaN?
    ensures points.Int? ==>
      q.summary.total == Int(p.summary.subtotal + p.summary.shippingFee - p.summary.discount.GetOr(0) - points.v)
    ensures q.paymentType == p.paymentType && q.methodId == p.methodId && q.addressId == p.addressId
  {
    p.(summary := HandlePointsUseChange(p.summary, points))
  }

  /**
   * Finding, on the page: arriving from the cart and using any points makes
   * the page's total NaN, where the intended page shows the cart's total
   * minus the points.
   */
  lemma CartArrivalPointsAsWritten(items: Option<seq<CartItem>>, h: CartSummaryPanel.HandOffSummary, points: int)
    requires h.total == h.subtotal + h.shippingFee
    ensures OnPointsChange(InitialPage(Some(LocationState(items, FromCart(h)))), Int(points)).summary.total == NaN
    ensures OnPointsChangeIntended(InitialPage(Some(LocationState(items, FromCart(h)))), Int(points)).summary.total
      == Int(h.total - points)
  {
  }

  /**
   * The page mirrors the form: same type and address, and the same method
   * whenever a type is selected (otherwise the page holds no method).
   */
  predicate Synced(f: OrderForm.FormState, p: PageState) {
    && p.paymentType == f.paymentType
    && p.addressId == f.addressId
    && (Selected(f.paymentType) ==> p.methodId == f.methodId)
    && (!Selected(f.paymentType) ==> p.methodId == None)
  }

  function Deliver(p: PageState, cb: Option<OrderForm.Callback>): PageState {
    if cb.Some? then OnFormCallback(p, cb.value) else p
  }

  function RunForm(f: OrderForm.FormState, p: PageState, events: seq<OrderForm.FormEvent>): (r: (OrderForm.FormState, PageState))
    decreases |events|
  {
    if |events| == 0 then (f, p)
    else
      var step := OrderForm.Apply(f, events[0]);
      RunForm(step.state, Deliver(p, step.callback), events[1..])
  }

  lemma {:induction false} RunFormStaysSynced(f: OrderForm.FormState, p: PageState, events: seq<OrderForm.FormEvent>)
    requires Synced(f, p)
    ensures Synced(RunForm(f, p, events).0, RunForm(f, p, events).1)
    decreases |events|
  {
    if |events| > 0 {
      var step := OrderForm.Apply(f, events[0]);
      var p' := Deliver(p, step.callback);
      assert Synced(step.state, p');
      RunFormStaysSynced(step.state, p', events[1..]);
    }
  }

  /** From a fresh page, any sequence of form interactions leaves the page in step with the form. */
  lemma FreshPageStaysSynced(state: Option<LocationState>, events: seq<OrderForm.FormEvent>)
    ensures Synced(RunForm(OrderForm.Initial, InitialPage(state), events).0, RunForm(OrderForm.Initial, InitialPage(state), events).1)
  {
    RunFormStaysSynced(OrderForm.Initial, InitialPage(state), events);
  }
}

=== FILE: order_form.dfy ===
/** The payment kinds shared by the order form, the order page and checkout. */
module Payment {
  import opened Js

  /**
   * The payment type enum. `Unsupported` stands for any other runtime value
   * that reaches the checkout code; its tag is what `!type` tests.
   */
  datatype PaymentType = Card | Virtual | Normal | Unsupported(tag: string)

  /** `if (selectedPaymentType)`: null and the empty string are falsy; every enum member is truthy. */
  predicate Selected(t: Option<PaymentType>) {
    t.Some? && !(t.value.Unsupported? && t.value.tag == "")
  }

  lemma EnumMembersAreSelected(t: PaymentType)
    requires !t.Unsupported?
    ensures Selected(Some(t))
  {
  }
}

/** The point-usage box on the order form. */
module Points {
  import opened Js

  /** The stored points and the value passed to `onChange` by one handler call. */
  datatype PointStep = PointStep(stored: Num, reported: Num)

  /** `handlePointChange`: `parseInt(text) || 0`, then `Math.min(value, maxPoints, maxAmount)`. */
  function HandlePointChange(maxPoints: Num, maxAmount: Num, parsed: Option<int>): (s: PointStep)
    ensures s.stored == s.reported
    ensures s.stored.NaN? <==> maxPoints.NaN? || maxAmount.NaN?
    ensures s.stored.Int? ==> s.stored.v <= maxPoints.v && s.stored.v <= maxAmount.v
    ensures s.stored.Int? ==> s.stored.v == ParsedOr(parsed, 0) || s.stored.v == maxPoints.v || s.stored.v == maxAmount.v
    ensures maxPoints.Int? && maxAmount.Int? && ParsedOr(parsed, 0) <= maxPoints.v && ParsedOr(parsed, 0) <= maxAmount.v
      ==> s.stored == Int(ParsedOr(parsed, 0))
  {
    var value := ParsedOr(parsed, 0);
    var valid := NumMin(NumMin(Int(value), maxPoints), maxAmount);
    PointStep(valid, valid)
  }

  /** `handleAllPointsClick`: the largest usable amount. */
  function HandleAllPointsClick(maxPoints: Num, maxAmount: Num): (s: PointStep)
    ensures s.stored == s.reported
    ensures s.stored.NaN? <==> maxPoints.NaN? || maxAmount.NaN?
    ensures s.stored.Int? ==> s.stored.v == Min(maxPoints.v, maxAmount.v)
  {
    var m := NumMin(maxPoints, maxAmount);
    PointStep(m, m)
  }

  /** Typing any amount never gives more than the "use all" button would. */
  lemma TypedNeverExceedsAll(maxPoints: int, maxAmount: int, parsed: Option<int>)
    ensures HandlePointChange(Int(maxPoints), Int(maxAmount), parsed).stored.v
      <= HandleAllPointsClick(Int(maxPoints), Int(maxAmount)).stored.v
  {
  }

  /** Empty or non-numeric text reads as 0 points (when both bounds are non-negative). */
  lemma GarbageIsZero(maxPoints: int, maxAmount: int)
    requires maxPoints >= 0 && maxAmount >= 0
    ensures HandlePointChange(Int(maxPoints), Int(maxAmount), None).stored == Int(0)
  {
  }

  /** There is no lower bound: a negative entry passes through unchanged. */
  lemma NegativePassesThrough(maxPoints: int, maxAmount: int, typed: int)
    requires typed < 0 && maxPoints >= 0 && maxAmount >= 0
    ensures HandlePointChange(Int(maxPoints), Int(maxAmount), Some(typed)).stored == Int(typed)
  {
  }
}

/** The order form: address, payment type / method and point selection. */
module OrderForm {
  import opened Js
  import opened Payment
  import Points

  /** The point allowance is a fixed placeholder. */
  const MaxPoints: int := 10000

  datatype FormState = FormState(
    paymentType: Option<PaymentType>,
    methodId: Option<int>,
    addressId: Option<int>)

  const Initial: FormState := FormState(None, None, None)

  datatype FormEvent = SelectType(t: PaymentType) | SelectMethod(id: int) | SelectAddress(id: int)

  /** The parent callbacks the form invokes. */
  datatype Callback =
    | OnPaymentMethodSelect(paymentType: PaymentType, methodId: Option<int>)
    | OnAddressSelect(addressId: int)

  datatype FormStep = FormStep(state: FormState, callback: Option<Callback>)

  /** `handlePaymentTypeSelect`: a new type clears the method and reports (type, null). */
  function HandlePaymentTypeSelect(s: FormState, t: PaymentType): (r: FormStep)
    ensures r.state == s.(paymentType := Some(t), methodId := None)
    ensures r.callback == Some(OnPaymentMethodSelect(t, None))
  {
    FormStep(FormState(Some(t), None, s.addressId), Some(OnPaymentMethodSelect(t, None)))
  }

  /** `handleMethodSelect`: always stored, reported only when a type is selected. */
  function HandleMethodSelect(s: FormState, id: int): (r: FormStep)
    ensures r.state == s.(methodId := Some(id))
    ensures r.callback.Some? <==> Selected(s.paymentType)
    ensures r.callback.Some? ==> r.callback.value == OnPaymentMethodSelect(s.paymentType.value, Some(id))
  {
    var s' := s.(methodId := Some(id));
    if Selected(s.paymentType) then FormStep(s', Some(OnPaymentMethodSelect(s.paymentType.value, Some(id))))
    else FormStep(s', None)
  }

  function HandleAddressSelect(s: FormState, id: int): (r: FormStep)
    ensures r.state == s.(addressId := Some(id))
    ensures r.callback == Some(OnAddressSelect(id))
  {
    FormStep(s.(addressId := Some(id)), Some(OnAddressSelect(id)))
  }

  function Apply(s: FormState, e: FormEvent): FormStep {
    match e
    case SelectType(t) => HandlePaymentTypeSelect(s, t)
    case SelectMethod(id) => HandleMethodSelect(s, id)
    case SelectAddress(id) => HandleAddressSelect(s, id)
  }

  /** Changing the type after choosing a method forgets the method. */
  lemma TypeChangeResetsMethod(s: FormState, t1: PaymentType, m: int, t2: PaymentType)
    ensures Apply(Apply(Apply(s, SelectType(t1)).state, SelectMethod(m)).state, SelectType(t2)).state.methodId == None
  {
  }

  /** The point box gets the fixed allowance and the current total as its bounds. */
  function PointEntry(total: Num, parsed: Option<int>): (s: Points.PointStep)
    ensures s.stored.Int? ==> total.Int? && s.stored.v <= MaxPoints && s.stored.v <= total.v
    ensures total.NaN? ==> s.stored.NaN?
  {
    Points.HandlePointChange(Int(MaxPoints), total, parsed)
  }
}

=== FILE: order_status.dfy ===
/**
 * The order lifecycle statuses: their labels and badge colours, which
 * statuses may be cancelled or confirmed, and the actions an order page
 * offers for each.
 */
module OrderStatus {

  datatype Status = Pending | Paid | Preparing | Shipping | Delivered | Completed | Cancelled

  /** Position along the normal lifecycle; a cancellation ends it at any point. */
  function Stage(s: Status): nat {
    match s
    case Pending => 0
    case Paid => 1
    case Preparing => 2
    case Shipping => 3
    case Delivered => 4
    case Completed => 5
    case Cancelled => 6
  }

  function Label(s: Status): string {
    match s
    case Pending => "주문 대기"
    case Paid => "결제 완료"
    case Preparing => "상품 준비중"
    case Shipping => "배송중"
    case Delivered => "배송 완료"
    case Completed => "구매 확정"
    case Cancelled => "주문 취소"
  }

  function Colour(s: Status): string {
    match s
    case Cancelled => "text-red-600 bg-red-50"
    case Completed => "text-green-600 bg-green-50"
    case Delivered => "text-blue-600 bg-blue-50"
    case Shipping => "text-indigo-600 bg-indigo-50"
    case Pending => "text-gray-600 bg-gray-50"
    case Paid => "text-gray-600 bg-gray-50"
    case Preparing => "text-gray-600 bg-gray-50"
  }

  const Neutral: string := "text-gray-600 bg-gray-50"

  const CancelableStatuses: seq<Status> := [Pending, Paid, Preparing]
  const ConfirmableStatuses: seq<Status> := [Delivered]

  /** `isCancelable`: membership in the cancelable list. */
  predicate IsCancelable(s: Status) {
    s in CancelableStatuses
  }

  /** `isConfirmable`: membership in the confirmable list. */
  predicate IsConfirmable(s: Status) {
    s in ConfirmableStatuses
  }

  /** Every status has a label, and no two statuses share one. */
  lemma LabelsDistinct(a: Status, b: Status)
    ensures |Label(a)| > 0
    ensures Label(a) == Label(b) ==> a == b
  {
  }

  /** An order can be cancelled exactly until it ships. */
  lemma CancelableMeansNotYetShipped(s: Status)
    ensures IsCancelable(s) <==> Stage(s) < Stage(Shipping)
  {
  }

  /** An order can be confirmed exactly when it has been delivered and not yet confirmed. */
  lemma ConfirmableMeansDelivered(s: Status)
    ensures IsConfirmable(s) <==> Stage(s) == Stage(Delivered)
  {
  }

  /** No status is both cancelable and confirmable; the two final statuses are neither. */
  lemma ActionSetsDisjoint(s: Status)
    ensures !(IsCancelable(s) && IsConfirmable(s))
    ensures s == Cancelled || s == Completed ==> !IsCancelable(s) && !IsConfirmable(s)
  {
  }

  /** The neutral grey badge marks exactly the cancelable statuses; the others each have their own colour. */
  lemma NeutralColourIsCancelable(a: Status, b: Status)
    ensures Colour(a) == Neutral <==> IsCancelable(a)
    ensures Colour(a) == Colour(b) && a != b ==> IsCancelable(a) && IsCancelable(b)
  {
  }

  // The order page's action bar

  const CancelSucceeded: string := "주문이 취소되었습니다"
  const ConfirmSucceeded: string := "구매가 확정되었습니다"
  const CancelFailed: string := "주문 취소에 실패했습니다"
  const ConfirmFailed: string := "구매 확정에 실패했습니다"
  const OrdersPath: string := "/orders"

  /** The buttons shown; the back button always leads to the order list, with a longer label for finished orders. */
  datatype ActionBar = ActionBar(cancel: bool, confirm: bool, backLabel: string)

  function Actions(s: Status): (bar: ActionBar)
    ensures bar.cancel <==> IsCancelable(s)
    ensures bar.confirm <==> IsConfirmable(s)
    ensures s == Cancelled || s == Completed ==> bar == ActionBar(false, false, "목록으로 돌아가기")
    ensures !(s == Cancelled || s == Completed) ==> bar.backLabel == "목록으로"
  {
    if s == Cancelled || s == Completed then ActionBar(false, false, "목록으로 돌아가기")
    else ActionBar(IsCancelable(s), IsConfirmable(s), "목록으로")
  }

  /** Every order that is not finished offers exactly one of cancel and confirm, except while shipping. */
  lemma OneActionUnlessShippingOrFinished(s: Status)
    ensures Actions(s).cancel || Actions(s).confirm <==> !(s == Shipping || s == Cancelled || s == Completed)
    ensures !(Actions(s).cancel && Actions(s).confirm)
  {
  }

  datatype Mutation = CancelOrder | ConfirmOrder

  datatype ActionEffect =
    | Request(mutation: Mutation, orderId: int)
    | ToastSuccess(message: string)
    | ToastError(message: string)
    | CallOnSuccess

  /** `handleCancel` / `handleConfirm`, given whether the mutation succeeded and whether `onSuccess` was passed. */
  function HandleAction(m: Mutation, orderId: int, succeeded: bool, hasOnSuccess: bool): (effs: seq<ActionEffect>)
    ensures |effs| >= 2 && effs[0] == Request(m, orderId)
    ensures CallOnSuccess in effs <==> succeeded && hasOnSuccess
    ensures !succeeded ==> effs == [Request(m, orderId), ToastError(if m == CancelOrder then CancelFailed else ConfirmFailed)]
    ensures succeeded ==> effs[1] == ToastSuccess(if m == CancelOrder then CancelSucceeded else ConfirmSucceeded)
  {
    var request := Request(m, orderId);
    var notify := if hasOnSuccess then [CallOnSuccess] else [];
    if !succeeded then [request, ToastError(if m == CancelOrder then CancelFailed else ConfirmFailed)]
    else [request, ToastSuccess(if m == CancelOrder then CancelSucceeded else ConfirmSucceeded)] + notify
  }
}

=== FILE: payment_result.dfy ===
/**
 * The page shown after a successful payment: where it finds the order id,
 * payment key and amount, and where its buttons lead.
 */
module PaymentSuccess {
  import opened Js
  import OrderCreate

  const OrderNotFound: string := "주문 정보를 찾을 수 없습니다."
  const HomePath: string := "/"

  /** The query string, as `searchParams.get` sees it. */
  type Query = map<string, string>

  /** The navigation state the page declares: an optional order id and payment key. */
  datatype SuccessState = SuccessState(orderId: Option<string>, paymentKey: Option<string>)

  /** What the page can read of the order page's hand-off: the amount is not part of its state type. */
  function FromHandOff(h: OrderCreate.SuccessHandOff): (s: SuccessState)
    ensures s.orderId == Some(h.orderId) && s.paymentKey == Some(h.paymentKey)
  {
    SuccessState(Some(h.orderId), Some(h.paymentKey))
  }

  /** `state?.x || searchParams.get(x)`. */
  function StateOrQuery(fromState: Option<string>, q: Query, key: string): (r: Option<string>)
    ensures StrTruthy(fromState) ==> r == fromState
    ensures !StrTruthy(fromState) ==> r == Lookup(q, key)
  {
    if StrTruthy(fromState) then fromState else Lookup(q, key)
  }

  datatype Resolved = Resolved(orderId: Option<string>, paymentKey: Option<string>, amount: Option<string>)

  function Resolve(state: Option<SuccessState>, q: Query): (r: Resolved)
    ensures state.Some? && StrTruthy(state.value.orderId) ==> r.orderId == state.value.orderId
    ensures !(state.Some? && StrTruthy(state.value.orderId)) ==> r.orderId == Lookup(q, "orderId")
    ensures state.Some? && StrTruthy(state.value.paymentKey) ==> r.paymentKey == state.value.paymentKey
    ensures !(state.Some? && StrTruthy(state.value.paymentKey)) ==> r.paymentKey == Lookup(q, "paymentKey")
    ensures r.amount == Lookup(q, "amount")
  {
    var s := state.GetOr(SuccessState(None, None));
    Resolved(StateOrQuery(s.orderId, q, "orderId"), StateOrQuery(s.paymentKey, q, "paymentKey"), Lookup(q, "amount"))
  }

  datatype ButtonEffect = Navigate(path: string) | Alert(message: string)

  /** `handleGoToOrderDetail`. */
  function GoToOrderDetail(r: Resolved): (e: ButtonEffect)
    ensures StrTruthy(r.orderId) <==> e.Navigate?
    ensures e.Navigate? ==> e.path == "/orders/" + r.orderId.value
    ensures e.Alert? ==> e.message == OrderNotFound
  {
    if StrTruthy(r.orderId) then Navigate("/orders/" + r.orderId.value) else Alert(OrderNotFound)
  }

  function GoToHome(): (e: ButtonEffect)
    ensures e == Navigate(HomePath)
  {
    Navigate(HomePath)
  }

  /** The amount line: the literal '0' for a missing amount, else `Number(amount)` (before locale formatting). */
  datatype AmountShown = LiteralZero | Formatted(n: Num)

  function AmountDisplay(r: Resolved): (a: AmountShown)
    ensures !StrTruthy(r.amount) <==> a.LiteralZero?
    ensures a.Formatted? ==> a.n == ParseNumber(r.amount.value)
  {
    if StrTruthy(r.amount) then Formatted(ParseNumber(r.amount.value)) else LiteralZero
  }

  /** An amount rendered into the query reads back as the same number. */
  lemma QueryAmountRoundTrip(state: Option<SuccessState>, q: Query, amount: int)
    requires "amount" in q && q["amount"] == IntToString(amount)
    ensures AmountDisplay(Resolve(state, q)) == Formatted(Int(amount))
  {
    ParseIntToString(amount);
  }

  /**
   * Arriving from the order page, the order id and key come through the
   * state, but the amount it handed over is dropped: without an 'amount'
   * query parameter the page shows '0' whatever was paid.
   */
  lemma HandOffAmountIsLost(h: OrderCreate.SuccessHandOff, q: Query)
    requires "amount" !in q
    requires h.orderId != "" && h.paymentKey != ""
    ensures Resolve(Some(FromHandOff(h)), q).orderId == Some(h.orderId)
    ensures Resolve(Some(FromHandOff(h)), q).paymentKey == Some(h.paymentKey)
    ensures AmountDisplay(Resolve(Some(FromHandOff(h)), q)) == LiteralZero
  {
  }

  /** After a hand-off from the order page the detail button always leads to that order. */
  lemma HandOffOpensOrder(h: OrderCreate.SuccessHandOff, q: Query)
    requires h.orderId != ""
    ensures GoToOrderDetail(Resolve(Some(FromHandOff(h)), q)) == Navigate("/orders/" + h.orderId)
  {
  }
}

/** The page shown after a failed payment: its message table and the retry button. */
module PaymentFail {
  import opened Js
  import OrderCreate
  import PaymentSuccess

  const Canceled: string := "결제가 취소되었습니다"
  const Aborted: string := "결제 진행 중 문제가 발생했습니다"
  const BadCardCompany: string := "지원하지 않는 카드사입니다"
  const BadCardNumber: string := "잘못된 카드 번호입니다"
  const Generic: string := "결제 처리 중 오류가 발생했습니다"

  /** The fixed message for each gateway code the page knows. */
  function KnownCodeMessage(code: string): Option<string> {
    if code == "PAY_PROCESS_CANCELED" then Some(Canceled)
    else if code == "PAY_PROCESS_ABORTED" then Some(Aborted)
    else if code == "INVALID_CARD_COMPANY" then Some(BadCardCompany)
    else if code == "INVALID_CARD_NUMBER" then Some(BadCardNumber)
    else None
  }

  /** `getErrorMessage`, from the 'code' and 'message' query parameters. */
  function GetErrorMessage(code: Option<string>, message: Option<string>): (m: string)
    ensures m != ""
    ensures code.Some? && KnownCodeMessage(code.value).Some? ==> m == KnownCodeMessage(code.value).value
    ensures (code.None? || KnownCodeMessage(code.value).None?) ==> m == StrOr(message, Generic)
  {
    if code.Some? && KnownCodeMessage(code.value).Some? then KnownCodeMessage(code.value).value
    else StrOr(message, Generic)
  }

  /** The four codes get four different messages, none of them the generic one. */
  lemma KnownMessagesDistinct()
    ensures |{Canceled, Aborted, BadCardCompany, BadCardNumber, Generic}| == 5
  {
  }

  /** A known code wins over any message parameter. */
  lemma KnownCodeIgnoresMessage(code: string, m1: Option<string>, m2: Option<string>)
    requires KnownCodeMessage(code).Some?
    ensures GetErrorMessage(Some(code), m1) == GetErrorMessage(Some(code), m2)
  {
  }

  /**
   * The text the page shows: `getErrorMessage` over the `code` and `message`
   * query parameters. A known code decides the text; otherwise a non-empty
   * `message` parameter is shown, else the generic text.
   */
  function PageMessage(q: PaymentSuccess.Query): (m: string)
    ensures m != ""
    ensures "code" in q && KnownCodeMessage(q["code"]).Some? ==> m == KnownCodeMessage(q["code"]).value
    ensures !("code" in q && KnownCodeMessage(q["code"]).Some?) ==>
              m == (if "message" in q && q["message"] != "" then q["message"] else Generic)
  {
    GetErrorMessage(Lookup(q, "code"), Lookup(q, "message"))
  }

  datatype RetryEffect = NavigateReplace(path: string)

  /** `handleRetryPayment`: back to the cart, replacing this history entry. */
  function RetryPayment(): (e: RetryEffect)
    ensures e == NavigateReplace(OrderCreate.CartPath)
  {
    NavigateReplace(OrderCreate.CartPath)
  }

  /**
   * The order page hands the failure message over in navigation state, but
   * this page reads only the query string: without query parameters it
   * shows the generic text whatever the failure was.
   */
  lemma HandOffMessageIsLost(lastOrderId: Option<string>, error: string, q: PaymentSuccess.Query)
    requires "code" !in q && "message" !in q
    ensures OrderCreate.HandlePaymentFail(lastOrderId, error)[1].failure.message != ""
    ensures PageMessage(q) == Generic
  {
  }
}

=== FILE: product_detail.dfy ===
/**
 * The wishlist hook: every action is refused with a login message for a
 * visitor, and removing by product looks the wishlist entry up in the
 * cached list first.
 */
module Wishlist {
  import opened Js
  import Cart

  datatype WishlistItem = WishlistItem(wishlistId: int, productId: int, productName: string, price: int)

  const NotFound: string := "위시리스트 항목을 찾을 수 없습니다"

  /** The three requests the hook sends to the wishlist API. */
  datatype WishMutation = AddWish(productId: Num) | RemoveWish(wishlistId: int) | CheckWish(productId: Num)

  /** A call either is refused with a string before any request, or sends one request. */
  datatype WishCall = Refused(reason: string) | Sends(request: WishMutation)

  /** `productId === id` between a stored id and a possibly NaN number. */
  predicate SameProduct(item: WishlistItem, productId: Num) {
    productId.Int? && item.productId == productId.v
  }

  /** `items.find(...)`: the position of the first item for the product. */
  function FindFirst(items: seq<WishlistItem>, productId: Num): (r: Option<nat>)
    ensures r.Some? ==> r.value < |items| && SameProduct(items[r.value], productId)
    ensures r.Some? ==> forall j :: 0 <= j < r.value ==> !SameProduct(items[j], productId)
    ensures r.None? <==> forall j :: 0 <= j < |items| ==> !SameProduct(items[j], productId)
    decreases |items|
  {
    if |items| == 0 then None
    else if SameProduct(items[0], productId) then Some(0)
    else match FindFirst(items[1..], productId)
      case None => None
      case Some(i) => Some(i + 1)
  }

  /** `removeFromWishlistByProductId`. */
  function RemoveByProduct(isAuthenticated: bool, items: seq<WishlistItem>, productId: Num): (r: WishCall)
    ensures !isAuthenticated ==> r == Refused(Cart.LoginRequired)
    ensures isAuthenticated && (forall j :: 0 <= j < |items| ==> !SameProduct(items[j], productId)) ==> r == Refused(NotFound)
    ensures r.Sends? ==> exists j :: 0 <= j < |items| && SameProduct(items[j], productId) && r.request == RemoveWish(items[j].wishlistId)
    ensures r.Sends? ==> isAuthenticated && r.request == RemoveWish(items[FindFirst(items, productId).value].wishlistId)
  {
    if !isAuthenticated then Refused(Cart.LoginRequired)
    else match FindFirst(items, productId)
      case None => Refused(NotFound)
      case Some(i) => Sends(RemoveWish(items[i].wishlistId))
  }

  /** `addToWishlistWrapper`. */
  function Add(isAuthenticated: bool, productId: Num): (r: WishCall)
    ensures r.Refused? <==> !isAuthenticated
    ensures r.Refused? ==> r.reason == Cart.LoginRequired
    ensures r.Sends? ==> r.request == AddWish(productId)
  {
    if isAuthenticated then Sends(AddWish(productId)) else Refused(Cart.LoginRequired)
  }

  /** `checkInWishlist`. */
  function Check(isAuthenticated: bool, productId: Num): (r: WishCall)
    ensures r.Refused? <==> !isAuthenticated
    ensures r.Refused? ==> r.reason == Cart.LoginRequired
    ensures r.Sends? ==> r.request == CheckWish(productId)
  {
    if isAuthenticated then Sends(CheckWish(productId)) else Refused(Cart.LoginRequired)
  }

  /** `removeFromWishlist`, by wishlist entry id. */
  function Remove(isAuthenticated: bool, wishlistId: int): (r: WishCall)
    ensures r.Refused? <==> !isAuthenticated
    ensures r.Refused? ==> r.reason == Cart.LoginRequired
    ensures r.Sends? ==> r.request == RemoveWish(wishlistId)
  {
    if isAuthenticated then Sends(RemoveWish(wishlistId)) else Refused(Cart.LoginRequired)
  }

  /** A visitor's calls never reach the API, whichever action it is. */
  lemma VisitorSendsNothing(items: seq<WishlistItem>, productId: Num, wishlistId: int)
    ensures RemoveByProduct(false, items, productId).Refused?
    ensures Add(false, productId).Refused? && Check(false, productId).Refused? && Remove(false, wishlistId).Refused?
  {
  }

  /** When the product occurs several times, the entry removed is its earliest one. */
  lemma RemovesEarliestEntry(items: seq<WishlistItem>, productId: int, i: nat)
    requires i < |items| && items[i].productId == productId
    requires forall j :: 0 <= j < i ==> items[j].productId != productId
    ensures RemoveByProduct(true, items, Int(productId)) == Sends(RemoveWish(items[i].wishlistId))
  {
    assert SameProduct(items[i], Int(productId));
  }

  /** A NaN product id matches nothing, so removing by it is always refused as not found. */
  lemma NaNIsNeverFound(items: seq<WishlistItem>)
    ensures RemoveByProduct(true, items, NaN) == Refused(NotFound)
  {
  }
}

/**
 * The product page's purchase controls: the quantity select, the
 * add-to-cart button and the wishlist heart, each guarded by an
 * in-flight flag.
 */
module ProductDetail {
  import opened Js
  import Cart
  import Wishlist

  const Added: string := "장바구니에 추가되었습니다"
  const LoginService: string := "로그인이 필요한 서비스입니다"
  const AddFailed: string := "장바구니 추가에 실패했습니다"
  const WishRemoved: string := "위시리스트에서 삭제되었습니다"
  const WishAdded: string := "위시리스트에 추가되었습니다"
  const WishFailed: string := "위시리스트 처리 중 오류가 발생했습니다"

  datatype Product = Product(productId: int, stockQuantity: int)

  datatype State = State(quantity: int, addingToCart: bool, isInWishlist: bool, wishlistLoading: bool)

  const Initial: State := State(1, false, false, false)

  datatype Effect =
    | CartRequest(cartRequest: Cart.CartMutation)
    | WishRequest(wishRequest: Wishlist.WishMutation)
    | Navigate(path: string)
    | ToastSuccess(message: string)
    | ToastError(message: string)

  datatype Step = Step(state: State, effects: seq<Effect>)

  /** The toast for a rejected call: the login refusal has its own wording. */
  function RejectionToast(reason: Option<string>, fallback: string): (m: string)
    ensures reason == Some(Cart.LoginRequired) ==> m == LoginService
    ensures reason != Some(Cart.LoginRequired) ==> m == fallback
  {
    if reason == Some(Cart.LoginRequired) then LoginService else fallback
  }

  /**
   * `handleAddToCart`, given whether the visitor is signed in and whether
   * the cart API accepts the request. A failed request rejects with an
   * error object, never with the login string.
   */
  function HandleAddToCart(s: State, product: Option<Product>, isAuthenticated: bool, apiOk: bool): (r: Step)
    ensures product.None? || s.addingToCart ==> r == Step(s, [])
    ensures product.Some? && !s.addingToCart ==> r.state == s
    ensures product.Some? && !s.addingToCart && isAuthenticated ==>
      r.effects == [CartRequest(Cart.AddRequest(product.value.productId, s.quantity)),
                    if apiOk then ToastSuccess(Added) else ToastError(AddFailed)]
    ensures product.Some? && !s.addingToCart && !isAuthenticated ==>
      r.effects == [Navigate(Cart.LoginPath), ToastError(LoginService)]
  {
    if product.None? || s.addingToCart then Step(s, [])
    else match Cart.Perform(isAuthenticated, Cart.AddToCart(product.value.productId, s.quantity))
      case Rejected(reason, path) => Step(s, [Navigate(path), ToastError(RejectionToast(Some(reason), AddFailed))])
      case Mutated(request) =>
        Step(s, [CartRequest(request), if apiOk then ToastSuccess(Added) else ToastError(RejectionToast(None, AddFailed))])
  }

  /** The state while the add request is awaited. */
  function AddingState(s: State): (r: State)
    ensures r.addingToCart && r.quantity == s.quantity && r.isInWishlist == s.isInWishlist
  {
    s.(addingToCart := true)
  }

  /** A second click while an add is awaited sends nothing and shows nothing. */
  lemma ClickWhileAddingIgnored(s: State, product: Option<Product>, isAuthenticated: bool, apiOk: bool)
    ensures HandleAddToCart(AddingState(s), product, isAuthenticated, apiOk) == Step(AddingState(s), [])
  {
  }

  /** At most one cart request per click, and it carries the product shown and the quantity selected. */
  lemma AddSendsShownProduct(s: State, p: Product, apiOk: bool)
    requires !s.addingToCart
    ensures var r := HandleAddToCart(s, Some(p), true, apiOk);
      r.effects[0] == CartRequest(Cart.AddRequest(p.productId, s.quantity)) && !r.state.addingToCart
  {
  }

  /**
   * `toggleWishlist`, given the URL id (`id`), its `parseInt` value, the
   * signed-in flag, the cached wishlist and whether the API accepts the
   * request.
   */
  function ToggleWishlist(s: State, id: Option<string>, productId: Num, isAuthenticated: bool,
                          items: seq<Wishlist.WishlistItem>, apiOk: bool): (r: Step)
    ensures s.wishlistLoading || !StrTruthy(id) ==> r == Step(s, [])
    ensures !s.wishlistLoading && StrTruthy(id) ==> !r.state.wishlistLoading
    ensures r.state.quantity == s.quantity && r.state.addingToCart == s.addingToCart
    ensures r.state.isInWishlist != s.isInWishlist ==>
      && !s.wishlistLoading && StrTruthy(id) && apiOk && |r.effects| == 2
      && r.effects[0].WishRequest?
      && r.effects[1] == ToastSuccess(if s.isInWishlist then WishRemoved else WishAdded)
    ensures r.state.isInWishlist == s.isInWishlist && !s.wishlistLoading && StrTruthy(id) ==>
      |r.effects| > 0 && r.effects[|r.effects| - 1].ToastError?
    ensures !s.wishlistLoading && StrTruthy(id) && !isAuthenticated ==> r == Step(s, [ToastError(LoginService)])
    ensures !s.wishlistLoading && StrTruthy(id) && isAuthenticated && s.isInWishlist
            && (forall j :: 0 <= j < |items| ==> !Wishlist.SameProduct(items[j], productId)) ==>
      r == Step(s, [ToastError(WishFailed)])
  {
    if s.wishlistLoading || !StrTruthy(id) then Step(s, [])
    else
      var call := if s.isInWishlist then Wishlist.RemoveByProduct(isAuthenticated, items, productId)
                  else Wishlist.Add(isAuthenticated, productId);
      match call
      case Refused(reason) => Step(s, [ToastError(RejectionToast(Some(reason), WishFailed))])
      case Sends(request) =>
        if apiOk then
          Step(s.(isInWishlist := !s.isInWishlist),
               [WishRequest(request), ToastSuccess(if s.isInWishlist then WishRemoved else WishAdded)])
        else Step(s, [WishRequest(request), ToastError(WishFailed)])
  }

  /** A heart click while a toggle is awaited is ignored. */
  lemma ToggleWhileLoadingIgnored(s: State, id: Option<string>, productId: Num, isAuthenticated: bool,
                                  items: seq<Wishlist.WishlistItem>, apiOk: bool)
    ensures ToggleWishlist(s.(wishlistLoading := true), id, productId, isAuthenticated, items, apiOk)
         == Step(s.(wishlistLoading := true), [])
  {
  }

  /**
   * Adding and then removing the product, both accepted, with the entry
   * in the refreshed wishlist, leaves the heart as it started and sends
   * one add and one remove.
   */
  lemma AddThenRemoveRestores(s: State, id: string, productId: int, items: seq<Wishlist.WishlistItem>, j: nat)
    requires !s.wishlistLoading && !s.isInWishlist && id != ""
    requires j < |items| && items[j].productId == productId
    ensures var first := ToggleWishlist(s, Some(id), Int(productId), true, [], true);
      var second := ToggleWishlist(first.state, Some(id), Int(productId), true, items, true);
      && first.state.isInWishlist
      && second.state == s
      && first.effects[0] == WishRequest(Wishlist.AddWish(Int(productId)))
      && second.effects[0].WishRequest? && second.effects[0].wishRequest.RemoveWish?
  {
    assert Wishlist.SameProduct(items[j], Int(productId));
  }

  /** The mount check: a signed-in visitor's heart shows what the API answered; any failure leaves it. */
  function CheckStatus(s: State, id: Option<string>, productId: Num, isAuthenticated: bool, answer: Option<bool>): (r: Step)
    ensures !StrTruthy(id) || !isAuthenticated ==> r.state == s
    ensures StrTruthy(id) && isAuthenticated ==> r.effects == [WishRequest(Wishlist.CheckWish(productId))]
    ensures StrTruthy(id) && isAuthenticated && answer.Some? ==> r.state == s.(isInWishlist := answer.value)
    ensures answer.None? ==> r.state == s
  {
    if !StrTruthy(id) then Step(s, [])
    else match Wishlist.Check(isAuthenticated, productId)
      case Refused(_) => Step(s, [])
      case Sends(request) =>
        Step(if answer.Some? then s.(isInWishlist := answer.value) else s, [WishRequest(request)])
  }

  /** The quantity select offers 1 to min(10, stock). */
  function QuantityOptions(stock: int): (opts: seq<int>)
    ensures |opts| == if stock <= 0 then 0 else Min(10, stock)
    ensures forall i :: 0 <= i < |opts| ==> opts[i] == i + 1
  {
    var n := if stock <= 0 then 0 else Min(10, stock);
    seq(n, i requires 0 <= i < n => i + 1)
  }

  /** Every offered quantity is between 1 and both 10 and the stock. */
  lemma OptionsWithinStock(stock: int, k: int)
    requires 0 <= k < |QuantityOptions(stock)|
    ensures 1 <= QuantityOptions(stock)[k] <= 10 && QuantityOptions(stock)[k] <= stock
  {
  }

  /** The select and the add button are disabled for a sold-out product; the button also while adding. */
  function Controls(p: Product, addingToCart: bool): (r: (bool, bool))
    ensures r.0 <==> p.stockQuantity == 0
    ensures r.1 <==> addingToCart || p.stockQuantity == 0
  {
    (p.stockQuantity == 0, addingToCart || p.stockQuantity == 0)
  }
}

=== FILE: product_query.dfy ===
/**
 * The product listing's query: which products endpoint a category/search
 * filter selects, and how the product page keeps that filter in the URL's
 * `category` and `q` search parameters.
 */
module ProductQuery {
  import opened Js

  /**
   * The listing filter. The category is `number | null`; a number read
   * from the URL may be NaN.
   */
  datatype Filter = Filter(categoryId: Option<Num>, searchQuery: string)

  /** A category counts only when it is truthy: null, 0 and NaN mean "no category". */
  predicate HasCategory(categoryId: Option<Num>) {
    categoryId.Some? && Truthy(categoryId.value)
  }

  datatype Endpoint = AllProducts | ByCategory(categoryId: int) | Search(keyword: string)

  const ProductsPath: string := "/products"

  /** `getProducts`' choice of endpoint: a category wins over a search, a search over the full list. */
  function GetProducts(f: Filter): (e: Endpoint)
    ensures e.ByCategory? <==> HasCategory(f.categoryId)
    ensures e.ByCategory? ==> Int(e.categoryId) == f.categoryId.value
    ensures e.Search? <==> !HasCategory(f.categoryId) && f.searchQuery != ""
    ensures e.Search? ==> e.keyword == f.searchQuery
  {
    if HasCategory(f.categoryId) then ByCategory(f.categoryId.value.v)
    else if f.searchQuery != "" then Search(f.searchQuery)
    else AllProducts
  }

  const CategoryPrefix: string := ProductsPath + "/category/"
  const SearchPrefix: string := ProductsPath + "/search?keyword="

  /**
   * The request path; the keyword is shown unencoded. The category id reads
   * back from the category path and the keyword from the search path.
   */
  function Url(e: Endpoint): (u: string)
    ensures |u| >= |ProductsPath| && u[..|ProductsPath|] == ProductsPath
    ensures e.AllProducts? <==> u == ProductsPath
    ensures e.ByCategory? ==> |u| > |CategoryPrefix| && u[..|CategoryPrefix|] == CategoryPrefix
    ensures e.ByCategory? ==> ParseNumber(u[|CategoryPrefix|..]) == Int(e.categoryId)
    ensures e.Search? ==> |u| >= |SearchPrefix| && u[..|SearchPrefix|] == SearchPrefix
    ensures e.Search? ==> u[|SearchPrefix|..] == e.keyword
  {
    match e
    case AllProducts => ProductsPath
    case ByCategory(id) =>
      var u := CategoryPrefix + IntToString(id);
      assert u[|CategoryPrefix|..] == IntToString(id);
      ParseIntToString(id);
      u
    case Search(keyword) =>
      var u := SearchPrefix + keyword;
      assert u[|SearchPrefix|..] == keyword;
      u
  }

  /** Different endpoints are requested at different paths. */
  lemma UrlInjective(e1: Endpoint, e2: Endpoint)
    ensures Url(e1) == Url(e2) ==> e1 == e2
  {
    if Url(e1) == Url(e2) {
      var u := Url(e1);
      // the character after "/products/" tells the two parameterised paths apart
      var i := |ProductsPath| + 1;
      assert e1.ByCategory? ==> u[i] == CategoryPrefix[i] == 'c';
      assert e2.ByCategory? ==> u[i] == CategoryPrefix[i] == 'c';
      assert e1.Search? ==> u[i] == SearchPrefix[i] == 's';
      assert e2.Search? ==> u[i] == SearchPrefix[i] == 's';
      if e1.ByCategory? && e2.ByCategory? {
        assert Int(e1.categoryId) == ParseNumber(u[|CategoryPrefix|..]) == Int(e2.categoryId);
      }
    }
  }

  /** With a category chosen, the search text does not matter. */
  lemma CategoryOverridesSearch(id: int, q1: string, q2: string)
    requires id != 0
    ensures GetProducts(Filter(Some(Int(id)), q1)) == GetProducts(Filter(Some(Int(id)), q2)) == ByCategory(id)
  {
  }

  // The URL search parameters

  type Params = map<string, string>

  /** The filter read from the URL: a non-empty `category` as a number, and `q` or ''. */
  function FromParams(p: Params): (f: Filter)
    ensures f.categoryId.Some? <==> StrTruthy(Lookup(p, "category"))
    ensures f.categoryId.Some? ==> f.categoryId.value == ParseNumber(p["category"])
    ensures f.searchQuery == (if "q" in p then p["q"] else "")
  {
    var c := Lookup(p, "category");
    Filter(if StrTruthy(c) then Some(ParseNumber(c.value)) else None, StrOr(Lookup(p, "q"), ""))
  }

  /** The parameters written for a selected category and a query, each only when present. */
  function CategoryParam(categoryId: Option<Num>): (p: Params)
    ensures "category" in p <==> HasCategory(categoryId)
    ensures "category" in p ==> p["category"] == IntToString(categoryId.value.v)
    ensures p.Keys <= {"category"}
  {
    if HasCategory(categoryId) then map["category" := NumToString(categoryId.value)] else map[]
  }

  /** `handleCategorySelect`: the filter takes the new category; the URL keeps either the category alone, or the query alone. */
  function SelectCategory(f: Filter, selected: Option<Num>): (r: (Filter, Params))
    ensures r.0 == f.(categoryId := selected)
    ensures HasCategory(selected) ==> r.1 == CategoryParam(selected)
    ensures !HasCategory(selected) && f.searchQuery != "" ==> r.1 == map["q" := f.searchQuery]
    ensures !HasCategory(selected) && f.searchQuery == "" ==> r.1 == map[]
  {
    var params :=
      if HasCategory(selected) then CategoryParam(selected)
      else if f.searchQuery != "" then map["q" := f.searchQuery]
      else map[];
    (f.(categoryId := selected), params)
  }

  /** `handleSearch`: the filter takes the new query; the URL holds `q` when non-empty and the current category when set. */
  function SearchFor(f: Filter, query: string): (r: (Filter, Params))
    ensures r.0 == f.(searchQuery := query)
    ensures "q" in r.1 <==> query != ""
    ensures "q" in r.1 ==> r.1["q"] == query
    ensures "category" in r.1 <==> HasCategory(f.categoryId)
    ensures "category" in r.1 ==> r.1["category"] == IntToString(f.categoryId.value.v)
    ensures r.1.Keys <= {"q", "category"}
  {
    var withQuery: Params := if query != "" then map["q" := query] else map[];
    (f.(searchQuery := query), withQuery + CategoryParam(f.categoryId))
  }

  /** A written category parameter reads back as the same category. */
  lemma CategoryParamRoundTrip(categoryId: Option<Num>, p: Params)
    requires HasCategory(categoryId) && "category" in p && p["category"] == IntToString(categoryId.value.v)
    ensures FromParams(p).categoryId == categoryId
  {
    ParseIntToString(categoryId.value.v);
    assert StrTruthy(Lookup(p, "category"));
  }

  /**
   * After a category selection, reloading the page from its URL lists the
   * same products. (The query itself is not kept in the URL when a category
   * is chosen, but the category endpoint ignores it.)
   */
  lemma SelectCategoryReloadsSameListing(f: Filter, selected: Option<Num>)
    ensures var r := SelectCategory(f, selected); GetProducts(FromParams(r.1)) == GetProducts(r.0)
  {
    var r := SelectCategory(f, selected);
    if HasCategory(selected) {
      CategoryParamRoundTrip(selected, r.1);
    }
  }

  /** After a search, reloading the page from its URL lists the same products. */
  lemma SearchReloadsSameListing(f: Filter, query: string)
    ensures var r := SearchFor(f, query); GetProducts(FromParams(r.1)) == GetProducts(r.0)
  {
    var r := SearchFor(f, query);
    if HasCategory(f.categoryId) {
      CategoryParamRoundTrip(f.categoryId, r.1);
    } else {
      assert "category" !in r.1;
    }
  }

  /** Clearing the category on this page keeps a running search. */
  lemma ClearingCategoryKeepsSearch(f: Filter)
    requires f.searchQuery != ""
    ensures GetProducts(FromParams(SelectCategory(f, None).1)) == Search(f.searchQuery)
  {
  }
}

/**
 * The older product page: the filter is read from the URL on every render
 * and a category selection rewrites the URL without keeping the query.
 */
module LegacyProductQuery {
  import opened Js
  import opened ProductQuery

  /** The older `handleCategorySelect`: the category alone, or no parameters at all. */
  function SelectCategory(selected: Option<Num>): (p: Params)
    ensures HasCategory(selected) ==> p == CategoryParam(selected)
    ensures !HasCategory(selected) ==> p == map[]
  {
    CategoryParam(selected)
  }

  /** Clearing the category on the older page also drops a running search: the full list is shown. */
  lemma ClearingCategoryDropsSearch()
    ensures FromParams(SelectCategory(None)) == Filter(None, "")
    ensures GetProducts(FromParams(SelectCategory(None))) == AllProducts
  {
  }

  /** Both pages agree whenever a category is selected; they differ only on clearing it during a search. */
  lemma PagesAgreeOnSelection(f: Filter, selected: Option<Num>)
    ensures HasCategory(selected) ==> SelectCategory(selected) == ProductQuery.SelectCategory(f, selected).1
    ensures !HasCategory(selected) ==>
      (SelectCategory(selected) == ProductQuery.SelectCategory(f, selected).1 <==> f.searchQuery == "")
  {
    if !HasCategory(selected) && f.searchQuery != "" {
      assert "q" in ProductQuery.SelectCategory(f, selected).1;
    }
  }
}

=== FILE: recently_viewed.dfy ===
/**
 * The product page's "recently viewed" history kept in local storage:
 * opening a product moves it to the front, drops its older entry and keeps
 * the six most recent.
 */
module RecentlyViewed {
  import opened Js

  /** A stored product; only its id takes part in the update. */
  datatype Viewed = Viewed(productId: int, name: string, price: int)

  const Capacity: nat := 6

  /** `recentlyViewed.filter(p => p.productId !== product.productId)`. */
  function Without(list: seq<Viewed>, productId: int): (r: seq<Viewed>)
    ensures |r| <= |list|
    ensures forall i :: 0 <= i < |r| ==> r[i].productId != productId
    ensures forall x :: x in r <==> x in list && x.productId != productId
    decreases |list|
  {
    if |list| == 0 then []
    else if list[0].productId == productId then Without(list[1..], productId)
    else [list[0]] + Without(list[1..], productId)
  }

  /** `[product, ...filtered].slice(0, 6)`. */
  function Record(list: seq<Viewed>, product: Viewed): (r: seq<Viewed>)
    ensures 1 <= |r| <= Capacity
    ensures |r| == Min(Capacity, 1 + |Without(list, product.productId)|)
    ensures r[0] == product
    ensures r[1..] == Without(list, product.productId)[..|r| - 1]
    ensures forall i :: 1 <= i < |r| ==> r[i].productId != product.productId
  {
    var next := [product] + Without(list, product.productId);
    next[..Min(Capacity, |next|)]
  }

  /** The effect: with no product loaded nothing is written, otherwise the updated list is. */
  function OnProduct(stored: seq<Viewed>, product: Option<Viewed>): (written: Option<seq<Viewed>>)
    ensures written.Some? <==> product.Some?
    ensures written.Some? ==> written.value == Record(stored, product.value)
  {
    match product
    case None => None
    case Some(p) => Some(Record(stored, p))
  }

  /** `a` is `b` with some entries deleted and the rest in the same order. */
  predicate Subsequence(a: seq<Viewed>, b: seq<Viewed>)
    decreases |b|
  {
    if |a| == 0 then true
    else if |b| == 0 then false
    else if a[0] == b[0] then Subsequence(a[1..], b[1..])
    else Subsequence(a, b[1..])
  }

  predicate Distinct(list: seq<Viewed>) {
    forall i, j :: 0 <= i < j < |list| ==> list[i].productId != list[j].productId
  }

  lemma {:induction false} WithoutIsSubsequence(list: seq<Viewed>, productId: int)
    ensures Subsequence(Without(list, productId), list)
    decreases |list|
  {
    if |list| > 0 {
      WithoutIsSubsequence(list[1..], productId);
      var rest := Without(list[1..], productId);
      if list[0].productId == productId {
        SkipHead(rest, list);
      }
    }
  }

  /** A subsequence of the tail is a subsequence of the whole list. */
  lemma {:induction false} SkipHead(a: seq<Viewed>, b: seq<Viewed>)
    requires |b| > 0 && Subsequence(a, b[1..])
    ensures Subsequence(a, b)
    decreases |b|, 0
  {
    if |a| > 0 && a[0] == b[0] {
      assert Subsequence(a[1..], b[1..]) by {
        DropHead(a, b[1..]);
      }
    }
  }

  /** Dropping the first entry of a subsequence leaves a subsequence. */
  lemma {:induction false} DropHead(a: seq<Viewed>, b: seq<Viewed>)
    requires |a| > 0 && Subsequence(a, b)
    ensures Subsequence(a[1..], b)
    decreases |b|, 1
  {
    if a[0] == b[0] {
      if |a| > 1 {
        SkipHead(a[1..], b);
      }
    } else {
      DropHead(a, b[1..]);
      SkipHead(a[1..], b);
    }
  }

  /** Every prefix of a subsequence is a subsequence. */
  lemma {:induction false} PrefixOfSubsequence(a: seq<Viewed>, b: seq<Viewed>, k: nat)
    requires k <= |a| && Subsequence(a, b)
    ensures Subsequence(a[..k], b)
    decreases |b|
  {
    if k > 0 {
      if a[0] == b[0] {
        PrefixOfSubsequence(a[1..], b[1..], k - 1);
        assert a[..k][1..] == a[1..][..k - 1];
      } else {
        PrefixOfSubsequence(a, b[1..], k);
      }
    }
  }

  /** The entries after the current product are earlier entries, in their earlier order. */
  lemma RecordKeepsOrder(list: seq<Viewed>, product: Viewed)
    ensures Subsequence(Record(list, product)[1..], list)
  {
    var rest := Without(list, product.productId);
    var next := [product] + rest;
    var r := Record(list, product);
    WithoutIsSubsequence(list, product.productId);
    assert r[1..] == rest[..|r| - 1];
    PrefixOfSubsequence(rest, list, |r| - 1);
  }

  lemma {:induction false} WithoutKeepsDistinct(list: seq<Viewed>, productId: int)
    requires Distinct(list)
    ensures Distinct(Without(list, productId))
    decreases |list|
  {
    if |list| > 0 {
      WithoutKeepsDistinct(list[1..], productId);
      var rest := Without(list[1..], productId);
      forall j | 0 <= j < |rest|
        ensures rest[j].productId != list[0].productId
      {
        assert rest[j] in list[1..];
      }
    }
  }

  /** A list without repeated products stays so after an update. */
  lemma RecordKeepsDistinct(list: seq<Viewed>, product: Viewed)
    requires Distinct(list)
    ensures Distinct(Record(list, product))
  {
    WithoutKeepsDistinct(list, product.productId);
  }

  /** Viewing the product at the front again changes nothing when the list holds no repeats. */
  lemma RevisitingFrontIsStable(list: seq<Viewed>)
    requires 0 < |list| <= Capacity && Distinct(list)
    ensures Record(list, list[0]) == list
  {
    WithoutAbsent(list[1..], list[0].productId);
    assert Without(list, list[0].productId) == list[1..];
  }

  /** Filtering out an id the list does not hold changes nothing. */
  lemma {:induction false} WithoutAbsent(list: seq<Viewed>, productId: int)
    requires forall i :: 0 <= i < |list| ==> list[i].productId != productId
    ensures Without(list, productId) == list
    decreases |list|
  {
    if |list| > 0 {
      WithoutAbsent(list[1..], productId);
    }
  }

  /** Filtering distributes over concatenation. */
  lemma {:induction false} WithoutAppend(a: seq<Viewed>, b: seq<Viewed>, productId: int)
    ensures Without(a + b, productId) == Without(a, productId) + Without(b, productId)
    decreases |a|
  {
    if |a| == 0 {
      assert a + b == b;
    } else {
      assert (a + b)[0] == a[0];
      assert (a + b)[1..] == a[1..] + b;
      WithoutAppend(a[1..], b, productId);
    }
  }

  /**
   * The older entries that survive: every stored entry of another product
   * among the five most recent is still in the list after the update.
   */
  lemma RecentEntriesSurvive(list: seq<Viewed>, product: Viewed, i: int)
    requires 0 <= i < |list| && i < Capacity - 1 && list[i].productId != product.productId
    ensures list[i] in Record(list, product)[1..]
  {
    var pid := product.productId;
    var k := i + 1;
    assert list == list[..k] + list[k..];
    WithoutAppend(list[..k], list[k..], pid);
    var pre := Without(list[..k], pid);
    var w := Without(list, pid);
    assert list[i] in list[..k];
    assert list[i] in pre;
    var r := Record(list, product);
    assert |pre| <= |r| - 1;
    assert w[..|r| - 1][..|pre|] == pre;
    assert list[i] in w[..|r| - 1];
  }

  /** Every entry besides the current product was already stored and is a different product. */
  lemma OlderEntryKept(list: seq<Viewed>, product: Viewed, x: Viewed)
    requires x in Record(list, product) && x != product
    ensures x in list && x.productId != product.productId
  {
  }
}

=== FILE: reviews.dfy ===
/**
 * The review form: its starting values, the rating and content rules, and
 * the submit that creates a new review or updates the one being edited.
 */
module ReviewForm {
  import opened Js

  /** The stored review an edit starts from; `content` and `imageUrls` may be absent. */
  datatype ReviewResponse = ReviewResponse(reviewId: int, rating: int, content: Option<string>, imageUrls: Option<seq<string>>)

  /** The request the form builds. */
  datatype ReviewRequest = ReviewRequest(productId: int, orderItemId: int, rating: int, content: string, imageUrls: seq<string>)

  const DefaultRating: int := 5
  const MinContent: int := 10
  const MaxContent: int := 1000

  const BadRating: string := "평점은 1-5 사이로 선택해주세요."
  const ContentRequired: string := "리뷰 내용을 입력해주세요."
  const ContentTooShort: string := "리뷰 내용은 최소 10자 이상 입력해주세요."
  const ContentTooLong: string := "리뷰 내용은 최대 1000자까지 입력 가능합니다."

  /** The form's starting values: a new review starts at five stars with no text or images. */
  function Initial(productId: int, orderItemId: Option<int>, initialData: Option<ReviewResponse>): (f: ReviewRequest)
    ensures f.productId == productId
    ensures f.orderItemId == IntOr(orderItemId, 0)
    ensures initialData.None? ==> f.rating == DefaultRating && f.content == "" && f.imageUrls == []
    ensures initialData.Some? ==>
      && f.rating == IntOr(Some(initialData.value.rating), DefaultRating)
      && f.content == StrOr(initialData.value.content, "")
      && f.imageUrls == initialData.value.imageUrls.GetOr([])
  {
    match initialData
    case None => ReviewRequest(productId, IntOr(orderItemId, 0), DefaultRating, "", [])
    case Some(d) => ReviewRequest(productId, IntOr(orderItemId, 0), IntOr(Some(d.rating), DefaultRating),
                                  StrOr(d.content, ""), d.imageUrls.GetOr([]))
  }

  datatype Errors = Errors(rating: Option<string>, content: Option<string>)

  /** The content check, in the form's order: missing, then too short, then too long. */
  function ContentError(content: string): (e: Option<string>)
    ensures e == Some(ContentRequired) <==> |content| == 0
    ensures e == Some(ContentTooShort) <==> 1 <= |content| < MinContent
    ensures e == Some(ContentTooLong) <==> |content| > MaxContent
    ensures e.None? <==> MinContent <= |content| <= MaxContent
  {
    if content == "" then Some(ContentRequired)
    else if |content| < MinContent then Some(ContentTooShort)
    else if |content| > MaxContent then Some(ContentTooLong)
    else None
  }

  /** `validateForm`: the errors it records. */
  function Validate(f: ReviewRequest): (e: Errors)
    ensures e.rating.Some? <==> !(1 <= f.rating <= 5)
    ensures e.rating.Some? ==> e.rating.value == BadRating
    ensures e.content == ContentError(f.content)
  {
    Errors(if f.rating == 0 || f.rating < 1 || f.rating > 5 then Some(BadRating) else None, ContentError(f.content))
  }

  predicate IsClean(e: Errors) {
    e.rating.None? && e.content.None?
  }

  /** The form passes exactly when the rating is one to five stars and the text is 10 to 1000 characters. */
  lemma ValidIffInRange(f: ReviewRequest)
    ensures IsClean(Validate(f)) <==> 1 <= f.rating <= 5 && MinContent <= |f.content| <= MaxContent
  {
  }

  /** A fresh form is rejected until some text is written: the rating is fine, the content is missing. */
  lemma FreshFormNeedsText(productId: int, orderItemId: Option<int>)
    ensures Validate(Initial(productId, orderItemId, None)) == Errors(None, Some(ContentRequired))
  {
  }

  /** Typing in the text area: store the text and clear a shown content error. */
  function HandleContentChange(f: ReviewRequest, e: Errors, value: string): (r: (ReviewRequest, Errors))
    ensures r.0 == f.(content := value)
    ensures r.1.rating == e.rating
    ensures !StrTruthy(r.1.content)
    ensures !StrTruthy(e.content) ==> r.1 == e
  {
    (f.(content := value), if StrTruthy(e.content) then e.(content := None) else e)
  }

  /** Clicking a star: store the rating and clear a shown rating error. */
  function HandleRatingChange(f: ReviewRequest, e: Errors, rating: int): (r: (ReviewRequest, Errors))
    ensures r.0 == f.(rating := rating)
    ensures r.1.content == e.content
    ensures !StrTruthy(r.1.rating)
    ensures !StrTruthy(e.rating) ==> r.1 == e
  {
    (f.(rating := rating), if StrTruthy(e.rating) then e.(rating := None) else e)
  }

  /** Every star the form offers is a rating the rules accept. */
  lemma StarsAreValidRatings(f: ReviewRequest, e: Errors, star: int)
    requires 1 <= star <= 5
    ensures Validate(HandleRatingChange(f, e, star).0).rating.None?
  {
  }

  datatype Mutation = CreateReview(data: ReviewRequest) | UpdateReview(reviewId: int, data: ReviewRequest)

  /** `handleSubmit`: validate, then update the review being edited or create a new one. */
  function HandleSubmit(f: ReviewRequest, initialData: Option<ReviewResponse>): (r: (Errors, seq<Mutation>))
    ensures r.0 == Validate(f)
    ensures !IsClean(r.0) ==> r.1 == []
    ensures IsClean(r.0) && initialData.Some? ==> r.1 == [UpdateReview(initialData.value.reviewId, f)]
    ensures IsClean(r.0) && initialData.None? ==> r.1 == [CreateReview(f)]
  {
    var errors := Validate(f);
    if !IsClean(errors) then (errors, [])
    else match initialData
      case Some(d) => (errors, [UpdateReview(d.reviewId, f)])
      case None => (errors, [CreateReview(f)])
  }

  /** Whatever is sent carries a rating of one to five stars and 10 to 1000 characters of text. */
  lemma SentReviewsAreValid(f: ReviewRequest, initialData: Option<ReviewResponse>, k: int)
    requires 0 <= k < |HandleSubmit(f, initialData).1|
    ensures var d := HandleSubmit(f, initialData).1[k].data;
      1 <= d.rating <= 5 && MinContent <= |d.content| <= MaxContent
  {
  }

  /** The submit button is enabled only while neither a create nor an update is pending. */
  function SubmitEnabled(isCreating: bool, isUpdating: bool): (b: bool)
    ensures b <==> !isCreating && !isUpdating
  {
    !(isCreating || isUpdating)
  }
}

/** The paging request of a product's review list and the average-rating read. */
module ReviewPaging {
  import opened Js

  /** `sort` is a single key or a list of keys. */
  datatype Sort = SortBy(key: string) | SortByAll(keys: seq<string>)

  datatype PageRequest = PageRequest(page: int, size: int, sort: Sort)

  const Initial: PageRequest := PageRequest(0, 10, SortBy("createdAt,desc"))

  /** `handlePageChange`: only the page moves. */
  function PageChange(p: PageRequest, page: int): (r: PageRequest)
    ensures r.page == page && r.size == p.size && r.sort == p.sort
  {
    p.(page := page)
  }

  /** `handlePageSizeChange`: a new size starts again from the first page. */
  function SizeChange(p: PageRequest, size: int): (r: PageRequest)
    ensures r.page == 0 && r.size == size && r.sort == p.sort
  {
    p.(size := size, page := 0)
  }

  /** `handleSortChange`: a new order starts again from the first page. */
  function SortChange(p: PageRequest, sort: Sort): (r: PageRequest)
    ensures r.page == 0 && r.size == p.size && r.sort == sort
  {
    p.(sort := sort, page := 0)
  }

  /** Size and sort changes commute, and either one forgets whatever page was reached before it. */
  lemma SizeAndSortCommute(p: PageRequest, size: int, sort: Sort, page: int)
    ensures SortChange(SizeChange(p, size), sort) == SizeChange(SortChange(p, sort), size)
    ensures SizeChange(PageChange(p, page), size) == SizeChange(p, size)
    ensures SortChange(PageChange(p, page), sort) == SortChange(p, sort)
  {
  }

  /** What the rating query holds: nothing yet, a number (possibly NaN), or something else. */
  datatype RatingData = NoRating | NumberRating(n: Num) | OtherRating

  /** The rating fetch: a rejected request is caught and reads as 0. */
  function RatingFetch(resolved: Option<RatingData>): (d: RatingData)
    ensures resolved.None? ==> d == NumberRating(Int(0))
    ensures resolved.Some? ==> d == resolved.value
  {
    resolved.GetOr(NumberRating(Int(0)))
  }

  /** `getAverageRating`: the value when it is a number, else 0. */
  function AverageRating(d: RatingData): (n: Num)
    ensures d.NumberRating? ==> n == d.n
    ensures !d.NumberRating? ==> n == Int(0)
  {
    match d
    case NumberRating(x) => x
    case NoRating => Int(0)
    case OtherRating => Int(0)
  }

  /** A failed rating request shows an average of 0. */
  lemma FailedFetchShowsZero()
    ensures AverageRating(RatingFetch(None)) == Int(0)
  {
  }
}

/** The review list: when the form is shown, and the pager below the list. */
module ReviewList {
  import opened Js

  /** The form toggle: opened by the write button, closed by a saved review or by cancel. */
  datatype FormEvent = OpenForm | ReviewSaved | CancelReview

  function StepForm(showForm: bool, ev: FormEvent): (r: bool)
    ensures r <==> ev.OpenForm?
  {
    match ev
    case OpenForm => true
    case ReviewSaved => false
    case CancelReview => false
  }

  function RunForm(showForm: bool, evs: seq<FormEvent>): bool
    decreases |evs|
  {
    if |evs| == 0 then showForm else RunForm(StepForm(showForm, evs[0]), evs[1..])
  }

  /** After any events the form is shown iff the last one opened it, or there were none and it started shown. */
  lemma {:induction false} FormShownIffLastOpened(showReviewForm: bool, evs: seq<FormEvent>)
    ensures RunForm(showReviewForm, evs) <==> (if |evs| == 0 then showReviewForm else evs[|evs| - 1].OpenForm?)
    decreases |evs|
  {
    if |evs| > 1 {
      FormShownIffLastOpened(StepForm(showReviewForm, evs[0]), evs[1..]);
    }
  }

  /** The part of the page where a review is written: nothing, the write button, or the form. */
  datatype FormArea = NoFormArea | WriteButton | ReviewFormShown

  /** What the component renders: the loading skeleton, the error message, or the review page. */
  datatype Screen = Skeleton | LoadError | Loaded(formArea: FormArea)

  /**
   * The early returns for loading and for a failed review request, then the
   * page, whose form area exists only for a signed-in member.
   */
  function Render(isLoadingReviews: bool, isLoadingRating: bool, isErrorReviews: bool, isAuthenticated: bool, showForm: bool): (v: Screen)
    ensures v.Skeleton? <==> isLoadingReviews || isLoadingRating
    ensures v.LoadError? <==> !isLoadingReviews && !isLoadingRating && isErrorReviews
    ensures v.Loaded? ==> (v.formArea.NoFormArea? <==> !isAuthenticated)
    ensures v.Loaded? ==> (v.formArea.ReviewFormShown? <==> isAuthenticated && showForm)
  {
    if isLoadingReviews || isLoadingRating then Skeleton
    else if isErrorReviews then LoadError
    else if !isAuthenticated then Loaded(NoFormArea)
    else if showForm then Loaded(ReviewFormShown)
    else Loaded(WriteButton)
  }

  /** The review form is on screen exactly for a signed-in member whose form is open, once the reviews have loaded. */
  function FormVisible(isLoadingReviews: bool, isLoadingRating: bool, isErrorReviews: bool, isAuthenticated: bool, showForm: bool): (b: bool)
    ensures b ==> isAuthenticated
    ensures b <==> !isLoadingReviews && !isLoadingRating && !isErrorReviews && isAuthenticated && showForm
  {
    Render(isLoadingReviews, isLoadingRating, isErrorReviews, isAuthenticated, showForm) == Loaded(ReviewFormShown)
  }

  /** `reviewsPage?.totalPages || 0`. */
  function TotalPages(reported: Option<int>): (n: int)
    ensures reported.None? || reported.value == 0 ==> n == 0
    ensures reported.Some? && reported.value != 0 ==> n == reported.value
  {
    IntOr(reported, 0)
  }

  datatype PageButton = PageButton(index: int, caption: string, active: bool)

  datatype Pager = Pager(prevDisabled: bool, nextDisabled: bool, buttons: seq<PageButton>)

  function PageButtons(totalPages: nat, currentPage: int): (bs: seq<PageButton>)
    ensures |bs| == totalPages
    ensures forall i :: 0 <= i < |bs| ==> bs[i] == PageButton(i, IntToString(i + 1), currentPage == i)
    decreases totalPages
  {
    if totalPages == 0 then []
    else PageButtons(totalPages - 1, currentPage) + [PageButton(totalPages - 1, IntToString(totalPages), currentPage == totalPages - 1)]
  }

  /** The pager: shown only beyond one page, with a button per page labelled from 1. */
  function ViewPager(totalPages: int, currentPage: int): (p: Option<Pager>)
    ensures p.Some? <==> totalPages > 1
    ensures p.Some? ==> (p.value.prevDisabled <==> currentPage == 0)
    ensures p.Some? ==> (p.value.nextDisabled <==> currentPage == totalPages - 1)
    ensures p.Some? ==> |p.value.buttons| == totalPages
    ensures p.Some? ==> forall i :: 0 <= i < totalPages ==> p.value.buttons[i] == PageButton(i, IntToString(i + 1), currentPage == i)
  {
    if totalPages > 1 then Some(Pager(currentPage == 0, currentPage == totalPages - 1, PageButtons(totalPages, currentPage)))
    else None
  }

  datatype PagerClick = Previous | Next | Page(index: int)

  /** The page a click asks for; a disabled arrow asks for nothing. */
  function Click(totalPages: int, currentPage: int, c: PagerClick): (r: Option<int>)
    requires totalPages > 1
    ensures c.Previous? ==> (r.None? <==> currentPage == 0) && (r.Some? ==> r.value == currentPage - 1)
    ensures c.Next? ==> (r.None? <==> currentPage == totalPages - 1) && (r.Some? ==> r.value == currentPage + 1)
    ensures c.Page? ==> r == Some(c.index)
  {
    var p := ViewPager(totalPages, currentPage).value;
    match c
    case Previous => if p.prevDisabled then None else Some(currentPage - 1)
    case Next => if p.nextDisabled then None else Some(currentPage + 1)
    case Page(i) => Some(i)
  }

  /** From a page within range, every enabled pager button leads to a page within range. */
  lemma ClicksStayInRange(totalPages: int, currentPage: int, c: PagerClick)
    requires totalPages > 1 && 0 <= currentPage < totalPages
    requires c.Page? ==> 0 <= c.index < totalPages
    ensures var r := Click(totalPages, currentPage, c);
      r.Some? ==> 0 <= r.value < totalPages
  {
  }

  /** Within range exactly one page button is highlighted. */
  lemma ExactlyOneActive(totalPages: int, currentPage: int)
    requires totalPages > 1 && 0 <= currentPage < totalPages
    ensures var bs := ViewPager(totalPages, currentPage).value.buttons;
      bs[currentPage].active && forall i :: 0 <= i < |bs| && i != currentPage ==> !bs[i].active
  {
  }
}

=== FILE: signup.dfy ===
/**
 * The signup form of the auth feature: its field rules, the per-field
 * editing handler, the formatted card and expiry inputs, and the submit
 * gate that calls the signup API only for a form that passes every rule.
 */
module Signup {
  import opened Js
  import FormFormat
  import opened AddressInput

  datatype PaymentMethod = PaymentMethod(paymentType: string, cardNumber: string, expiryDate: string, isDefault: bool)

  datatype Form = Form(
    username: string,
    password: string,
    name: string,
    contact: string,
    address: AddressForm,
    paymentMethod: PaymentMethod)

  /** The form the page starts with: blank fields and a default credit card entry. */
  const Initial: Form := Form("", "", "", "", EmptyAddress, PaymentMethod("CREDIT_CARD", "", "", true))

  const UsernameTooShort: string := "사용자명은 4자 이상이어야 합니다"
  const PasswordTooShort: string := "비밀번호는 8자 이상이어야 합니다"
  const NameMissing: string := "이름을 입력해주세요"
  const BadContact: string := "올바른 연락처 형식이 아닙니다"
  const BadCardNumber: string := "올바른 카드번호 형식이 아닙니다"
  const BadExpiry: string := "올바른 만료일 형식이 아닙니다 (MM/YY)"
  const SignupFailed: string := "회원가입에 실패했습니다"
  const SignupDone: string := "회원가입이 완료되었습니다. 로그인해주세요."
  const LoginPath: string := "/login"

  datatype CardErrors = CardErrors(cardNumber: Option<string>, expiryDate: Option<string>)

  /** The validation errors object: a field is present only when its rule failed. */
  datatype Errors = Errors(
    username: Option<string>,
    password: Option<string>,
    name: Option<string>,
    contact: Option<string>,
    paymentMethod: Option<CardErrors>)

  const NoErrors: Errors := Errors(None, None, None, None, None)

  /** `Object.keys(errors).length === 0`. */
  predicate IsClean(e: Errors) {
    e == NoErrors
  }

  // Field rules

  /** `s.trimStart()`: drops the leading white space. */
  function TrimStart(s: string): (r: string)
    ensures |r| <= |s| && r == s[|s| - |r|..]
    ensures forall i :: 0 <= i < |s| - |r| ==> IsWhitespace(s[i])
    ensures |r| > 0 ==> !IsWhitespace(r[0])
    decreases |s|
  {
    if |s| > 0 && IsWhitespace(s[0]) then TrimStart(s[1..]) else s
  }

  /** `s.trimEnd()`: drops the trailing white space. */
  function TrimEnd(s: string): (r: string)
    ensures |r| <= |s| && r == s[..|r|]
    ensures forall i :: |r| <= i < |s| ==> IsWhitespace(s[i])
    ensures |r| > 0 ==> !IsWhitespace(r[|r| - 1])
    decreases |s|
  {
    if |s| > 0 && IsWhitespace(s[|s| - 1]) then TrimEnd(s[..|s| - 1]) else s
  }

  /** `s.trim()`. */
  function Trim(s: string): string {
    TrimEnd(TrimStart(s))
  }

  /** A name is blank after trimming exactly when every character is white space. */
  lemma TrimEmptyIffBlank(s: string)
    ensures Trim(s) == "" <==> forall i :: 0 <= i < |s| ==> IsWhitespace(s[i])
  {
    var t := TrimStart(s);
    assert |t| > 0 ==> t[0] == s[|s| - |t|] && !IsWhitespace(t[0]) && |TrimEnd(t)| > 0;
  }

  /** `s.replace(/-/g, "")`. */
  function RemoveDashes(s: string): (r: string)
    ensures |r| <= |s|
    ensures forall i :: 0 <= i < |r| ==> r[i] != '-'
    decreases |s|
  {
    if |s| == 0 then ""
    else (if s[0] == '-' then "" else [s[0]]) + RemoveDashes(s[1..])
  }

  lemma {:induction false} RemoveDashesAppend(a: string, b: string)
    ensures RemoveDashes(a + b) == RemoveDashes(a) + RemoveDashes(b)
    decreases |a|
  {
    if |a| == 0 {
      assert a + b == b;
    } else {
      assert (a + b)[0] == a[0];
      assert (a + b)[1..] == a[1..] + b;
      RemoveDashesAppend(a[1..], b);
    }
  }

  lemma {:induction false} RemoveDashesOfDigits(s: string)
    requires AllDigits(s)
    ensures RemoveDashes(s) == s
    decreases |s|
  {
    if |s| > 0 {
      RemoveDashesOfDigits(s[1..]);
    }
  }

  /** `/^\d{10,11}$/` on the contact with its dashes removed. */
  predicate ContactValid(contact: string) {
    var d := RemoveDashes(contact);
    (|d| == 10 || |d| == 11) && AllDigits(d)
  }

  /** `/^\d{16}$/` on the card number with its white space removed. */
  predicate CardValid(card: string) {
    var d := FormFormat.RemoveWhitespace(card);
    |d| == 16 && AllDigits(d)
  }

  lemma DashJoin(x: string, y: string)
    ensures RemoveDashes(x + "-" + y) == RemoveDashes(x) + RemoveDashes(y)
  {
    var dash := "-";
    assert RemoveDashes(dash) == "" by {
      assert dash[0] == '-' && dash[1..] == "";
    }
    RemoveDashesAppend(x + dash, y);
    RemoveDashesAppend(x, dash);
  }

  /** A phone number written as three dash-separated digit groups passes when the groups hold 10 or 11 digits. */
  lemma DashedContactValid(a: string, b: string, c: string)
    requires AllDigits(a) && AllDigits(b) && AllDigits(c)
    requires |a| + |b| + |c| == 10 || |a| + |b| + |c| == 11
    ensures ContactValid(a + "-" + b + "-" + c)
  {
    RemoveDashesOfDigits(a);
    RemoveDashesOfDigits(b);
    RemoveDashesOfDigits(c);
    DashJoin(a, b);
    DashJoin(a + "-" + b, c);
  }

  /** Sixteen digits typed into the card input come out formatted and still pass the card rule. */
  lemma FormattedCardValid(digits: string)
    requires |digits| == 16 && AllDigits(digits)
    ensures CardValid(FormFormat.FormatCardNumber(digits))
    ensures |FormFormat.FormatCardNumber(digits)| == 19
  {
    FormFormat.SixteenDigitsFormat(digits);
  }

  /** A card number passes exactly when its formatted form passes: formatting never changes the verdict. */
  lemma FormattingPreservesCardVerdict(value: string)
    ensures CardValid(FormFormat.FormatCardNumber(value)) <==> CardValid(value)
  {
    FormFormat.FormatKeepsCharacters(value);
  }

  // validateForm

  /** `validateForm`: the errors it records, one per failed rule. */
  function Validate(f: Form): (e: Errors)
    ensures e.username.Some? <==> |f.username| < 4
    ensures e.password.Some? <==> |f.password| < 8
    ensures e.name.Some? <==> Trim(f.name) == ""
    ensures e.contact.Some? <==> !ContactValid(f.contact)
    ensures e.paymentMethod.Some? <==> !CardValid(f.paymentMethod.cardNumber) || !FormFormat.ValidExpiry(f.paymentMethod.expiryDate)
    ensures e.paymentMethod.Some? ==>
      && (e.paymentMethod.value.cardNumber.Some? <==> !CardValid(f.paymentMethod.cardNumber))
      && (e.paymentMethod.value.expiryDate.Some? <==> !FormFormat.ValidExpiry(f.paymentMethod.expiryDate))
    ensures e.username.Some? ==> e.username.value == UsernameTooShort
    ensures e.password.Some? ==> e.password.value == PasswordTooShort
    ensures e.name.Some? ==> e.name.value == NameMissing
    ensures e.contact.Some? ==> e.contact.value == BadContact
    ensures e.paymentMethod.Some? && e.paymentMethod.value.cardNumber.Some? ==> e.paymentMethod.value.cardNumber.value == BadCardNumber
    ensures e.paymentMethod.Some? && e.paymentMethod.value.expiryDate.Some? ==> e.paymentMethod.value.expiryDate.value == BadExpiry
  {
    var card := if CardValid(f.paymentMethod.cardNumber) then None else Some(BadCardNumber);
    var expiry := if FormFormat.ValidExpiry(f.paymentMethod.expiryDate) then None else Some(BadExpiry);
    Errors(
      if |f.username| < 4 then Some(UsernameTooShort) else None,
      if |f.password| < 8 then Some(PasswordTooShort) else None,
      if Trim(f.name) == "" then Some(NameMissing) else None,
      if ContactValid(f.contact) then None else Some(BadContact),
      if card.None? && expiry.None? then None else Some(CardErrors(card, expiry)))
  }

  /** Every rule the form states, written independently of the errors object. */
  predicate MeetsAllRules(f: Form) {
    && |f.username| >= 4
    && |f.password| >= 8
    && (exists i :: 0 <= i < |f.name| && !IsWhitespace(f.name[i]))
    && ContactValid(f.contact)
    && CardValid(f.paymentMethod.cardNumber)
    && FormFormat.ValidExpiry(f.paymentMethod.expiryDate)
  }

  /** `validateForm` returns true exactly when the form meets every rule. */
  lemma ValidateAcceptsExactlyValidForms(f: Form)
    ensures IsClean(Validate(f)) <==> MeetsAllRules(f)
  {
    TrimEmptyIffBlank(f.name);
  }

  /** The blank initial form fails every rule at once. */
  lemma InitialFormFailsEveryRule()
    ensures var e := Validate(Initial);
      && e.username.Some? && e.password.Some? && e.name.Some? && e.contact.Some?
      && e.paymentMethod.Some? && e.paymentMethod.value.cardNumber.Some? && e.paymentMethod.value.expiryDate.Some?
  {
    EmptyEntriesFail();
  }

  lemma EmptyEntriesFail()
    ensures Trim("") == ""
    ensures !ContactValid("") && !CardValid("") && !FormFormat.ValidExpiry("")
  {
    assert |RemoveDashes("")| == 0;
    assert |FormFormat.RemoveWhitespace("")| == 0;
  }

  // handleChange for the four plain text inputs

  datatype TextField = Username | Password | Name | Contact

  function FieldValue(f: Form, k: TextField): string {
    match k
    case Username => f.username
    case Password => f.password
    case Name => f.name
    case Contact => f.contact
  }

  function FieldError(e: Errors, k: TextField): Option<string> {
    match k
    case Username => e.username
    case Password => e.password
    case Name => e.name
    case Contact => e.contact
  }

  datatype Edited = Edited(form: Form, errors: Errors)

  /** `handleChange`: store the value under the input's name and clear that field's error if one is shown. */
  function HandleChange(f: Form, e: Errors, k: TextField, value: string): (r: Edited)
    ensures FieldValue(r.form, k) == value
    ensures forall j :: j != k ==> FieldValue(r.form, j) == FieldValue(f, j)
    ensures r.form.address == f.address && r.form.paymentMethod == f.paymentMethod
    ensures !StrTruthy(FieldError(r.errors, k))
    ensures !StrTruthy(FieldError(e, k)) ==> r.errors == e
    ensures forall j :: j != k ==> FieldError(r.errors, j) == FieldError(e, j)
    ensures r.errors.paymentMethod == e.paymentMethod
  {
    var form := match k
      case Username => f.(username := value)
      case Password => f.(password := value)
      case Name => f.(name := value)
      case Contact => f.(contact := value);
    var errors :=
      if !StrTruthy(FieldError(e, k)) then e
      else match k
        case Username => e.(username := None)
        case Password => e.(password := None)
        case Name => e.(name := None)
        case Contact => e.(contact := None);
    Edited(form, errors)
  }

  /** Editing one field and then validating reports that field exactly as validating the edited value alone would. */
  lemma EditedFieldRevalidates(f: Form, e: Errors, k: TextField, value: string)
    ensures FieldError(Validate(HandleChange(f, e, k, value).form), k).Some? <==>
      match k
      case Username => |value| < 4
      case Password => |value| < 8
      case Name => Trim(value) == ""
      case Contact => !ContactValid(value)
  {
  }

  // The payment method sub-form

  /** The card input's change handler: the typed text is stored formatted. */
  function HandleCardNumberChange(p: PaymentMethod, typed: string): (r: PaymentMethod)
    ensures FormFormat.RemoveWhitespace(r.cardNumber) == FormFormat.RemoveWhitespace(typed)
    ensures r.paymentType == p.paymentType && r.expiryDate == p.expiryDate && r.isDefault == p.isDefault
  {
    FormFormat.FormatKeepsCharacters(typed);
    p.(cardNumber := FormFormat.FormatCardNumber(typed))
  }

  /** The expiry input's change handler: the typed text is stored as MM/YY. */
  function HandleExpiryDateChange(p: PaymentMethod, typed: string): (r: PaymentMethod)
    ensures |r.expiryDate| <= 5
    ensures FormFormat.KeepDigits(r.expiryDate) == FormFormat.KeepDigits(typed)[..Min(4, |FormFormat.KeepDigits(typed)|)]
    ensures r.paymentType == p.paymentType && r.cardNumber == p.cardNumber && r.isDefault == p.isDefault
  {
    FormFormat.ExpiryKeepsLeadingDigits(typed);
    p.(expiryDate := FormFormat.FormatExpiryDate(typed))
  }

  /** Typing the same card text twice, or retyping what is shown, leaves the stored number as it is. */
  lemma CardRetypeIsStable(p: PaymentMethod, typed: string)
    ensures HandleCardNumberChange(HandleCardNumberChange(p, typed), HandleCardNumberChange(p, typed).cardNumber)
         == HandleCardNumberChange(p, typed)
  {
    FormFormat.FormatCardNumberIdempotent(typed);
  }

  /** A month and year typed as four digits are stored in a shape the expiry rule accepts. */
  lemma TypedExpiryPasses(p: PaymentMethod, typed: string)
    requires AllDigits(typed) && |typed| == 4
    requires (typed[0] == '0' && typed[1] != '0') || (typed[0] == '1' && typed[1] <= '2')
    ensures FormFormat.ValidExpiry(HandleExpiryDateChange(p, typed).expiryDate)
  {
    FormFormat.FormattedMonthYearIsValid(typed);
  }

  // handleSubmit

  /** How the signup call ended: `err?.message` is what a failure carries. */
  datatype SignupResult = SignedUp | SignupRejected(message: Option<string>)

  datatype SubmitEffect = CallSignup(form: Form) | NavigateWithMessage(path: string, message: string)

  datatype Submitted = Submitted(errors: Errors, error: Option<string>, loading: bool, effects: seq<SubmitEffect>)

  /** `handleSubmit`, given the outcome the signup call would have. */
  function HandleSubmit(f: Form, loading: bool, result: SignupResult): (r: Submitted)
    ensures r.errors == Validate(f)
    ensures CallSignup(f) in r.effects <==> MeetsAllRules(f)
    ensures !MeetsAllRules(f) ==> r.effects == [] && r.error.None? && r.loading == loading
    ensures MeetsAllRules(f) ==> !r.loading && r.effects[0] == CallSignup(f)
    ensures MeetsAllRules(f) && result.SignedUp? ==> r.error.None? && r.effects == [CallSignup(f), NavigateWithMessage(LoginPath, SignupDone)]
    ensures MeetsAllRules(f) && result.SignupRejected? ==> r.error == Some(StrOr(result.message, SignupFailed)) && |r.effects| == 1
  {
    ValidateAcceptsExactlyValidForms(f);
    var errors := Validate(f);
    if !IsClean(errors) then Submitted(errors, None, loading, [])
    else match result
      case SignedUp => Submitted(errors, None, false, [CallSignup(f), NavigateWithMessage(LoginPath, SignupDone)])
      case SignupRejected(m) => Submitted(errors, Some(StrOr(m, SignupFailed)), false, [CallSignup(f)])
  }

  /** A failed signup always leaves a message to show. */
  lemma RejectionIsExplained(f: Form, loading: bool, m: Option<string>)
    requires MeetsAllRules(f)
    ensures StrTruthy(HandleSubmit(f, loading, SignupRejected(m)).error)
  {
  }
}

/**
 * The older signup form: one change handler for every input, addressing
 * nested fields by a dotted name, and a submit that posts the form as it
 * stands, without validation.
 */
module LegacySignup {
  import opened Js

  /** The form as a JavaScript object: strings, flags and nested objects by key. */
  datatype Value = Str(s: string) | Flag(b: bool) | Obj(fields: map<string, Value>)

  type Object = map<string, Value>

  const AddressKeys: set<string> := {"address", "city", "postalCode"}
  const PaymentKeys: set<string> := {"paymentType", "cardNumber", "expiryDate", "isDefault"}
  const TextKeys: set<string> := {"username", "password", "name", "contact"}

  const Initial: Object := map[
    "username" := Str(""), "password" := Str(""), "name" := Str(""), "contact" := Str(""),
    "address" := Obj(map["address" := Str(""), "city" := Str(""), "postalCode" := Str("")]),
    "paymentMethod" := Obj(map["paymentType" := Str("CREDIT_CARD"), "cardNumber" := Str(""), "expiryDate" := Str(""), "isDefault" := Flag(true)])]

  /** The shape the form keeps: four text fields and the two nested records. */
  predicate Shaped(f: Object) {
    && f.Keys == TextKeys + {"address", "paymentMethod"}
    && (forall k :: k in TextKeys ==> f[k].Str?)
    && f["address"].Obj? && f["address"].fields.Keys == AddressKeys
    && f["paymentMethod"].Obj? && f["paymentMethod"].fields.Keys == PaymentKeys
  }

  lemma InitialIsShaped()
    ensures Shaped(Initial)
  {
  }

  /** Position of the first `c` in `s`. */
  function IndexOf(s: string, c: char): (r: Option<nat>)
    ensures r.None? <==> c !in s
    ensures r.Some? ==> r.value < |s| && s[r.value] == c && c !in s[..r.value]
    decreases |s|
  {
    if |s| == 0 then None
    else if s[0] == c then Some(0)
    else match IndexOf(s[1..], c)
      case None => None
      case Some(i) =>
        assert s[..i + 1] == [s[0]] + s[1..][..i];
        Some(i + 1)
  }

  /** The first piece of `s.split('.')`... */
  function BeforeDot(s: string): (r: string)
    ensures r == s <==> '.' !in s
    ensures '.' !in r
  {
    match IndexOf(s, '.')
    case None => s
    case Some(i) => s[..i]
  }

  /** ...and the text after the first dot. */
  function AfterDot(s: string): string
    requires '.' in s
  {
    s[IndexOf(s, '.').value + 1..]
  }

  /** How the handler reads an input's name: `name.includes('.')`, then `const [parent, child] = name.split('.')`. */
  datatype InputName = Plain(key: string) | Dotted(parent: string, child: string)

  function ParseName(name: string): (n: InputName)
    ensures n.Plain? <==> '.' !in name
    ensures n.Plain? ==> n.key == name
    ensures n.Dotted? ==> name == n.parent + "." + AfterDot(name) && n.child == BeforeDot(AfterDot(name))
    ensures n.Dotted? ==> '.' !in n.parent && '.' !in n.child
  {
    if '.' in name then
      var i := IndexOf(name, '.').value;
      assert name == name[..i] + "." + name[i + 1..];
      Dotted(name[..i], BeforeDot(AfterDot(name)))
    else Plain(name)
  }

  /** A name built as parent, dot, child reads back as that parent and child. */
  lemma ParseDotted(parent: string, child: string)
    requires '.' !in parent && '.' !in child
    ensures ParseName(parent + "." + child) == Dotted(parent, child)
  {
    var name := parent + "." + child;
    assert name[|parent|] == '.';
    var i := IndexOf(name, '.').value;
    assert forall j :: 0 <= j < |parent| ==> name[j] == parent[j];
    assert i == |parent|;
    assert name[..i] == parent;
    assert AfterDot(name) == child;
  }

  /** `{ ...v }` of a nested record: the fields of an object, nothing for anything else. */
  function Spread(f: Object, key: string): map<string, Value> {
    if key in f && f[key].Obj? then f[key].fields else map[]
  }

  /** The state update for a parsed name: a dotted name rebuilds its parent from `address`, or for any other parent from `paymentMethod`. */
  function Update(f: Object, n: InputName, value: string): (r: Object)
    ensures n.Plain? ==> r.Keys == f.Keys + {n.key} && r[n.key] == Str(value)
    ensures n.Plain? ==> forall k :: k in f && k != n.key ==> r[k] == f[k]
    ensures n.Dotted? ==>
      && r.Keys == f.Keys + {n.parent}
      && (forall k :: k in f && k != n.parent ==> r[k] == f[k])
      && r[n.parent] == Obj(Spread(f, if n.parent == "address" then "address" else "paymentMethod")[n.child := Str(value)])
  {
    match n
    case Plain(k) => f[k := Str(value)]
    case Dotted(parent, child) =>
      f[parent := Obj(Spread(f, if parent == "address" then "address" else "paymentMethod")[child := Str(value)])]
  }

  /** `handleChange`. */
  function HandleChange(f: Object, name: string, value: string): Object {
    Update(f, ParseName(name), value)
  }

  /** Editing `address.x` sets only that address line. */
  lemma AddressLineSetsOnlyThat(f: Object, child: string, value: string)
    requires Shaped(f) && child in AddressKeys
    ensures var r := HandleChange(f, "address." + child, value);
      && Shaped(r)
      && r["address"].fields[child] == Str(value)
      && (forall k :: k in AddressKeys && k != child ==> r["address"].fields[k] == f["address"].fields[k])
      && (forall k :: k in f && k != "address" ==> r[k] == f[k])
  {
    assert "address." + child == "address" + "." + child;
    ParseDotted("address", child);
  }

  /** Editing `paymentMethod.x` sets only that payment field. */
  lemma PaymentFieldSetsOnlyThat(f: Object, child: string, value: string)
    requires Shaped(f) && child in PaymentKeys
    ensures var r := HandleChange(f, "paymentMethod." + child, value);
      && Shaped(r)
      && r["paymentMethod"].fields[child] == Str(value)
      && (forall k :: k in PaymentKeys && k != child ==> r["paymentMethod"].fields[k] == f["paymentMethod"].fields[k])
      && (forall k :: k in f && k != "paymentMethod" ==> r[k] == f[k])
  {
    assert "paymentMethod." + child == "paymentMethod" + "." + child;
    ParseDotted("paymentMethod", child);
    var pm := f["paymentMethod"].fields;
    var r := HandleChange(f, "paymentMethod." + child, value);
    assert r == f["paymentMethod" := Obj(pm[child := Str(value)])];
    assert pm[child := Str(value)].Keys == PaymentKeys;
  }

  /** Editing a plain text input sets only that field. */
  lemma TextFieldSetsOnlyThat(f: Object, name: string, value: string)
    requires Shaped(f) && name in TextKeys
    ensures var r := HandleChange(f, name, value);
      && Shaped(r) && r[name] == Str(value)
      && (forall k :: k in f && k != name ==> r[k] == f[k])
  {
    assert '.' !in name;
  }

  /** A dotted name whose parent is not 'address' gets a copy of the payment record, edited, stored under that parent. */
  lemma OtherParentCopiesPaymentMethod(f: Object, parent: string, child: string, value: string)
    requires Shaped(f) && parent != "address" && parent != "paymentMethod"
    requires '.' !in parent && '.' !in child
    ensures var r := HandleChange(f, parent + "." + child, value);
      && parent in r && r[parent] == Obj(f["paymentMethod"].fields[child := Str(value)])
      && "paymentMethod" in r && r["paymentMethod"] == f["paymentMethod"]
      && "address" in r && r["address"] == f["address"]
  {
    ParseDotted(parent, child);
  }

  const SignupFailed: string := "Signup failed"
  const ErrorOccurred: string := "An error occurred"
  const LoginPath: string := "/login"

  /** How the POST ended: a readable success, a refusal with the body's `message`, or a thrown value. */
  datatype Outcome = Created | Refused(message: Option<string>) | Threw(error: Thrown)

  datatype Effect = PostSignup(body: Object) | Navigate(path: string)

  datatype Submitted = Submitted(error: Option<string>, loading: bool, effects: seq<Effect>)

  /** `handleSubmit`: post the form unchecked, then navigate or keep an error. */
  function HandleSubmit(f: Object, o: Outcome): (r: Submitted)
    ensures |r.effects| >= 1 && r.effects[0] == PostSignup(f)
    ensures !r.loading
    ensures o.Created? <==> r.error.None?
    ensures o.Created? <==> Navigate(LoginPath) in r.effects
    ensures o.Refused? ==> r.error == Some(StrOr(o.message, SignupFailed))
    ensures o.Threw? ==> r.error == Some(MessageOf(o.error, ErrorOccurred))
  {
    var post := PostSignup(f);
    match o
    case Created => Submitted(None, false, [post, Navigate(LoginPath)])
    case Refused(m) => Submitted(Some(StrOr(m, SignupFailed)), false, [post])
    case Threw(e) => Submitted(Some(MessageOf(e, ErrorOccurred)), false, [post])
  }

  /** Even the untouched blank form is sent to the server. */
  lemma BlankFormIsPosted(o: Outcome)
    ensures HandleSubmit(Initial, o).effects[0] == PostSignup(Initial)
  {
  }
}

=== FILE: stepper.dfy ===
/**
 * The cart's quantity stepper: a local value with decrease / increase
 * buttons and a typed input. The feature version clamps typed input into
 * [min, max]; the older version rejects anything outside it.
 */
module QuantityStepper {
  import opened Js

  const DefaultMin: int := 1
  const DefaultMax: int := 99

  /** The component's props; `min`, `max` and `disabled` carry their defaults when omitted. */
  datatype Props = Props(min: int, max: int, disabled: bool)

  function MakeProps(min: Option<int>, max: Option<int>, disabled: Option<bool>): (p: Props)
    ensures min.None? ==> p.min == DefaultMin
    ensures max.None? ==> p.max == DefaultMax
    ensures disabled.None? ==> !p.disabled
    ensures min.Some? ==> p.min == min.value
    ensures max.Some? ==> p.max == max.value
    ensures disabled.Some? ==> p.disabled == disabled.value
  {
    Props(min.GetOr(DefaultMin), max.GetOr(DefaultMax), disabled.GetOr(false))
  }

  /** A user or parent interaction; `Typed` carries `parseInt` of the text (None for NaN). */
  datatype Event = Decrease | Increase | Typed(parsed: Option<int>) | PropSync(value: int)

  /** The new local value and the value passed to `onChange`, if it was called. */
  datatype Step = Step(local: int, reported: Option<int>)

  function Clamp(lo: int, hi: int, v: int): (r: int)
    ensures lo <= hi ==> lo <= r <= hi
    ensures lo <= v <= hi ==> r == v
    ensures v < lo ==> r == lo
    ensures lo <= hi && v > hi ==> r == hi
  {
    Max(lo, Min(hi, v))
  }

  function HandleDecrease(p: Props, local: int): (s: Step)
    ensures p.disabled || local <= p.min ==> s == Step(local, None)
    ensures !p.disabled && local > p.min ==> s == Step(local - 1, Some(local - 1))
  {
    if p.disabled || local <= p.min then Step(local, None)
    else Step(local - 1, Some(local - 1))
  }

  function HandleIncrease(p: Props, local: int): (s: Step)
    ensures p.disabled || local >= p.max ==> s == Step(local, None)
    ensures !p.disabled && local < p.max ==> s == Step(local + 1, Some(local + 1))
  {
    if p.disabled || local >= p.max then Step(local, None)
    else Step(local + 1, Some(local + 1))
  }

  /** `handleInputChange`: `parseInt(text) || min`, clamped, stored and reported. */
  function HandleInputChange(p: Props, local: int, parsed: Option<int>): (s: Step)
    ensures p.disabled ==> s == Step(local, None)
    ensures !p.disabled ==> s.reported == Some(s.local)
    ensures !p.disabled && p.min <= p.max ==> p.min <= s.local <= p.max
    ensures !p.disabled && (parsed.None? || parsed.value == 0) ==> s.local == p.min
    ensures !p.disabled && parsed.Some? && parsed.value != 0 && p.min <= parsed.value <= p.max ==> s.local == parsed.value
  {
    if p.disabled then Step(local, None)
    else
      var v := Clamp(p.min, p.max, ParsedOr(parsed, p.min));
      Step(v, Some(v))
  }

  function Apply(p: Props, local: int, e: Event): Step {
    match e
    case Decrease => HandleDecrease(p, local)
    case Increase => HandleIncrease(p, local)
    case Typed(parsed) => HandleInputChange(p, local, parsed)
    case PropSync(v) => Step(v, None)
  }

  /** Whenever `onChange` is called, it receives exactly the value now stored. */
  lemma ReportedIsStored(p: Props, local: int, e: Event)
    ensures Apply(p, local, e).reported.Some? ==> Apply(p, local, e).reported.value == Apply(p, local, e).local
  {
  }

  /** Each step moves the value by exactly one, or not at all. */
  lemma ButtonsMoveByOne(p: Props, local: int)
    ensures HandleDecrease(p, local).local == local || HandleDecrease(p, local).local == local - 1
    ensures HandleIncrease(p, local).local == local || HandleIncrease(p, local).local == local + 1
  {
  }

  /** The local value after a run of user interactions (no parent re-sync). */
  function Run(p: Props, local: int, events: seq<Event>): int
    decreases |events|
  {
    if |events| == 0 then local else Run(p, Apply(p, local, events[0]).local, events[1..])
  }

  predicate UserEvent(e: Event) {
    !e.PropSync?
  }

  /** A value that starts in [min, max] stays there under every user interaction. */
  lemma {:induction false} RunStaysInRange(p: Props, local: int, events: seq<Event>)
    requires p.min <= local <= p.max
    requires forall i :: 0 <= i < |events| ==> UserEvent(events[i])
    ensures p.min <= Run(p, local, events) <= p.max
    decreases |events|
  {
    if |events| > 0 {
      var next := Apply(p, local, events[0]).local;
      assert p.min <= next <= p.max;
      RunStaysInRange(p, next, events[1..]);
    }
  }

  /** Even from out of range, one typed entry brings the value into [min, max]. */
  lemma TypedEntryRestoresRange(p: Props, local: int, parsed: Option<int>)
    requires !p.disabled && p.min <= p.max
    ensures p.min <= Apply(p, local, Typed(parsed)).local <= p.max
  {
  }

  /** A disabled stepper ignores every user interaction. */
  lemma {:induction false} DisabledIsFrozen(p: Props, local: int, events: seq<Event>)
    requires p.disabled
    requires forall i :: 0 <= i < |events| ==> UserEvent(events[i])
    ensures Run(p, local, events) == local
    decreases |events|
  {
    if |events| > 0 {
      assert Apply(p, local, events[0]).local == local;
      DisabledIsFrozen(p, local, events[1..]);
    }
  }
}

/** The older stepper: no `disabled` prop, out-of-range typed input is dropped. */
module LegacyQuantityStepper {
  import opened Js
  import QuantityStepper

  datatype Props = Props(min: int, max: int)

  function MakeProps(min: Option<int>, max: Option<int>): (p: Props)
    ensures p.min == min.GetOr(1) && p.max == max.GetOr(99)
  {
    Props(min.GetOr(QuantityStepper.DefaultMin), max.GetOr(QuantityStepper.DefaultMax))
  }

  function HandleDecrease(p: Props, local: int): (s: QuantityStepper.Step)
    ensures local > p.min ==> s == QuantityStepper.Step(local - 1, Some(local - 1))
    ensures local <= p.min ==> s == QuantityStepper.Step(local, None)
  {
    if local > p.min then QuantityStepper.Step(local - 1, Some(local - 1))
    else QuantityStepper.Step(local, None)
  }

  function HandleIncrease(p: Props, local: int): (s: QuantityStepper.Step)
    ensures local < p.max ==> s == QuantityStepper.Step(local + 1, Some(local + 1))
    ensures local >= p.max ==> s == QuantityStepper.Step(local, None)
  {
    if local < p.max then QuantityStepper.Step(local + 1, Some(local + 1))
    else QuantityStepper.Step(local, None)
  }

  /** `handleInputChange`: `parseInt(text) || min`, accepted only inside [min, max]. */
  function HandleInputChange(p: Props, local: int, parsed: Option<int>): (s: QuantityStepper.Step)
    ensures s.reported.Some? <==> p.min <= ParsedOr(parsed, p.min) <= p.max
    ensures s.reported.Some? ==> s.local == s.reported.value == ParsedOr(parsed, p.min)
    ensures s.reported.None? ==> s.local == local
  {
    var v := ParsedOr(parsed, p.min);
    if p.min <= v && v <= p.max then QuantityStepper.Step(v, Some(v))
    else QuantityStepper.Step(local, None)
  }

  /** Unparsable or zero text reads as `min` and is therefore always accepted (when min <= max). */
  lemma GarbageBecomesMin(p: Props, local: int, parsed: Option<int>)
    requires p.min <= p.max
    requires parsed.None? || parsed.value == 0
    ensures HandleInputChange(p, local, parsed) == QuantityStepper.Step(p.min, Some(p.min))
  {
  }

  function Apply(p: Props, local: int, e: QuantityStepper.Event): QuantityStepper.Step {
    match e
    case Decrease => HandleDecrease(p, local)
    case Increase => HandleIncrease(p, local)
    case Typed(parsed) => HandleInputChange(p, local, parsed)
    case PropSync(v) => QuantityStepper.Step(v, None)
  }

  function Run(p: Props, local: int, events: seq<QuantityStepper.Event>): int
    decreases |events|
  {
    if |events| == 0 then local else Run(p, Apply(p, local, events[0]).local, events[1..])
  }

  /** A value that starts in [min, max] stays there under every user interaction. */
  lemma {:induction false} RunStaysInRange(p: Props, local: int, events: seq<QuantityStepper.Event>)
    requires p.min <= local <= p.max
    requires forall i :: 0 <= i < |events| ==> QuantityStepper.UserEvent(events[i])
    ensures p.min <= Run(p, local, events) <= p.max
    decreases |events|
  {
    if |events| > 0 {
      var next := Apply(p, local, events[0]).local;
      assert p.min <= next <= p.max;
      RunStaysInRange(p, next, events[1..]);
    }
  }

  /**
   * The two steppers differ only on typed input outside the range: the
   * feature version clamps it to the nearest bound and reports it, the older
   * one keeps the current value and stays silent.
   */
  lemma ClampVersusReject(lo: int, hi: int, local: int, typed: int)
    requires lo <= hi && typed != 0 && (typed < lo || typed > hi)
    ensures QuantityStepper.HandleInputChange(QuantityStepper.Props(lo, hi, false), local, Some(typed)).reported
      == Some(if typed < lo then lo else hi)
    ensures HandleInputChange(Props(lo, hi), local, Some(typed)) == QuantityStepper.Step(local, None)
  {
  }

  /** On the buttons and on in-range input, the older stepper agrees with an enabled feature stepper. */
  lemma AgreesWhenEnabled(lo: int, hi: int, local: int, e: QuantityStepper.Event)
    requires lo <= hi
    requires e.Typed? ==> lo <= ParsedOr(e.parsed, lo) <= hi
    ensures Apply(Props(lo, hi), local, e) == QuantityStepper.Apply(QuantityStepper.Props(lo, hi, false), local, e)
  {
  }
}
